=== FILE: README.md ===
# EduAI Pro: a Dafny model of its deterministic core

EduAI Pro is a teaching assistant. It has a FastAPI backend (`Backend/main.py`, `Backend/database.py`) and a React front end (`frontend/src/*.js`). Students ask a tutor questions, take quick quizzes and run a virtual physics lab. Faculty upload course material and the CAT1/CAT2 mark sheets, and read analytics that relate marks to doubts.

This project models the parts of that system whose behaviour is fixed by the code alone:

- keyword lookup of a PhET simulation;
- the fuzzy spreadsheet-column finder, the percentage formula and the CAT1/CAT2 mark upserts;
- the doubt log with its `System` seed records and chart queries;
- the deep-analytics reduction: averages, friction, a stable descending sort, the report gate and poor performers;
- the user store: signup, login, security question and password reset;
- the database URL fallback and its scheme rewrite;
- the state machines of each page: student chat and quiz, virtual-lab log, faculty login, faculty dashboard, app shell, navbar, topic chart and the typewriter title.

Every handler is a pure function from the state before the event to the state after it. Network replies, the language model's answer, the user's confirmation and bcrypt salts are parameters. Requests, alerts, stored values and navigation are results.

Files, one module each:

- `wrappers.dfy`: `Option`/`Result`.
- `strings.dfy`: Python `strip`/`lower`, JavaScript `trim`, `replace`, containment.
- `seqs.dfy`: first-match search, filter, count.
- `numbers.dfy`: Python `round` and decimal rendering.
- `json.dfy`: `JSON.stringify`/`JSON.parse` of one string.
- `local_storage.dfy`: the browser's key–value store.
- `simulations.dfy`: the `simulations` catalogue.
- `marks.dfy`: marks.
- `doubts.dfy`: the doubt log.
- `analytics.dfy`: deep analytics.
- `auth.dfy`: the user store.
- `database_url.dfy`: the database URL.
- `student_dashboard.dfy`, `virtual_lab.dfy`, `faculty_login.dfy`, `faculty_dashboard.dfy`, `app_shell.dfy`, `navbar.dfy`, `topic_chart.dfy`, `typewriter.dfy`: one page or component each.

The code credits a different quiz score from the one the result screen shows. For two right answers followed by a wrong last one, the screen shows 20 XP but 30 XP are added and submitted. The model follows the code here: `StudentDashboard.FinishedQuizScores` states both numbers in general, and `StudentDashboard.WrongLastAnswerStillCredited` gives the 20/30 instance.

## Model

| member | source | states |
|---|---|---|
| Simulations.FindSimulationIn | Backend/main.py:82-88 | None exactly when no keyword of any entry occurs in the lower-cased query; otherwise the first entry in table order that has such a keyword |
| Simulations.FindSimulation | Backend/main.py:82-88 | a card found for a question comes from the catalogue and has a keyword that occurs in the lower-cased question |
| Simulations.FindSimulationCaseInsensitive | Backend/main.py:83 | the lookup gives the same card for a query and its lower-cased form |
| Simulations.PendulumQuestionFindsPendulumLab | Backend/main.py:44-47 | any query mentioning "pendulum" in any case finds the first card, Pendulum Lab, whatever else it mentions |
| Marks.CalculatePercentage | Backend/main.py:352-356 | below 50 percent exactly when the raw marks are below 37.5 of 75; 75 marks give 100 percent; the result is non-negative for non-negative marks |
| Marks.PercentageBounds | Backend/main.py:352-356 | within the CO maxima of the schema comments, the percentage lies in [0, 200] |
| Marks.FullMarksGiveTwoHundred | Backend/models.py:35-42 | full marks in every outcome (30, 30, 15, 15, 30, 30) give 200 percent, because the divisor 75 is half the documented total |
| Marks.FindColumn | Backend/main.py:360-367 | None exactly when no column's upper-cased name, with `.` and `_` removed, contains a keyword; otherwise the first such column in column order |
| Marks.RegisterNumberKeywordRedundant | Backend/main.py:432 | adding "REGISTER NUMBER" after "REG" never changes which column is found |
| Marks.GetVal | Backend/main.py:403-408 | 0.0 when no column matches or the cell of the first matching column does not convert; otherwise that cell's float value |
| Marks.LayoutFor | Backend/main.py:377-384 | no layout exactly when no register column is found; otherwise the register column is the first one matching the exam's keywords, the CAT1 name column is the first matching `NAME` or `STUDENT`, and CAT2 uses no name column |
| Marks.Read | Backend/main.py:389-412 | the register number is the stripped cell text, and a row is kept exactly when that text is neither empty nor `nan` in any case; the name is the name column's cell; the three marks are the values of the columns matching `CO1`, `CO2`, `CO3` for CAT1 and `CO3`, `CO4`, `CO5` for CAT2 |
| Marks.ReadAll | Backend/main.py:388-392 | one reading per row, in sheet order |
| Marks.Apply | Backend/main.py:396-413 | the row's update writes the name (when a name column exists) and its exam's three marks; every other field is kept; the percentage is recomputed from the result |
| Marks.LastFor | Backend/main.py:388-415 | the last kept row naming a register number; no later kept row names it |
| Marks.Process | Backend/main.py:388-415 | the loop counts the kept rows; the table gains exactly their register numbers; untouched records are unchanged; every record differs from where it started only in fields its exam writes; each named record holds the values of its last row; a clash occurs exactly when two kept rows name the same new register number |
| Marks.Step | Backend/main.py:388-415 | a skipped row changes nothing; a kept row adds its register number, counts one, writes the fields it owns from the row and keeps the other fields of the record it starts from; every other record is unchanged; a clash once recorded stays |
| Marks.StepClash | Backend/database.py:38 | with autoflush off, one more row makes a clash exactly when it repeats a register number that is new to the committed table |
| Marks.UploadMarks | Backend/main.py:370-469 | the missing-column error comes first and nothing changes; otherwise the commit fails exactly when a new register number repeats; otherwise the upload succeeds, and the result holds the count, the keys, the write frame, the owned values, and consistency of records with their keys and percentages |
| Marks.ProcessConsistent | Backend/main.py:412-413 | records stay filed under their register number, with the percentage their marks give |
| Marks.CatUploadsCompose | Backend/main.py:410-412 | after a CAT1 upload and then a CAT2 upload, a student named in both keeps the CAT1 marks of the first sheet and holds the CAT2 marks of the second |
| Marks.NoNamesInCat2 | Backend/main.py:430-435 | a CAT2 sheet never writes names |
| Doubts.UnitNameFor | Backend/main.py:177 | never empty: the stripped unit when that is not empty, otherwise `Others` |
| Doubts.UploadMaterial | Backend/main.py:187-189 | a unit seen for the first time gets one `Init`/`System` record; a known unit leaves the log unchanged |
| Doubts.UploadMaterialIdempotent | Backend/main.py:187-189 | uploading for the same unit twice seeds it once |
| Doubts.Categorize | Backend/main.py:100-107 | a failed model call gives `General` |
| Doubts.CategorizeRemovesQuotes | Backend/main.py:105 | a topic taken from a reply holds no `'` and no `"` |
| Doubts.AskAi | Backend/main.py:219-224 | the question is appended to the log under its topic, and any simulation returned comes from the catalogue |
| Doubts.Units | Backend/main.py:192-195 | the listed units are exactly the labels in the log, except empty ones and `None` |
| Doubts.UploadedUnitListed | Backend/main.py:187-195 | an uploaded unit is listed, unless its label is the text `None` |
| Doubts.Tally | Backend/main.py:285-288 | the grouped count has one key per distinct value, mapped to its number of occurrences |
| Doubts.Questions | Backend/main.py:287 | keeps exactly the records whose topic is not `System` |
| Doubts.InUnit | Backend/main.py:292 | keeps exactly the records of one unit |
| Doubts.Chart | Backend/main.py:285-288 | the chart has a bar exactly for each unit label with at least one question, and each bar counts that unit's questions; seed records are never counted |
| Doubts.Topics | Backend/main.py:290-293 | within one unit, a bar exactly for each topic with at least one question, counting that topic's questions; seed records are never counted |
| Doubts.UnitCountIsQuestionCount | Backend/main.py:287 | counting a unit's label among the questions counts the questions of that unit |
| Doubts.TopicCountIsQuestionCount | Backend/main.py:292 | counting a topic among one unit's questions counts the questions of that unit on that topic |
| Doubts.SeedInvisibleInChart | Backend/main.py:287 | a material upload never changes the chart |
| Doubts.QuestionInChart | Backend/main.py:285-288 | one more question adds exactly one to its unit's bar |
| Doubts.AskAiCountsOnce | Backend/main.py:221-222 | asking adds one to the unit's bar unless the topic came back as `System` |
| Analytics.AverageBounds | Backend/main.py:478-487 | within the documented maxima, every unit average lies in [0, 100] |
| Analytics.AveragePercent | Backend/main.py:484-487 | the average is the class total as a percentage of 30 points per student |
| Analytics.DoubtCount | Backend/main.py:499-502 | at most one per doubt record, and zero exactly when no record's unit label contains the unit's digit |
| Analytics.FrictionScore | Backend/main.py:508 | at least 1.2 per missing percentage point, more as soon as there is a doubt; an average below 66.6 gives more than 40 |
| Analytics.UnitLabelMatchesItsUnit | Backend/main.py:499-502 | the label `Unit v` is counted for unit u exactly when u = v |
| Analytics.LabelCountedPerDigit | Backend/main.py:501 | a label is counted for every unit whose digit it contains |
| Analytics.LabelCountedTwice | Backend/main.py:501 | the label `Unit 12` is counted for unit 1 and for unit 2 |
| Analytics.SeedCountsAsDoubt | Backend/main.py:498-502 | a `System` seed record counts as a doubt for each unit whose digit its label holds, since this count has no topic filter |
| Analytics.AnalyseUnit | Backend/main.py:506-515 | an entry carries its unit's name, its doubt count, an average within 0.05 of the unrounded one, and the friction of the count and the unrounded average |
| Analytics.InsertPermutes | Backend/main.py:518 | insertion adds the element and keeps all others |
| Analytics.InsertSorted | Backend/main.py:518 | insertion into a sequence sorted by descending friction keeps it sorted |
| Analytics.SortByFriction | Backend/main.py:518 | the sort returns a permutation of its input, in descending friction |
| Analytics.SortStable | Backend/main.py:518 | for each friction value, the entries with that value keep their input order |
| Analytics.TopIsWorst | Backend/main.py:518-519 | the first sorted entry has the highest friction |
| Analytics.CleanReply | Backend/main.py:558 | the cleaned reply is empty or starts and ends with a non-space |
| Analytics.FencedReplyUnwrapped | Backend/main.py:558 | a reply wrapped in a `json` code fence is reduced to its stripped body |
| Analytics.Fallback | Backend/main.py:563-569 | the fallback insight names the worst unit, and its observation starts with the fixed prefix |
| Analytics.FallbackScoreReadsBack | Backend/main.py:567 | the number in the fallback observation is a canonical numeral within one half of the friction |
| Analytics.AiInsights | Backend/main.py:523-569 | empty unless the top friction exceeds 40; then the decoded reply, or the single fallback insight when the call or the decoding fails |
| Analytics.DeepAnalytics | Backend/main.py:473-576 | `No data` exactly for no students; otherwise the graph is a permutation of the five entries, sorted and stable; insights appear only above the threshold; the poor performers are exactly the students below 50 percent |
| Analytics.PoorPerformersBelowFifty | Backend/main.py:575 | a student is listed as a poor performer exactly when the stored percentage is below 50 |
| Analytics.LowAverageTriggersReport | Backend/main.py:505-527 | a unit average below 66.6 percent puts the top friction over 40 |
| Analytics.PoorMeansBelowHalfOfSeventyFive | Backend/main.py:575 | in a consistent table, a poor performer is exactly a student with fewer than 37.5 raw marks |
| Auth.BcryptKey | Backend/main.py:91-97 | bcrypt hashes the UTF-8 bytes of the secret cut at 72: all of them when there are fewer than 72, otherwise exactly the first 72 |
| Auth.HashPassword | Backend/main.py:91-97 | a digest verifies against the secret it was made from |
| Auth.LongSecretsCollide | Backend/main.py:96-97 | two secrets whose UTF-8 encodings share their first 72 bytes verify against each other's digest, whatever follows |
| Auth.AsciiEncoding | Backend/main.py:93 | an ASCII secret encodes to one byte per character, its code |
| Auth.ShortAsciiSecretsExact | Backend/main.py:96-97 | for ASCII secrets of at most 72 characters, the check accepts exactly the secret itself |
| Auth.NormalizeAnswer | Backend/main.py:130 | the normalised answer is no longer than the answer, holds no ASCII capital letter, and neither starts nor ends with whitespace |
| Auth.Signup | Backend/main.py:110-134 | refused with 400 exactly when the email is registered; otherwise exactly one user is added and the others are kept |
| Auth.Login | Backend/main.py:137-142 | succeeds exactly when the email exists with this role and the password verifies; otherwise 401; a success returns the stored name and email |
| Auth.GetSecurityQuestion | Backend/main.py:145-151 | the stored question, or 404 exactly when the email is unknown |
| Auth.ResetPassword | Backend/main.py:154-171 | 404 exactly for an unknown user and 401 exactly for a wrong normalised answer; otherwise only that user's password hash changes, to one of the new password |
| Auth.SignupThenLogin | Backend/main.py:120-142 | a login with the signup's password and role succeeds and returns the signup's name |
| Auth.SignupThenWrongLogin | Backend/main.py:139-141 | a login under another role, or with a password that differs from the signup's in the bytes bcrypt reads, is refused |
| Auth.SignupThenQuestion | Backend/main.py:110-151 | the question given at signup reads back |
| Auth.SignupThenReset | Backend/main.py:110-171 | a reset is accepted exactly when the normalised answer agrees with the signup's in the bytes bcrypt reads |
| Auth.ResetThenLogin | Backend/main.py:169-171 | after a reset the new password logs in, and an old one that differs from it in the bytes bcrypt reads does not |
| Auth.AnswerCaseAndBlanksIgnored | Backend/main.py:165 | the answer upper-cased and padded with blanks normalises like the answer itself |
| Unicode.Utf8 | Backend/database.py:22 | ASCII encodes to its one byte; every other character encodes to 2 to 4 bytes of at least 0x80 |
| Unicode.EncodeAppend | Backend/database.py:22 | encoding two texts one after the other gives the two encodings one after the other |
| DatabaseUrl.QuoteBytesAlphabet | Backend/database.py:22-23 | the escaped password holds only letters, digits and `_.-~+%` |
| DatabaseUrl.QuotePlus | Backend/database.py:22 | the escaped password holds only letters, digits and `_.-~+%`, and unescaping it gives its UTF-8 bytes back |
| DatabaseUrl.QuotePlusUrlSafe | Backend/database.py:17-22 | an escaped password holds no `@`, `/` or `:`, so it cannot split the URL |
| DatabaseUrl.QuoteBytesRoundTrip | Backend/database.py:22 | unescaping the escape of any byte sequence gives the bytes back |
| DatabaseUrl.QuotePlusSafeUnchanged | Backend/database.py:22 | text made only of never-escaped ASCII characters is unchanged |
| DatabaseUrl.AtEscaped | Backend/database.py:17-22 | an `@` between two never-escaped texts becomes `%40`, as in the default password |
| DatabaseUrl.Getenv | Backend/database.py:16-20 | an unset variable gives the default; a set one gives its value, even when empty |
| DatabaseUrl.FallbackUrl | Backend/database.py:15-23 | the built URL starts with `postgresql://` |
| DatabaseUrl.FallbackUrlShape | Backend/database.py:15-23 | the URL is user, escaped password, host, port and name in place, and the password part holds no `@`, `/` or `:` |
| DatabaseUrl.FixScheme | Backend/database.py:27-28 | a leading `postgres://` is replaced by `postgresql://` and the rest kept; any other URL is unchanged; the result never starts with `postgres://` |
| DatabaseUrl.FixSchemeIdempotent | Backend/database.py:27-28 | fixing twice is fixing once |
| DatabaseUrl.DatabaseUrl | Backend/database.py:12-28 | a non-empty `DATABASE_URL` is used with its scheme fixed; otherwise the fallback URL; the result never has the legacy scheme |
| DatabaseUrl.DefaultUrl | Backend/database.py:16-23 | with nothing set, the URL is built from postgres, the escaped default password, localhost, 5432 and eduai_db |
| StudentDashboard.AskAi | frontend/src/StudentDashboard.js:82-100 | a no-op without a non-blank question and a unit; otherwise two messages are appended after the unchanged transcript (the question first); the input is cleared; the request's history ends with the question |
| StudentDashboard.AskAiAnswer | frontend/src/StudentDashboard.js:96-98 | the second message is the server's answer with its simulation, or "Error connecting." |
| StudentDashboard.TranscriptOnlyGrows | frontend/src/StudentDashboard.js:85-98 | any run of questions only extends the transcript |
| StudentDashboard.RefreshContext | frontend/src/StudentDashboard.js:102-104 | a confirmed clear empties the transcript and the input; a declined one changes nothing |
| StudentDashboard.EnabledSendAsks | frontend/src/StudentDashboard.js:233 | an enabled send button always sends a request |
| StudentDashboard.StartQuiz | frontend/src/StudentDashboard.js:113-126 | without a unit only the alert happens; otherwise score and index are 0 and the quiz is unfinished; it stays shown exactly when questions arrived |
| StudentDashboard.HandleAnswer | frontend/src/StudentDashboard.js:128-145 | the score gains 10 exactly for an exact match; the index advances while questions remain; on the last question the quiz finishes, and the score before this answer plus 10 is submitted and added to XP |
| StudentDashboard.PlayPrefix | frontend/src/StudentDashboard.js:128-134 | after k non-final answers, the index is k and the score is 10 per matching answer |
| StudentDashboard.PlaySnoc | frontend/src/StudentDashboard.js:128-134 | one more answer after a prefix is one more `handleAnswer` |
| StudentDashboard.Correct | frontend/src/StudentDashboard.js:130 | at most one per answer, and one per answer exactly when every answer equals its question's answer |
| StudentDashboard.FinishedQuizScores | frontend/src/StudentDashboard.js:136-145 | at the end, the screen shows 10 per correct answer; the XP credited and submitted is 10 per correct answer before the last, plus 10 |
| StudentDashboard.WrongLastAnswerStillCredited | frontend/src/StudentDashboard.js:136-145 | two right answers and a wrong last one show 20 and credit 30 |
| StudentDashboard.XpNeverDecreases | frontend/src/StudentDashboard.js:139 | answering never lowers the XP |
| StudentDashboard.CloseQuiz | frontend/src/StudentDashboard.js:253 | closing hides the quiz and keeps everything else |
| StudentDashboard.Init | frontend/src/StudentDashboard.js:67-80 | a failed units request leaves the defaults; otherwise the sidebar stops loading, a non-empty list is shown with its first unit selected while an empty one leaves no unit, and the XP is the stats value or 0, also 0 when the stats request fails |
| VirtualLab.ExperimentTable | frontend/src/VirtualLab.js:13-59 | every experiment has two ranges with min ≤ max and a positive step, and the ids are distinct |
| VirtualLab.ResetExp | frontend/src/VirtualLab.js:66-71 | selects the experiment, empties the log and puts both sliders at their minimums |
| VirtualLab.OrMin | frontend/src/VirtualLab.js:62 | a zero slider value is replaced by the minimum; any other value is kept |
| VirtualLab.HandleRecord | frontend/src/VirtualLab.js:61-64 | exactly one row goes in front of the unchanged log, numbered one past its length and holding the raw slider values; descending serials are preserved |
| VirtualLab.SetSlider | frontend/src/VirtualLab.js:280-288 | a slider move changes only its value and keeps both values in range |
| VirtualLab.Library | frontend/src/VirtualLab.js:100 | leaving for the library keeps the log and the sliders |
| VirtualLab.RecordTimes | frontend/src/VirtualLab.js:61-64 | k recordings add k rows and change nothing else |
| VirtualLab.SerialsAfterRecording | frontend/src/VirtualLab.js:61-71 | after a reset and k recordings, the serials run k down to 1, and every row holds the two minimums the reset chose |
| VirtualLab.ObservationArguments | frontend/src/VirtualLab.js:62 | the formula receives the minimum in place of a zero slider, and its arguments always lie in the ranges |
| VirtualLab.LibraryKeepsLog | frontend/src/VirtualLab.js:100 | the library keeps the log; only choosing an experiment empties it |
| FacultyLogin.InitialFormDefaults | frontend/src/FacultyLogin.js:7-28 | the page opens on the login view, with the first of the five questions chosen |
| FacultyLogin.Follow | frontend/src/FacultyLogin.js:203-211 | each shown link moves between the login view and another view; `Back to Login` clears the fetched question |
| FacultyLogin.MovesAreLinks | frontend/src/FacultyLogin.js:203-211 | a view change is possible exactly when it is login→signup, login→forgot or back to login |
| FacultyLogin.DetailOr | frontend/src/FacultyLogin.js:60 | the server's detail when present, else the fallback text |
| FacultyLogin.Remember | frontend/src/FacultyLogin.js:43-55 | stores the name as JSON and the role `faculty`, and keeps every other key |
| FacultyLogin.AuthRequest | frontend/src/FacultyLogin.js:33-49 | sends email, password and role `faculty`; signup adds name, question and answer |
| FacultyLogin.HandleAuth | frontend/src/FacultyLogin.js:31-62 | a request is sent exactly when the form passes the browser's validation (valid email, password, and on signup name and answer filled in); an unsent form changes nothing; on success the user is set, remembered as faculty, and sent to `/faculty`, with the alert on signup only; on failure nothing but the alert with the detail or "Authentication Failed" |
| FacultyLogin.DomainHasNoAt | frontend/src/FacultyLogin.js:115 | the domain part of a valid address holds no `@` |
| FacultyLogin.ValidEmailOneAt | frontend/src/FacultyLogin.js:115 | an address the email input accepts holds exactly one `@` |
| FacultyLogin.SampleAddresses | frontend/src/FacultyLogin.js:115 | `a@b.c` is accepted; `a@` and `a.b` are refused |
| FacultyLogin.FetchQuestion | frontend/src/FacultyLogin.js:65-73 | an empty email only alerts; a found question is set; a failed lookup alerts "Email not found." |
| FacultyLogin.ResetRequest | frontend/src/FacultyLogin.js:76-79 | sends email, answer and the password as the new one |
| FacultyLogin.ResetPassword | frontend/src/FacultyLogin.js:75-90 | success returns to login and clears the password and answer only; failure changes nothing and alerts the detail or "Reset Failed" |
| FacultyLogin.ResetKeepsFetchedQuestion | frontend/src/FacultyLogin.js:84-86 | after a reset, going to `Forgot Password?` again still shows the old question |
| FacultyDashboard.UploadFile | frontend/src/FacultyDashboard.js:96-112 | a no-op without a file and a non-empty name; otherwise the trimmed unit is sent; success clears the name and file and refetches, failure keeps both; loading ends false |
| FacultyDashboard.EnabledUploadSends | frontend/src/FacultyDashboard.js:227 | an enabled `Train AI` button always sends |
| FacultyDashboard.BlankUnitSentEmpty | frontend/src/FacultyDashboard.js:97-101 | a name of blanks passes the guard and is sent as the empty text |
| FacultyDashboard.SeparatorUnitFiledUnderOthers | Backend/main.py:177 | a name that `trim` keeps but Python's `strip` empties, such as U+001C, is sent as it is and filed under `Others` |
| FacultyDashboard.Response | Backend/main.py:382-423 | the endpoint answers with a message exactly on success; each error answer has a non-empty text, except possibly a commit error |
| FacultyDashboard.UploadCat | frontend/src/FacultyDashboard.js:114-164 | without a file nothing happens; otherwise the file is sent; it is cleared and the analytics refetched exactly when the answer has no error text; the other exam's file is kept and loading ends; no field other than the two files and the two spinners changes |
| FacultyDashboard.FileKeptIffSheetRejected | frontend/src/FacultyDashboard.js:127-133 | the chosen file stays selected exactly when the server rejected the sheet |
| FacultyDashboard.MissingRegisterColumnKeepsFile | Backend/main.py:382-384 | a sheet without a register column keeps the file and triggers no refetch |
| FacultyDashboard.OpenUnit | frontend/src/FacultyDashboard.js:81-83 | selects the unit and turns the spinner on; nothing else changes |
| FacultyDashboard.UnitLoaded | frontend/src/FacultyDashboard.js:84-93 | success shows the topics and a failed request keeps the old ones; the spinner stops either way; no other field changes |
| FacultyDashboard.HandleUnitClick | frontend/src/FacultyDashboard.js:81-94 | the unit ends selected and not loading, with the returned topics or, on a failed request, the old ones; no other field changes |
| FacultyDashboard.ChartClickOpensUnit | frontend/src/FacultyDashboard.js:244 | clicking bar i opens the unit drawn under it |
| FacultyDashboard.BarWidth | frontend/src/FacultyDashboard.js:597 | ten percent per doubt, capped at 100 |
| FacultyDashboard.BarWidthMonotone | frontend/src/FacultyDashboard.js:597 | more doubts never give a shorter bar |
| FacultyDashboard.ObservationText | frontend/src/FacultyDashboard.js:517-521 | an object shows its description, else its text, else its JSON; a text shows as is; `null` fails to render |
| FacultyDashboard.RecommendationText | frontend/src/FacultyDashboard.js:528-532 | as the observation, with "Check detailed report" in place of the JSON |
| FacultyDashboard.BackendInsightsRender | Backend/main.py:563-569 | insights the backend writes itself render unchanged |
| FacultyDashboard.FromReport | frontend/src/FacultyDashboard.js:64-73 | an error answer has neither list |
| FacultyDashboard.AtRiskCount | frontend/src/FacultyDashboard.js:385 | the list's length, or 0 when the list is absent |
| FacultyDashboard.AtRiskBadgeCountsPoorStudents | frontend/src/FacultyDashboard.js:385 | the badge counts the students below 50 percent, and the no-gaps note shows exactly when there is no insight |
| AppShell.InitialUser | frontend/src/App.js:15-18 | no user when the key is absent, empty or `null`; otherwise the parsed JSON string, and start-up fails when the text is not a JSON string |
| AppShell.InitialDarkMode | frontend/src/App.js:20-22 | on exactly when the stored text is `true` |
| AppShell.ToggleDarkMode | frontend/src/App.js:24-29 | flips the mode and stores the new value |
| AppShell.ToggleSurvivesReload | frontend/src/App.js:20-29 | reloading after a toggle starts in the new mode |
| AppShell.ToggleTwice | frontend/src/App.js:24-29 | two toggles restore the mode, and storage agrees |
| AppShell.ShowNavbar | frontend/src/App.js:31-32 | hidden exactly on the two login paths |
| AppShell.IsLandingPage | frontend/src/App.js:33 | landing exactly at `/`, as the navbar decides it |
| AppShell.LoginRemembered | frontend/src/App.js:15-18 | after a faculty login from a valid form, the next start has the name back, and `Dashboard` leads to `/faculty` |
| AppShell.LogoutForgotten | frontend/src/Navbar.js:11-16 | after logout, the next start has no user |
| Navbar.LinksShown | frontend/src/Navbar.js:7 | links and profile are hidden exactly on `/` |
| Navbar.DashboardLink | frontend/src/Navbar.js:9-10 | `/faculty` exactly when the stored role is `faculty`, else `/student` |
| Navbar.Logout | frontend/src/Navbar.js:11-16 | removes the name and role and keeps other keys; no user; goes to `/` |
| Navbar.Avatar | frontend/src/Navbar.js:66 | one character: the user's first letter upper-cased, or `?` without a user |
| Navbar.NameLabel | frontend/src/Navbar.js:62 | the user, or "Guest User" |
| Navbar.LoggedOutIsGuest | frontend/src/Navbar.js:9-66 | after logout the link is `/student` and the profile shows a guest |
| TopicChart.ChartData | frontend/src/TopicChart.js:37-41 | labels and values follow the entries one by one, with the same length |
| TopicChart.OnClick | frontend/src/TopicChart.js:18-35 | the handler is called exactly when it exists, the chart exists and a bar was hit, with the topic of the first bar hit |
| TopicChart.ClickReportsLabel | frontend/src/TopicChart.js:29-38 | a click on bar i reports the label drawn under it |
| Typewriter.Tick | frontend/src/LandingPage.js:11-15 | a tick appends the next character and advances the index, keeping the prefix invariant |
| Typewriter.After | frontend/src/LandingPage.js:6-18 | after n ticks the index is n and the shown text is the first n characters |
| Typewriter.WholeTextTyped | frontend/src/LandingPage.js:11 | after one tick per character the whole text shows and no tick is pending |
| Typewriter.TitleTyped | frontend/src/LandingPage.js:53 | the landing page ends up showing "EduAI " |
| Json.Stringify | frontend/src/FacultyLogin.js:43 | a quoted text whose body escapes each character |
| Json.EscapeChar | frontend/src/FacultyLogin.js:43 | a character is kept as is exactly when it is not a quote, a backslash or a control character; every escape starts with a backslash |
| Json.Parse | frontend/src/App.js:17 | a value is read only from a text between double quotes, and is no longer than the text between them |
| Json.ParseStringify | frontend/src/App.js:17 | parsing what was stringified gives the string back |
| Json.StringifyInjective | frontend/src/FacultyLogin.js:43 | different names are stored as different texts |
| LocalStorage.GetItem | frontend/src/Navbar.js:9 | the stored text exactly when the key is present |
| LocalStorage.BoolText | frontend/src/App.js:27 | the stored text is `true` exactly for true |
| Numbers.RoundHalfEven | Backend/main.py:567 | within one half of the input, with ties going to the even integer |
| Numbers.NatToString | Backend/main.py:418 | a canonical decimal numeral, one digit long exactly below 10 |
| Numbers.NatToStringRoundTrip | Backend/main.py:418 | the rendered count reads back as the count |
| Numbers.CanonicalRoundTrip | Backend/main.py:418 | a canonical numeral renders back from its value |
| Strings.Lower | Backend/main.py:83 | the same length, with each character lower-cased on its own |
| Strings.Strip | Backend/main.py:177 | no longer than the text; empty exactly when the text is all Python whitespace; otherwise starts and ends with a non-space |
| Strings.Trim | frontend/src/StudentDashboard.js:83 | no longer than the text; empty exactly when the text is all JavaScript whitespace; otherwise starts and ends with a non-space |
| Strings.StripSpec | Backend/main.py:177 | stripping is empty exactly when the text is all whitespace, and otherwise starts and ends with a non-space |
| Strings.StripInfix | Backend/main.py:177 | what stripping keeps is one contiguous part of the text |

## Left out

- The language model, vector store, PDF loading and prompt texts. Their outputs (the topic reply, the answer, the report text, the generated quiz) are parameters.
- pandas, SQLAlchemy and the HTTP layer. Tables are maps or sequences, and a spreadsheet is its column names and a cell map per row. The `{"error": str(e)}` text of a failed commit and the column listing of the CAT1 error are parameters.
- Marks.Read: stores a name as the text of its cell, where the code stores the raw cell value; a numeric or empty name cell is stored in the code as a number or NaN, not as its text.
- NaN marks. An empty mark cell converts to NaN in the code and is stored as NaN. The model has no NaN, so an empty cell reads as not converting and gives 0, like a cell whose `float()` raises.
- Floating point. Marks, averages and friction are exact reals. `round(marks, 1)` for a unit's shown average rounds ten times the value to the nearest integer with ties to even, which can differ from binary floating point on values near a tie. A mark left NULL (`or 0`) is a field holding 0.
- Marks.CalculatePercentage: does not model the final `round(..., 2)`; its contract is stated on the unrounded value, so a total whose percentage rounds up to exactly 50.00 (for example 37.4999 marks) is counted poor in the model and not in the code.
- Auth.VerifyPassword: the check compares the first 72 UTF-8 bytes of the secrets, as bcrypt 4 does, so longer secrets that share those bytes verify against each other. Newer bcrypt releases that raise `ValueError` for secrets over 72 bytes are not modelled, nor are other bcrypt errors. The salt is a parameter, and hash collisions between different keys are not modelled.
- Case mapping (`lower`, `upper`, `toUpperCase`) covers ASCII letters only. Unicode case mapping, which can change string length, is not modelled.
- AppShell.InitialUser: a stored JSON value other than a string or `null` (a number, a boolean, an object) parses in the code to a non-string user; the model treats it as a failed start-up.
- The JSON decoding of the AI report is a parameter (`decode`). `JSON.parse` is modelled only for one string value, with no surrounding whitespace; surrogate escapes are rejected, because a Dafny `char` cannot hold a lone surrogate.
- The virtual lab's observation formulas (`getObs`, `sub`) and `toFixed`. A row keeps the two arguments the formula would receive.
- Simulations.FindSimulation: states that a found card comes from the catalogue and matches the question, but not that it is the first such card; the first-match property is stated for `Simulations.FindSimulationIn`, because unfolding the literal catalogue in every caller is too costly.
- DatabaseUrl.DefaultUrl: states the default URL with the escaped default password as `QuotePlus("postgres@123")`; `DatabaseUrl.AtEscaped` shows in general that such an `@` becomes `%40`.
- The framework's form parsing. FastAPI treats an empty required form field as missing and answers 422, so a unit name of blanks, which the page trims to the empty text, is refused before `upload_material` runs; the page then alerts "Upload failed." and keeps the name and the file. The `Others` fallback is reached only by a name that JavaScript's `trim` keeps and Python's `strip` empties. `Doubts.UploadMaterial` models the handler itself.
- FacultyLogin.HandleAuth: the email is taken as the browser holds it after its value sanitization (line breaks removed, surrounding ASCII whitespace stripped); that sanitization is not modelled.
- URL encoding. `fetchQuestion` and `handleUnitClick` put the email and the unit name into the request path without encoding, so an email with `+`, `&` or `#` is looked up as a different text. The replies to those requests are inputs of the model, so this is not visible in it.
- Async interleavings, timers, scrolling, animation, iframes and the chart library. Every handler is one atomic step from the state before the event.
- The history sent with a question and the last-four-message transcript `ask_ai` builds from it only feed the prompt. Doubt records carry no timestamp; their order is the log's order.
- The order in which `GROUP BY` returns chart rows. The chart is a map from label to count.
- The student score endpoints `/student/quiz/submit` and `/student/stats` are represented by the submitted score and the XP reply. `Backend/reset_db.py` is not part of this model.

=== FILE: analytics.dfy ===
/** The deep-analytics endpoint of Backend/main.py: per-unit class averages,
    doubt counts, friction scores sorted highest first, the AI report on the
    two worst units (with its fallback) and the list of poor performers.
    The language model's reply and the JSON decoder are inputs. */
module Analytics {
  import opened Wrappers
  import opened Strings
  import opened Numbers
  import Seqs
  import Marks
  import Doubts

  /** The five units of the course. */
  type UnitNo = u: nat | 1 <= u <= 5 witness 1

  function UnitName(u: UnitNo): string {
    "Unit " + [DigitChar(u)]
  }

  /** A student's points in a unit: unit 3 adds the CAT1 and CAT2 halves. */
  function Points(s: Marks.StudentMark, u: UnitNo): real {
    if u == 1 then s.co1
    else if u == 2 then s.co2
    else if u == 3 then s.co3Cat1 + s.co3Cat2
    else if u == 4 then s.co4
    else s.co5
  }

  function UnitTotal(students: seq<Marks.StudentMark>, u: UnitNo): real {
    if students == [] then 0.0 else Points(students[0], u) + UnitTotal(students[1..], u)
  }

  /** `to_avg_percent`: the class total as a percentage of 30 points per student. */
  function AveragePercent(students: seq<Marks.StudentMark>, u: UnitNo): (p: real)
    requires |students| > 0
    ensures p * (|students| as real * 30.0) == UnitTotal(students, u) * 100.0
  {
    UnitTotal(students, u) / (|students| as real * 30.0) * 100.0
  }

  lemma {:induction false} UnitTotalBounds(students: seq<Marks.StudentMark>, u: UnitNo)
    requires forall i :: 0 <= i < |students| ==> 0.0 <= Points(students[i], u) <= 30.0
    ensures 0.0 <= UnitTotal(students, u) <= 30.0 * |students| as real
  {
    if students != [] {
      UnitTotalBounds(students[1..], u);
    }
  }

  /** Within the documented maxima every unit average lies in [0, 100]: unit
      3's two halves of 15 make up the 30 points the average assumes. */
  lemma AverageBounds(students: seq<Marks.StudentMark>, u: UnitNo)
    requires |students| > 0
    requires forall i :: 0 <= i < |students| ==> Marks.WithinDocumentedMaxima(students[i])
    ensures 0.0 <= AveragePercent(students, u) <= 100.0
  {
    UnitTotalBounds(students, u);
    var n := |students| as real * 30.0;
    var t := UnitTotal(students, u);
    assert t / n <= 1.0 by {
      assert t <= n;
    }
  }

  /** The doubt-record filter `unit ILIKE '%u%'`: the unit text contains the
      digit. Case does not matter for a digit. */
  function MentionsUnit(u: UnitNo): string -> bool {
    (t: string) => Contains(t, [DigitChar(u)])
  }

  /** The number of doubt records counted for unit `u`, from the unit labels of all records. */
  function DoubtCount(doubtUnits: seq<string>, u: UnitNo): (n: nat)
    ensures n <= |doubtUnits|
    ensures n == 0 <==> forall i :: 0 <= i < |doubtUnits| ==> !Contains(doubtUnits[i], [DigitChar(u)])
  {
    Seqs.Count(doubtUnits, MentionsUnit(u))
  }

  /** The label `Unit v` is counted for unit `v` and for no other unit. */
  lemma UnitLabelMatchesItsUnit(u: UnitNo, v: UnitNo)
    ensures MentionsUnit(u)(UnitName(v)) <==> u == v
  {
    var t := UnitName(v);
    var d := [DigitChar(u)];
    if u == v {
      assert OccursAt(t, d, 5);
    } else {
      forall i | 0 <= i <= |t| - 1
        ensures !OccursAt(t, d, i)
      {
        assert t[i..i + 1] == [t[i]];
      }
    }
  }

  /** A label is counted once for every unit whose digit it contains. */
  lemma LabelCountedPerDigit(name: string, u: UnitNo, i: nat)
    requires i < |name| && name[i] == DigitChar(u)
    ensures DoubtCount([name], u) == 1
  {
    assert OccursAt(name, [DigitChar(u)], i);
    var names := [name];
    assert names[1..] == [];
  }

  /** A label naming several digits, such as `Unit 12`, is counted for each of them. */
  lemma LabelCountedTwice()
    ensures DoubtCount(["Unit 12"], 1) == 1 && DoubtCount(["Unit 12"], 2) == 1
  {
    LabelCountedPerDigit("Unit 12", 1, 5);
    LabelCountedPerDigit("Unit 12", 2, 6);
  }

  /** The seed record of a material upload is counted as a doubt for every
      unit whose digit appears in the uploaded unit label. */
  lemma SeedCountsAsDoubt(log: seq<Doubts.DoubtRecord>, unit: string, u: UnitNo)
    requires !Doubts.HasUnit(log, Doubts.UnitNameFor(unit))
    ensures DoubtCount(Doubts.UnitsOf(Doubts.UploadMaterial(log, unit)), u) ==
      DoubtCount(Doubts.UnitsOf(log), u) + (if MentionsUnit(u)(Doubts.UnitNameFor(unit)) then 1 else 0)
  {
    var name := Doubts.UnitNameFor(unit);
    var d := Doubts.DoubtRecord("Init", Doubts.SystemTopic, name);
    assert Doubts.UploadMaterial(log, unit) == log + [d];
    assert Doubts.UnitsOf(log + [d]) == Doubts.UnitsOf(log) + [name];
    Seqs.CountAppend(Doubts.UnitsOf(log), [name], MentionsUnit(u));
  }

  /** One entry of `graph_data`. */
  datatype UnitAnalysis = UnitAnalysis(unit: string, avgMarks: real, doubts: nat, friction: real)

  /** `friction_score`: doubts weigh 1.5 each, every missing percentage point 1.2. */
  function FrictionScore(doubts: nat, marks: real): (f: real)
    ensures f >= (100.0 - marks) * 1.2
    ensures doubts > 0 ==> f > (100.0 - marks) * 1.2
    ensures marks < 66.6 ==> f > FrictionThreshold
  {
    doubts as real * 1.5 + (100.0 - marks) * 1.2
  }

  /** A unit's entry; the friction uses the unrounded average, the entry shows it rounded to one decimal. */
  function AnalyseUnit(students: seq<Marks.StudentMark>, doubtUnits: seq<string>, u: UnitNo): (a: UnitAnalysis)
    requires |students| > 0
    ensures a.unit == UnitName(u) && a.doubts == DoubtCount(doubtUnits, u)
    ensures -0.05 <= a.avgMarks - AveragePercent(students, u) <= 0.05
    ensures a.friction == FrictionScore(a.doubts, AveragePercent(students, u))
  {
    var marks := AveragePercent(students, u);
    var d := DoubtCount(doubtUnits, u);
    UnitAnalysis(UnitName(u), RoundTenths(marks), d, FrictionScore(d, marks))
  }

  /** The entries in unit order, before sorting. */
  function Analyses(students: seq<Marks.StudentMark>, doubtUnits: seq<string>): (r: seq<UnitAnalysis>)
    requires |students| > 0
    ensures |r| == 5
  {
    seq(5, i requires 0 <= i < 5 => AnalyseUnit(students, doubtUnits, i + 1))
  }

  // ---------------------------------------------------------------------
  // Sorting by friction, highest first (Python's stable sort with reverse=True)

  predicate SortedByFriction(s: seq<UnitAnalysis>) {
    forall i, j :: 0 <= i < j < |s| ==> s[i].friction >= s[j].friction
  }

  /** Places `x` after every entry whose friction is at least its own. */
  function Insert(x: UnitAnalysis, s: seq<UnitAnalysis>): (r: seq<UnitAnalysis>)
    ensures |r| == |s| + 1
  {
    if s == [] then [x]
    else if s[0].friction >= x.friction then [s[0]] + Insert(x, s[1..])
    else [x] + s
  }

  /** Insertion adds `x` and keeps every entry. */
  lemma {:induction false} InsertPermutes(x: UnitAnalysis, s: seq<UnitAnalysis>)
    ensures multiset(Insert(x, s)) == multiset(s) + multiset{x}
  {
    if s != [] && s[0].friction >= x.friction {
      InsertPermutes(x, s[1..]);
      assert s == [s[0]] + s[1..];
    }
  }

  /** Insertion into a sorted sequence keeps it sorted. */
  lemma {:induction false} InsertSorted(x: UnitAnalysis, s: seq<UnitAnalysis>)
    requires SortedByFriction(s)
    ensures SortedByFriction(Insert(x, s))
  {
    if s != [] && s[0].friction >= x.friction {
      var t := Insert(x, s[1..]);
      InsertSorted(x, s[1..]);
      InsertPermutes(x, s[1..]);
      forall k | 0 <= k < |t|
        ensures t[k].friction <= s[0].friction
      {
        assert t[k] in multiset(t);
        if t[k] != x {
          assert t[k] in multiset(s[1..]);
          var m :| 0 <= m < |s[1..]| && s[1..][m] == t[k];
          assert s[m + 1] == t[k];
        }
      }
    }
  }

  /** Insertion sort, inserting each entry after the earlier ones of equal friction.
      The result is a permutation of the input, highest friction first. */
  function SortByFriction(s: seq<UnitAnalysis>): (r: seq<UnitAnalysis>)
    ensures |r| == |s|
    ensures multiset(r) == multiset(s)
    ensures SortedByFriction(r)
    decreases |s|
  {
    if s == [] then []
    else
      var p, x := s[..|s| - 1], s[|s| - 1];
      var sorted := SortByFriction(p);
      InsertPermutes(x, sorted);
      InsertSorted(x, sorted);
      assert s == p + [x];
      Insert(x, sorted)
  }

  /** The entries with friction exactly `f`. */
  function HasFriction(f: real): UnitAnalysis -> bool {
    (x: UnitAnalysis) => x.friction == f
  }

  lemma {:induction false} InsertStable(x: UnitAnalysis, s: seq<UnitAnalysis>, f: real)
    requires SortedByFriction(s)
    ensures Seqs.Filter(Insert(x, s), HasFriction(f)) ==
      Seqs.Filter(s, HasFriction(f)) + (if x.friction == f then [x] else [])
  {
    if s != [] {
      if s[0].friction >= x.friction {
        InsertStable(x, s[1..], f);
        assert ([s[0]] + Insert(x, s[1..]))[1..] == Insert(x, s[1..]);
      } else {
        assert ([x] + s)[1..] == s;
        if x.friction == f {
          Seqs.FilterNone(s, HasFriction(f));
        }
      }
    }
  }

  /** Inserting the last entry into a stably sorted prefix keeps the sort stable. */
  lemma StableStep(p: seq<UnitAnalysis>, x: UnitAnalysis, sorted: seq<UnitAnalysis>, f: real)
    requires SortedByFriction(sorted)
    requires Seqs.Filter(sorted, HasFriction(f)) == Seqs.Filter(p, HasFriction(f))
    ensures Seqs.Filter(Insert(x, sorted), HasFriction(f)) == Seqs.Filter(p + [x], HasFriction(f))
  {
    InsertStable(x, sorted, f);
    Seqs.FilterSnoc(p, x, HasFriction(f));
  }

  /** The sort is stable: the entries of any one friction keep their relative order. */
  lemma {:induction false} SortStable(s: seq<UnitAnalysis>, f: real)
    ensures Seqs.Filter(SortByFriction(s), HasFriction(f)) == Seqs.Filter(s, HasFriction(f))
    decreases |s|
  {
    if s != [] {
      var p, x := s[..|s| - 1], s[|s| - 1];
      SortStable(p, f);
      StableStep(p, x, SortByFriction(p), f);
      assert s == p + [x];
    }
  }

  /** The first sorted entry has the highest friction of all. */
  lemma TopIsWorst(s: seq<UnitAnalysis>, x: UnitAnalysis)
    requires x in s
    ensures |SortByFriction(s)| > 0 && SortByFriction(s)[0].friction >= x.friction
  {
    var r := SortByFriction(s);
    assert x in multiset(r);
    var k :| 0 <= k < |r| && r[k] == x;
  }

  // ---------------------------------------------------------------------
  // The AI report

  datatype Insight = Insight(unit: string, observation: string, rootCause: string, recommendation: string)

  /** The language model's answer, or the exception raised while asking it. */
  datatype AiReply = Replied(content: string) | Unavailable

  /** Only a top friction above 40 asks for a report. */
  const FrictionThreshold: real := 40.0

  /** Removes the Markdown code fences and surrounding blanks from the reply. */
  function CleanReply(content: string): (r: string)
    ensures r == [] || (!IsPythonSpace(r[0]) && !IsPythonSpace(r[|r| - 1]))
  {
    Strip(ReplaceAll(ReplaceAll(content, "```json", ""), "```", ""))
  }

  /** A reply wrapped in a `json` code fence is reduced to its stripped body. */
  lemma FencedReplyUnwrapped(body: string)
    requires forall i :: 0 <= i < |body| ==> body[i] != '`'
    ensures CleanReply("```json" + body + "```") == Strip(body)
  {
    var s := "```json" + body + "```";
    var fence := "```json";
    assert s[..|fence|] == fence;
    assert s[|fence|..] == body + "```";
    var rest := body + "```";
    assert !Contains(rest, fence) by {
      forall i | 0 <= i <= |rest| - |fence|
        ensures !OccursAt(rest, fence, i)
      {
        assert rest[i] != '`' || i >= |body|;
      }
    }
    ReplaceAllAbsent(rest, fence, "");
    assert ReplaceAll(s, fence, "") == rest;
    ReplaceAllTrailing(body, "```");
  }

  const FallbackPrefix: string := "Detected high friction (Score: "

  /** The manual insight returned when the report cannot be produced. */
  function Fallback(top: UnitAnalysis): (i: Insight)
    requires top.friction > FrictionThreshold
    ensures i.unit == top.unit
    ensures StartsWith(i.observation, FallbackPrefix)
  {
    var score := RoundHalfEven(top.friction) as nat;
    Insight(top.unit, FallbackPrefix + NatToString(score) + ")",
            "AI Analysis temporarily unavailable.", "Review Unit performance manually.")
  }

  /** The score written in the fallback observation reads back as the friction
      rounded to the nearest whole number. */
  lemma FallbackScoreReadsBack(top: UnitAnalysis)
    requires top.friction > FrictionThreshold
    ensures var o := Fallback(top).observation;
      && |o| > |FallbackPrefix| + 1
      && o[|o| - 1] == ')'
      && Canonical(o[|FallbackPrefix|..|o| - 1])
      && -0.5 <= DigitsValue(o[|FallbackPrefix|..|o| - 1]) as real - top.friction <= 0.5
  {
    var score := RoundHalfEven(top.friction) as nat;
    var o := Fallback(top).observation;
    assert o[|FallbackPrefix|..|o| - 1] == NatToString(score);
    NatToStringRoundTrip(score);
  }

  /** `ai_insights`: empty unless the worst unit's friction exceeds the
      threshold; then the decoded reply, or the fallback for the worst unit. */
  function AiInsights(top: seq<UnitAnalysis>, reply: AiReply, decode: string -> Option<seq<Insight>>): (r: seq<Insight>)
    ensures (|top| == 0 || top[0].friction <= FrictionThreshold) ==> r == []
    ensures |top| > 0 && top[0].friction > FrictionThreshold && reply.Unavailable? ==>
      |r| == 1 && r[0].unit == top[0].unit && StartsWith(r[0].observation, FallbackPrefix)
    ensures |top| > 0 && top[0].friction > FrictionThreshold && reply.Replied? ==>
      r == match decode(CleanReply(reply.content))
           case Some(v) => v
           case None => [Fallback(top[0])]
  {
    if |top| > 0 && top[0].friction > FrictionThreshold then
      match reply
      case Unavailable => [Fallback(top[0])]
      case Replied(content) =>
        match decode(CleanReply(content))
        case Some(v) => v
        case None => [Fallback(top[0])]
    else []
  }

  // ---------------------------------------------------------------------
  // The endpoint

  predicate Poor(s: Marks.StudentMark) {
    s.totalPercentage < 50.0
  }

  datatype Report = Report(graph: seq<UnitAnalysis>, insights: seq<Insight>, poorPerformers: seq<Marks.StudentMark>)

  /** `get_deep_analytics` over the marks table (in query order) and the unit
      labels of all doubt records. */
  function DeepAnalytics(students: seq<Marks.StudentMark>, doubtUnits: seq<string>, reply: AiReply,
                         decode: string -> Option<seq<Insight>>): (r: Result<Report, string>)
    ensures students == [] <==> r == Err("No data")
    ensures r.Ok? ==> |students| > 0 && var rep := r.value;
      && multiset(rep.graph) == multiset(Analyses(students, doubtUnits))
      && SortedByFriction(rep.graph)
      && (forall f :: Seqs.Filter(rep.graph, HasFriction(f)) == Seqs.Filter(Analyses(students, doubtUnits), HasFriction(f)))
      && (rep.insights != [] ==> rep.graph[0].friction > FrictionThreshold)
      && (forall s :: s in rep.poorPerformers <==> s in students && Poor(s))
  {
    if students == [] then Err("No data")
    else
      var data := Analyses(students, doubtUnits);
      var graph := SortByFriction(data);
      Seqs.FilterSpec(students, Poor);
      forall f ensures Seqs.Filter(graph, HasFriction(f)) == Seqs.Filter(data, HasFriction(f)) {
        SortStable(data, f);
      }
      Ok(Report(graph, AiInsights(graph[..2], reply, decode), Seqs.Filter(students, Poor)))
  }

  /** A unit whose class average is below 66.6 percent pushes the worst
      friction over the threshold, so the report is requested. */
  lemma LowAverageTriggersReport(students: seq<Marks.StudentMark>, doubtUnits: seq<string>, u: UnitNo)
    requires |students| > 0
    requires AveragePercent(students, u) < 66.6
    ensures SortByFriction(Analyses(students, doubtUnits))[0].friction > FrictionThreshold
  {
    var data := Analyses(students, doubtUnits);
    assert data[u - 1] == AnalyseUnit(students, doubtUnits, u);
    TopIsWorst(data, data[u - 1]);
  }

  /** The poor performers are exactly the students whose stored percentage is below 50. */
  lemma PoorPerformersBelowFifty(students: seq<Marks.StudentMark>, doubtUnits: seq<string>, reply: AiReply,
                                 decode: string -> Option<seq<Insight>>, s: Marks.StudentMark)
    requires students != []
    ensures var r := DeepAnalytics(students, doubtUnits, reply, decode);
      r.Ok? && (s in r.value.poorPerformers <==> s in students && s.totalPercentage < 50.0)
  {
  }

  /** With the table consistent, a student is a poor performer exactly when
      fewer than 37.5 raw marks were earned. */
  lemma PoorMeansBelowHalfOfSeventyFive(s: Marks.StudentMark)
    requires s.totalPercentage == Marks.CalculatePercentage(s)
    ensures Poor(s) <==> Marks.RawTotal(s) < 37.5
  {
  }
}

=== FILE: app_shell.dfy ===
/** The application shell of frontend/src/App.js: the signed-in user and the
    colour scheme read from storage when the app starts, the dark-mode
    toggle, and which paths show the top bar. */
module AppShell {
  import opened Wrappers
  import opened LocalStorage
  import Json
  import Navbar
  import FacultyLogin

  /** The user the app starts with: the stored name read as JSON, or none
      when nothing, the empty text or the JSON text `null` is stored. Any
      other stored text that is not a JSON string makes start-up fail. */
  function InitialUser(store: Storage): (r: Result<Option<string>, string>)
    ensures (UserKey !in store || store[UserKey] in {"", "null"}) ==> r == Ok(None)
    ensures UserKey in store && store[UserKey] !in {"", "null"} ==>
      (r.Ok? <==> Json.Parse(store[UserKey]).Some?)
    ensures r.Ok? && r.value.Some? ==> UserKey in store && Json.Parse(store[UserKey]) == Some(r.value.value)
  {
    match GetItem(store, UserKey)
    case None => Ok(None)
    case Some(text) =>
      if text == "" || text == "null" then Ok(None)
      else match Json.Parse(text)
        case Some(name) => Ok(Some(name))
        case None => Err("JSON.parse: not a string value")
  }

  /** Dark mode is on exactly when the stored text is `true`. */
  function InitialDarkMode(store: Storage): (dark: bool)
    ensures dark <==> DarkModeKey in store && store[DarkModeKey] == "true"
  {
    GetItem(store, DarkModeKey) == Some("true")
  }

  /** `toggleDarkMode`: flip the mode and store the new value. */
  function ToggleDarkMode(dark: bool, store: Storage): (r: (bool, Storage))
    ensures r.0 == !dark
    ensures r.1 == store[DarkModeKey := BoolText(!dark)]
  {
    var mode := !dark;
    (mode, store[DarkModeKey := BoolText(mode)])
  }

  /** Reloading after a toggle starts in the mode the toggle chose. */
  lemma ToggleSurvivesReload(dark: bool, store: Storage)
    ensures var (mode, store') := ToggleDarkMode(dark, store);
      InitialDarkMode(store') == mode == !dark
  {
  }

  /** Two toggles bring back the mode, and storage then agrees with it. */
  lemma ToggleTwice(store: Storage)
    ensures var dark := InitialDarkMode(store);
      var (m1, s1) := ToggleDarkMode(dark, store);
      var (m2, s2) := ToggleDarkMode(m1, s1);
      m2 == dark && InitialDarkMode(s2) == dark
  {
  }

  /** The top bar is shown except on the two login pages. */
  function ShowNavbar(path: string): (shown: bool)
    ensures !shown <==> path == "/login-student" || path == "/login-faculty"
  {
    path !in ["/login-student", "/login-faculty"]
  }

  /** The main area spans the full width on the landing page only. */
  function IsLandingPage(path: string): (landing: bool)
    ensures landing <==> path == "/"
    ensures landing <==> Navbar.IsLanding(path)
  {
    path == "/"
  }

  /** A faculty login is remembered: on the next start the name comes back
      and `Dashboard` leads to the faculty page. */
  lemma LoginRemembered(f: FacultyLogin.Form, store: Storage, fullName: string)
    requires f.view == FacultyLogin.LoginView && FacultyLogin.Submittable(f)
    ensures var o := FacultyLogin.HandleAuth(f, store, FacultyLogin.Accepted(fullName));
      InitialUser(o.storage) == Ok(Some(fullName)) && Navbar.DashboardLink(o.storage) == "/faculty"
  {
    Json.ParseStringify(fullName);
  }

  /** After logging out the next start has no user. */
  lemma LogoutForgotten(store: Storage)
    ensures InitialUser(Navbar.Logout(store).0) == Ok(None)
  {
  }
}

=== FILE: auth.dfy ===
/** The user store of Backend/main.py: signup, login, the security-question
    lookup and the password reset. The `users` table is a map keyed by the
    unique email. bcrypt is modelled by what its check depends on: the
    first 72 bytes of the UTF-8 encoded secret, which is all bcrypt reads;
    the salt `gensalt` would draw is a parameter. */
module Auth {
  import opened Wrappers
  import opened Strings
  import opened Unicode

  /** bcrypt reads at most this many bytes of the secret. */
  const BcryptMaxBytes: nat := 72

  /** The part of a secret that bcrypt hashes: its UTF-8 bytes, cut at 72. */
  function BcryptKey(secret: string): (k: seq<Byte>)
    ensures |k| <= BcryptMaxBytes && |k| <= |Encode(secret)| && k == Encode(secret)[..|k|]
    ensures |k| < BcryptMaxBytes <==> |Encode(secret)| < BcryptMaxBytes
    ensures |k| < BcryptMaxBytes ==> k == Encode(secret)
  {
    var bs := Encode(secret);
    if |bs| <= BcryptMaxBytes then bs else bs[..BcryptMaxBytes]
  }

  /** A bcrypt hash: the bytes that were hashed and the salt. */
  datatype Digest = Digest(key: seq<Byte>, salt: nat)

  /** `hash_password`. */
  function HashPassword(secret: string, salt: nat): (d: Digest)
    ensures VerifyPassword(secret, d)
    ensures d.salt == salt
  {
    Digest(BcryptKey(secret), salt)
  }

  /** `verify_password` (`bcrypt.checkpw`): the plain text agrees with the
      hashed secret on the bytes bcrypt reads. */
  predicate VerifyPassword(plain: string, d: Digest) {
    BcryptKey(plain) == d.key
  }

  /** Two secrets that share their first 72 UTF-8 bytes check against each
      other's hash, whatever follows. */
  lemma LongSecretsCollide(a: string, b: string, salt: nat)
    requires |Encode(a)| >= BcryptMaxBytes && |Encode(b)| >= BcryptMaxBytes
    requires Encode(a)[..BcryptMaxBytes] == Encode(b)[..BcryptMaxBytes]
    ensures VerifyPassword(b, HashPassword(a, salt))
  {
  }

  /** An ASCII secret encodes to its code points. */
  lemma {:induction false} AsciiEncoding(s: string)
    requires forall i :: 0 <= i < |s| ==> s[i] as int < 0x80
    ensures |Encode(s)| == |s|
    ensures forall i :: 0 <= i < |s| ==> Encode(s)[i] == s[i] as int
  {
    if s != [] {
      AsciiEncoding(s[1..]);
      assert Encode(s) == [s[0] as int] + Encode(s[1..]);
    }
  }

  /** For ASCII secrets of at most 72 characters the check is exact. */
  lemma ShortAsciiSecretsExact(a: string, b: string)
    requires forall i :: 0 <= i < |a| ==> a[i] as int < 0x80
    requires forall i :: 0 <= i < |b| ==> b[i] as int < 0x80
    requires |a| <= BcryptMaxBytes && |b| <= BcryptMaxBytes
    ensures BcryptKey(a) == BcryptKey(b) <==> a == b
  {
    AsciiEncoding(a);
    AsciiEncoding(b);
    if BcryptKey(a) == BcryptKey(b) {
      assert |a| == |b|;
      forall i | 0 <= i < |a| ensures a[i] == b[i] {
        assert Encode(a)[i] == Encode(b)[i];
      }
    }
  }

  /** The answer as it is hashed and checked: lower-cased, then stripped. It
      holds no ASCII capital and no surrounding whitespace. */
  function NormalizeAnswer(answer: string): (r: string)
    ensures |r| <= |answer|
    ensures r == [] || (!IsPythonSpace(r[0]) && !IsPythonSpace(r[|r| - 1]))
    ensures forall i :: 0 <= i < |r| ==> !('A' <= r[i] <= 'Z')
  {
    StrippedLowerHasNoCapital(answer);
    Strip(Lower(answer))
  }

  lemma StrippedLowerHasNoCapital(s: string)
    ensures forall i :: 0 <= i < |Strip(Lower(s))| ==> !('A' <= Strip(Lower(s))[i] <= 'Z')
  {
    var lower := Lower(s);
    var a := StripInfix(lower, IsPythonSpace);
    var r := Strip(lower);
    forall i | 0 <= i < |r| ensures !('A' <= r[i] <= 'Z') {
      assert r[i] == lower[a + i];
    }
  }

  /** One row of the `users` table. */
  datatype User = User(
    fullName: string, email: string, hashedPassword: Digest, role: string,
    securityQuestion: string, hashedAnswer: Digest)

  type Users = map<string, User>

  /** An `HTTPException`: status code and detail. */
  datatype HttpError = HttpError(status: nat, detail: string)

  /** The `user` object a successful login returns. */
  datatype Profile = Profile(fullName: string, email: string, role: string)

  /** Every user is filed under its own email. */
  predicate WellKeyed(users: Users) {
    forall e :: e in users ==> users[e].email == e
  }

  /** `signup`: a registered email is refused; otherwise a user is added with
      hashed password and hashed normalised answer. */
  function Signup(users: Users, fullName: string, email: string, password: string, role: string,
                  question: string, answer: string, salt1: nat, salt2: nat): (r: Result<Users, HttpError>)
    ensures email in users <==> r == Err(HttpError(400, "Email already registered"))
    ensures r.Ok? ==> r.value.Keys == users.Keys + {email}
    ensures r.Ok? ==> forall e :: e in users ==> r.value[e] == users[e]
    ensures r.Ok? && WellKeyed(users) ==> WellKeyed(r.value)
  {
    if email in users then Err(HttpError(400, "Email already registered"))
    else
      Ok(users[email := User(fullName, email, HashPassword(password, salt1), role, question,
                             HashPassword(NormalizeAnswer(answer), salt2))])
  }

  /** `login`: the email must exist with this role and the password must verify. */
  function Login(users: Users, email: string, password: string, role: string): (r: Result<Profile, HttpError>)
    ensures r.Ok? <==> email in users && users[email].role == role && VerifyPassword(password, users[email].hashedPassword)
    ensures r.Err? ==> r.error == HttpError(401, "Invalid credentials")
    ensures r.Ok? ==> r.value == Profile(users[email].fullName, users[email].email, role)
  {
    if email in users && users[email].role == role && VerifyPassword(password, users[email].hashedPassword) then
      var u := users[email];
      Ok(Profile(u.fullName, u.email, u.role))
    else Err(HttpError(401, "Invalid credentials"))
  }

  /** `get_security_question`. */
  function GetSecurityQuestion(users: Users, email: string): (r: Result<string, HttpError>)
    ensures r.Ok? <==> email in users
    ensures r.Ok? ==> r.value == users[email].securityQuestion
    ensures r.Err? ==> r.error == HttpError(404, "Email not found")
  {
    if email in users then Ok(users[email].securityQuestion) else Err(HttpError(404, "Email not found"))
  }

  /** `reset_password`: the user must exist and the normalised answer must
      verify; then only that user's password hash changes. */
  function ResetPassword(users: Users, email: string, answer: string, newPassword: string, salt: nat)
    : (r: Result<Users, HttpError>)
    ensures email !in users <==> r == Err(HttpError(404, "User not found"))
    ensures email in users && !VerifyPassword(NormalizeAnswer(answer), users[email].hashedAnswer) <==>
      r == Err(HttpError(401, "Incorrect security answer"))
    ensures r.Ok? ==> r.value.Keys == users.Keys
    ensures r.Ok? ==> forall e :: e in users && e != email ==> r.value[e] == users[e]
    ensures r.Ok? ==> var u := users[email]; var v := r.value[email];
      v == u.(hashedPassword := v.hashedPassword) && VerifyPassword(newPassword, v.hashedPassword)
  {
    if email !in users then Err(HttpError(404, "User not found"))
    else if !VerifyPassword(NormalizeAnswer(answer), users[email].hashedAnswer) then
      Err(HttpError(401, "Incorrect security answer"))
    else
      Ok(users[email := users[email].(hashedPassword := HashPassword(newPassword, salt))])
  }

  // ---------------------------------------------------------------------
  // Round trips

  /** After signing up, logging in with the same password and role succeeds. */
  lemma SignupThenLogin(users: Users, fullName: string, email: string, password: string, role: string,
                        question: string, answer: string, salt1: nat, salt2: nat)
    requires email !in users
    ensures var r := Signup(users, fullName, email, password, role, question, answer, salt1, salt2);
      r.Ok? && Login(r.value, email, password, role) == Ok(Profile(fullName, email, role))
  {
  }

  /** A signed-up user is refused under any other role, and under any
      password that differs from the signup's in the bytes bcrypt reads. */
  lemma SignupThenWrongLogin(users: Users, fullName: string, email: string, password: string, role: string,
                             question: string, answer: string, salt1: nat, salt2: nat,
                             password': string, role': string)
    requires email !in users
    requires BcryptKey(password') != BcryptKey(password) || role' != role
    ensures var r := Signup(users, fullName, email, password, role, question, answer, salt1, salt2);
      r.Ok? && Login(r.value, email, password', role') == Err(HttpError(401, "Invalid credentials"))
  {
  }

  /** After signing up, the security question reads back. */
  lemma SignupThenQuestion(users: Users, fullName: string, email: string, password: string, role: string,
                           question: string, answer: string, salt1: nat, salt2: nat)
    requires email !in users
    ensures var r := Signup(users, fullName, email, password, role, question, answer, salt1, salt2);
      r.Ok? && GetSecurityQuestion(r.value, email) == Ok(question)
  {
  }

  /** The reset accepts exactly the answers whose normalised form agrees with
      the signup's in the bytes bcrypt reads. */
  lemma SignupThenReset(users: Users, fullName: string, email: string, password: string, role: string,
                        question: string, answer: string, salt1: nat, salt2: nat,
                        answer': string, newPassword: string, salt3: nat)
    requires email !in users
    ensures var r := Signup(users, fullName, email, password, role, question, answer, salt1, salt2);
      r.Ok? && (ResetPassword(r.value, email, answer', newPassword, salt3).Ok? <==>
                BcryptKey(NormalizeAnswer(answer')) == BcryptKey(NormalizeAnswer(answer)))
  {
  }

  /** After a reset the new password logs in, and an old one that differs
      from it in the bytes bcrypt reads does not. */
  lemma ResetThenLogin(users: Users, email: string, answer: string, newPassword: string, salt: nat,
                       oldPassword: string)
    requires ResetPassword(users, email, answer, newPassword, salt).Ok?
    requires BcryptKey(oldPassword) != BcryptKey(newPassword)
    ensures var r := ResetPassword(users, email, answer, newPassword, salt).value;
      && Login(r, email, newPassword, users[email].role).Ok?
      && Login(r, email, oldPassword, users[email].role).Err?
  {
  }

  /** Letter case and surrounding blanks in an answer do not matter: the
      answer given upper-cased and padded with blanks resets a password
      whose answer was given as is. */
  lemma AnswerCaseAndBlanksIgnored(answer: string)
    ensures NormalizeAnswer(" " + Upper(answer) + " ") == NormalizeAnswer(answer)
  {
    LowerAppend(" ", Upper(answer));
    LowerAppend(" " + Upper(answer), " ");
    LowerUpper(answer);
    assert Lower(" ") == " ";
    StripPadded(Lower(answer), ' ', IsPythonSpace);
  }
}

=== FILE: database_url.dfy ===
/** How Backend/database.py chooses the database URL: `DATABASE_URL` from
    the environment, or one built from the `DB_*` variables with the password
    escaped by `urllib.parse.quote_plus`; then a leading `postgres://` is
    rewritten to `postgresql://`. The environment is a map. */
module DatabaseUrl {
  import opened Wrappers
  import opened Strings
  import opened Unicode

  /** The bytes `quote_plus` never escapes: ASCII letters, digits and `_.-~`. */
  predicate SafeByte(b: Byte) {
    || ('A' as int <= b <= 'Z' as int) || ('a' as int <= b <= 'z' as int) || ('0' as int <= b <= '9' as int)
    || b == '_' as int || b == '.' as int || b == '-' as int || b == '~' as int
  }

  function HexDigit(d: nat): (c: char)
    requires d < 16
    ensures d < 10 ==> c as int == '0' as int + d
    ensures d >= 10 ==> c as int == 'A' as int + d - 10
  {
    "0123456789ABCDEF"[d]
  }

  /** The escape of one byte: itself when safe, `+` for a space, `%XX` otherwise. */
  function QuoteByte(b: Byte): (t: string)
    ensures 1 <= |t| <= 3
  {
    if SafeByte(b) then [b as char]
    else if b == 0x20 then "+"
    else ['%', HexDigit(b / 16), HexDigit(b % 16)]
  }

  function QuoteBytes(bs: seq<Byte>): string {
    if bs == [] then [] else QuoteByte(bs[0]) + QuoteBytes(bs[1..])
  }

  /** `urllib.parse.quote_plus(s)`: text of letters, digits and `_.-~+%`
      only, from which the UTF-8 bytes of `s` read back. */
  function QuotePlus(s: string): (r: string)
    ensures forall i :: 0 <= i < |r| ==> QuotedChar(r[i])
    ensures UnquoteBytes(r) == Some(Encode(s))
  {
    QuoteBytesAlphabet(Encode(s));
    QuoteBytesRoundTrip(Encode(s));
    QuoteBytes(Encode(s))
  }

  /** The characters that can appear in an escaped text. */
  predicate QuotedChar(c: char) {
    || ('A' <= c <= 'Z') || ('a' <= c <= 'z') || ('0' <= c <= '9')
    || c == '_' || c == '.' || c == '-' || c == '~' || c == '+' || c == '%'
  }

  /** An escaped text holds only letters, digits and `_.-~+%`: in particular
      no `@`, `:` or `/` that would break the URL apart. */
  lemma {:induction false} QuoteBytesAlphabet(bs: seq<Byte>)
    ensures forall i :: 0 <= i < |QuoteBytes(bs)| ==> QuotedChar(QuoteBytes(bs)[i])
  {
    if bs != [] {
      QuoteBytesAlphabet(bs[1..]);
      var head := QuoteByte(bs[0]);
      var tail := QuoteBytes(bs[1..]);
      var t := QuoteBytes(bs);
      assert t == head + tail;
      QuoteByteAlphabet(bs[0]);
      forall i | 0 <= i < |t|
        ensures QuotedChar(t[i])
      {
        if i < |head| {
          assert t[i] == head[i];
        } else {
          assert t[i] == tail[i - |head|];
        }
      }
    }
  }

  /** The escape of one byte is made of quoted characters. */
  lemma QuoteByteAlphabet(b: Byte)
    ensures forall i :: 0 <= i < |QuoteByte(b)| ==> QuotedChar(QuoteByte(b)[i])
  {
    if !SafeByte(b) && b != 0x20 {
      var h, l := HexDigit(b / 16), HexDigit(b % 16);
      assert QuotedChar(h) && QuotedChar(l);
      assert QuoteByte(b) == ['%', h, l];
    }
  }

  // ---------------------------------------------------------------------
  // The inverse, `unquote_to_bytes` with `+` read as a space

  function HexValue(c: char): Option<nat> {
    if '0' <= c <= '9' then Some(c as int - '0' as int)
    else if 'A' <= c <= 'F' then Some(c as int - 'A' as int + 10)
    else None
  }

  function UnquoteBytes(t: string): Option<seq<Byte>>
    decreases |t|
  {
    if t == [] then Some([])
    else if t[0] == '+' then
      match UnquoteBytes(t[1..]) case None => None case Some(rest) => Some([0x20] + rest)
    else if t[0] == '%' then
      if |t| < 3 then None
      else match (HexValue(t[1]), HexValue(t[2]))
        case (Some(h), Some(l)) =>
          if h * 16 + l < 256 then
            match UnquoteBytes(t[3..]) case None => None case Some(rest) => Some([h * 16 + l] + rest)
          else None
        case _ => None
    else if t[0] as int < 256 then
      match UnquoteBytes(t[1..]) case None => None case Some(rest) => Some([t[0] as int] + rest)
    else None
  }

  lemma UnquoteOneByte(b: Byte, rest: string)
    ensures UnquoteBytes(QuoteByte(b) + rest) ==
      match UnquoteBytes(rest) case None => None case Some(r) => Some([b] + r)
  {
    var t := QuoteByte(b) + rest;
    if SafeByte(b) || b == 0x20 {
      assert t[1..] == rest;
    } else {
      var h, l := b / 16, b % 16;
      assert QuoteByte(b) == ['%', HexDigit(h), HexDigit(l)];
      assert t[0] == '%' && t[1] == HexDigit(h) && t[2] == HexDigit(l);
      assert t[3..] == rest;
      HexRoundTrip(h);
      HexRoundTrip(l);
      assert h * 16 + l == b;
    }
  }

  /** Reading back a hexadecimal digit gives its value. */
  lemma HexRoundTrip(d: nat)
    requires d < 16
    ensures HexValue(HexDigit(d)) == Some(d)
  {
  }

  /** Unquoting an escaped byte string gives the bytes back. */
  lemma {:induction false} QuoteBytesRoundTrip(bs: seq<Byte>)
    ensures UnquoteBytes(QuoteBytes(bs)) == Some(bs)
  {
    if bs != [] {
      QuoteBytesRoundTrip(bs[1..]);
      UnquoteOneByte(bs[0], QuoteBytes(bs[1..]));
      assert QuoteBytes(bs) == QuoteByte(bs[0]) + QuoteBytes(bs[1..]);
      assert [bs[0]] + bs[1..] == bs;
    }
  }

  lemma {:induction false} QuoteBytesAppend(a: seq<Byte>, b: seq<Byte>)
    ensures QuoteBytes(a + b) == QuoteBytes(a) + QuoteBytes(b)
  {
    if a == [] {
      assert a + b == b;
    } else {
      assert (a + b)[1..] == a[1..] + b;
      QuoteBytesAppend(a[1..], b);
    }
  }

  /** Text made only of never-escaped ASCII characters is left as it is. */
  lemma {:induction false} QuotePlusSafeUnchanged(s: string)
    requires forall i :: 0 <= i < |s| ==> s[i] as int < 0x80 && SafeByte(s[i] as int)
    ensures QuotePlus(s) == s
  {
    if s != [] {
      QuotePlusSafeUnchanged(s[1..]);
      QuoteBytesAppend(Utf8(s[0]), Encode(s[1..]));
      assert s == [s[0]] + s[1..];
    }
  }

  // ---------------------------------------------------------------------
  // The URL

  type Env = map<string, string>

  /** `os.getenv(key, default)`: a set variable wins even when empty. */
  function Getenv(env: Env, key: string, default: string): (v: string)
    ensures key !in env ==> v == default
    ensures key in env ==> v == env[key]
  {
    if key in env then env[key] else default
  }

  /** The locally built URL. */
  function FallbackUrl(env: Env): (url: string)
    ensures StartsWith(url, Scheme)
  {
    var user := Getenv(env, "DB_USER", "postgres");
    var pass := Getenv(env, "DB_PASS", DefaultPassword);
    var host := Getenv(env, "DB_HOST", "localhost");
    var name := Getenv(env, "DB_NAME", "eduai_db");
    var port := Getenv(env, "DB_PORT", "5432");
    BuildUrl(user, QuotePlus(pass), host, port, name)
  }

  /** The f-string `postgresql://{user}:{password}@{host}:{port}/{name}`. */
  function BuildUrl(user: string, password: string, host: string, port: string, name: string): (url: string)
    ensures StartsWith(url, Scheme)
  {
    var url := Scheme + (user + ":" + password + "@" + host + ":" + port + "/" + name);
    assert url[..|Scheme|] == Scheme;
    url
  }

  /** The fallback URL puts the escaped password between the first `:` after
      the user and the `@` before the host, and the password part holds no `@`. */
  lemma FallbackUrlShape(env: Env)
    ensures var pass := QuotePlus(Getenv(env, "DB_PASS", DefaultPassword));
      && FallbackUrl(env) == BuildUrl(Getenv(env, "DB_USER", "postgres"), pass, Getenv(env, "DB_HOST", "localhost"),
                                      Getenv(env, "DB_PORT", "5432"), Getenv(env, "DB_NAME", "eduai_db"))
      && forall i :: 0 <= i < |pass| ==> pass[i] != '@' && pass[i] != '/' && pass[i] != ':'
  {
    QuotePlusUrlSafe(Getenv(env, "DB_PASS", DefaultPassword));
  }

  /** An escaped password holds none of the URL's separators. */
  lemma QuotePlusUrlSafe(s: string)
    ensures forall i :: 0 <= i < |QuotePlus(s)| ==> QuotePlus(s)[i] != '@' && QuotePlus(s)[i] != '/' && QuotePlus(s)[i] != ':'
  {
    QuoteBytesAlphabet(Encode(s));
  }

  const LegacyScheme: string := "postgres://"
  const Scheme: string := "postgresql://"

  /** `url.replace("postgres://", "postgresql://", 1)` when the URL starts with
      the legacy scheme: the first occurrence is the leading one. */
  function FixScheme(url: string): (r: string)
    ensures StartsWith(url, LegacyScheme) ==> r == Scheme + url[|LegacyScheme|..]
    ensures !StartsWith(url, LegacyScheme) ==> r == url
    ensures !StartsWith(r, LegacyScheme)
  {
    if StartsWith(url, LegacyScheme) then
      var r := Scheme + url[|LegacyScheme|..];
      assert r[8] == 'q';
      r
    else url
  }

  /** Fixing the scheme twice is fixing it once. */
  lemma FixSchemeIdempotent(url: string)
    ensures FixScheme(FixScheme(url)) == FixScheme(url)
  {
  }

  /** The URL the engine is created with. */
  function DatabaseUrl(env: Env): (url: string)
    ensures "DATABASE_URL" in env && env["DATABASE_URL"] != "" ==> url == FixScheme(env["DATABASE_URL"])
    ensures ("DATABASE_URL" !in env || env["DATABASE_URL"] == "") ==> url == FallbackUrl(env)
    ensures !StartsWith(url, LegacyScheme)
  {
    var given := Getenv(env, "DATABASE_URL", "");
    if given != "" then FixScheme(given)
    else
      var url := FallbackUrl(env);
      NewSchemeIsNotLegacy(url);
      FixScheme(url)
  }

  /** A URL with the new scheme does not start with the legacy one. */
  lemma NewSchemeIsNotLegacy(url: string)
    requires StartsWith(url, Scheme)
    ensures !StartsWith(url, LegacyScheme)
  {
    assert url[8] == Scheme[8];
  }

  /** With none of the variables set the URL is the local default. */
  lemma DefaultUrl(env: Env)
    requires "DATABASE_URL" !in env && "DB_USER" !in env && "DB_PASS" !in env
    requires "DB_HOST" !in env && "DB_PORT" !in env && "DB_NAME" !in env
    ensures DatabaseUrl(env) == BuildUrl("postgres", QuotePlus(DefaultPassword), "localhost", "5432", "eduai_db")
  {
    NewSchemeIsNotLegacy(FallbackUrl(env));
  }

  const DefaultPassword: string := "postgres@123"

  /** An `@` between two never-escaped texts becomes `%40`; the default
      password `postgres@123` is such a text. */
  lemma AtEscaped(a: string, c: string)
    requires forall i :: 0 <= i < |a| ==> a[i] as int < 0x80 && SafeByte(a[i] as int)
    requires forall i :: 0 <= i < |c| ==> c[i] as int < 0x80 && SafeByte(c[i] as int)
    ensures QuotePlus(a + "@" + c) == a + "%40" + c
  {
    var b := "@";
    EncodeAppend(a + b, c);
    EncodeAppend(a, b);
    QuoteBytesAppend(Encode(a) + Encode(b), Encode(c));
    QuoteBytesAppend(Encode(a), Encode(b));
    QuotePlusSafeUnchanged(a);
    QuotePlusSafeUnchanged(c);
    assert Encode(b) == [64];
    assert QuoteBytes([64]) == "%40";
  }
}

=== FILE: doubts.dfy ===
/** The doubt log of Backend/main.py: the record each student question adds,
    the `System` seed record a material upload adds for a new unit, the unit
    list and the two chart queries. The log is the `doubts` table in insertion
    order. */
module Doubts {
  import opened Wrappers
  import opened Strings
  import Seqs
  import Simulations

  /** One row of the `doubts` table (the timestamp is left out). */
  datatype DoubtRecord = DoubtRecord(question: string, topic: string, unit: string)

  /** The topic the seed record carries; the chart queries leave it out. */
  const SystemTopic: string := "System"

  /** `upload_material`'s unit label: the stripped unit, or `Others` when that is empty. */
  function UnitNameFor(unit: string): (name: string)
    ensures name != ""
    ensures Strip(unit) != "" ==> name == Strip(unit)
    ensures Strip(unit) == "" ==> name == "Others"
  {
    if Strip(unit) == "" then "Others" else Strip(unit)
  }

  /** Whether some record carries this unit label. */
  predicate HasUnit(log: seq<DoubtRecord>, unit: string) {
    exists i | 0 <= i < |log| :: log[i].unit == unit
  }

  /** The database side of `upload_material`: a unit seen for the first time
      gets one `System` record so that it appears in the unit list. */
  function UploadMaterial(log: seq<DoubtRecord>, unit: string): (r: seq<DoubtRecord>)
    ensures HasUnit(r, UnitNameFor(unit))
    ensures HasUnit(log, UnitNameFor(unit)) ==> r == log
    ensures !HasUnit(log, UnitNameFor(unit)) ==> r == log + [DoubtRecord("Init", SystemTopic, UnitNameFor(unit))]
  {
    var name := UnitNameFor(unit);
    if HasUnit(log, name) then log
    else
      var r := log + [DoubtRecord("Init", SystemTopic, name)];
      assert r[|log|].unit == name;
      r
  }

  /** Uploading material for the same unit twice seeds it once. */
  lemma UploadMaterialIdempotent(log: seq<DoubtRecord>, unit: string)
    ensures UploadMaterial(UploadMaterial(log, unit), unit) == UploadMaterial(log, unit)
  {
  }

  /** `categorize_doubt` after the model has answered (`None` when the call
      raised): the stripped reply without quote characters, or `General`. */
  function Categorize(reply: Option<string>): (topic: string)
    ensures reply.None? ==> topic == "General"
  {
    match reply
    case None => "General"
    case Some(content) => RemoveChar(RemoveChar(Strip(content), '\''), '"')
  }

  /** A topic taken from a reply never holds a quote character. */
  lemma CategorizeRemovesQuotes(content: string)
    ensures var t := Categorize(Some(content));
      forall i :: 0 <= i < |t| ==> t[i] != '\'' && t[i] != '"'
  {
    var once := RemoveChar(Strip(content), '\'');
    RemoveCharSpec(Strip(content), '\'');
    RemoveCharSpec(once, '"');
    RemoveCharSubset(once, '"');
  }

  /** Removing a character keeps only characters the input had. */
  lemma {:induction false} RemoveCharSubset(s: string, c: char)
    ensures forall i :: 0 <= i < |RemoveChar(s, c)| ==> RemoveChar(s, c)[i] in s
  {
    if s != [] {
      RemoveCharSubset(s[1..], c);
    }
  }

  /** The database side of `ask_ai`: the question is logged under the
      categorised topic, and the simulation lookup runs on the question. */
  function AskAi(log: seq<DoubtRecord>, question: string, unit: string, topicReply: Option<string>)
    : (r: (seq<DoubtRecord>, Option<Simulations.Simulation>))
    ensures r.0 == log + [DoubtRecord(question, Categorize(topicReply), unit)]
    ensures r.1.Some? ==> r.1.value in Simulations.PhetDatabase
  {
    (log + [DoubtRecord(question, Categorize(topicReply), unit)], Simulations.FindSimulation(question))
  }

  /** `get_units`: the distinct unit labels, except empty ones and the text `None`. */
  function Units(log: seq<DoubtRecord>): (r: set<string>)
    ensures forall u :: u in r <==> HasUnit(log, u) && u != "" && u != "None"
  {
    set i | 0 <= i < |log| && log[i].unit != "" && log[i].unit != "None" :: log[i].unit
  }

  /** An uploaded unit is listed, unless its label is the text `None`. */
  lemma UploadedUnitListed(log: seq<DoubtRecord>, unit: string)
    requires UnitNameFor(unit) != "None"
    ensures UnitNameFor(unit) in Units(UploadMaterial(log, unit))
  {
  }

  // ---------------------------------------------------------------------
  // Grouped counts

  function Is(k: string): string -> bool {
    (x: string) => x == k
  }

  /** `GROUP BY` with `COUNT`: each distinct value and how often it occurs. */
  function Tally(s: seq<string>): (t: map<string, nat>)
    ensures forall k :: k in t <==> k in s
    ensures forall k :: k in t ==> t[k] == Seqs.Count(s, Is(k))
  {
    if s == [] then map[]
    else
      var t := Tally(s[1..]);
      assert s == [s[0]] + s[1..];
      t[s[0] := (if s[0] in t then t[s[0]] else 0) + 1]
  }

  function Questions(log: seq<DoubtRecord>): (r: seq<DoubtRecord>)
    ensures forall d :: d in r <==> d in log && d.topic != SystemTopic
  {
    if log == [] then []
    else if log[0].topic != SystemTopic then [log[0]] + Questions(log[1..])
    else Questions(log[1..])
  }

  function UnitsOf(log: seq<DoubtRecord>): (r: seq<string>)
    ensures |r| == |log| && forall i :: 0 <= i < |log| ==> r[i] == log[i].unit
  {
    seq(|log|, i requires 0 <= i < |log| => log[i].unit)
  }

  function TopicsOf(log: seq<DoubtRecord>): (r: seq<string>)
    ensures |r| == |log| && forall i :: 0 <= i < |log| ==> r[i] == log[i].topic
  {
    seq(|log|, i requires 0 <= i < |log| => log[i].topic)
  }

  function InUnit(log: seq<DoubtRecord>, unit: string): (r: seq<DoubtRecord>)
    ensures forall d :: d in r <==> d in log && d.unit == unit
  {
    if log == [] then []
    else if log[0].unit == unit then [log[0]] + InUnit(log[1..], unit)
    else InUnit(log[1..], unit)
  }

  /** A question, as opposed to a seed record, filed under unit `u`. */
  function QuestionIn(u: string): DoubtRecord -> bool {
    (d: DoubtRecord) => d.unit == u && d.topic != SystemTopic
  }

  /** A question of unit `u` categorised under topic `t`. */
  function QuestionOn(u: string, t: string): DoubtRecord -> bool {
    (d: DoubtRecord) => d.unit == u && d.topic == t && d.topic != SystemTopic
  }

  /** Counting unit labels among the questions counts the questions of that unit. */
  lemma {:induction false} UnitCountIsQuestionCount(log: seq<DoubtRecord>, u: string)
    ensures Seqs.Count(UnitsOf(Questions(log)), Is(u)) == Seqs.Count(log, QuestionIn(u))
  {
    if log != [] {
      UnitCountIsQuestionCount(log[1..], u);
      var rest := Questions(log[1..]);
      if log[0].topic != SystemTopic {
        assert Questions(log) == [log[0]] + rest;
        var units := UnitsOf([log[0]] + rest);
        assert units[0] == log[0].unit && units[1..] == UnitsOf(rest);
      } else {
        assert Questions(log) == rest;
      }
    }
  }

  /** Counting topic labels among a unit's questions counts the questions on that topic. */
  lemma {:induction false} TopicCountIsQuestionCount(log: seq<DoubtRecord>, u: string, t: string)
    ensures Seqs.Count(TopicsOf(InUnit(Questions(log), u)), Is(t)) == Seqs.Count(log, QuestionOn(u, t))
  {
    if log != [] {
      TopicCountIsQuestionCount(log[1..], u, t);
      var rest := InUnit(Questions(log[1..]), u);
      if log[0].topic != SystemTopic && log[0].unit == u {
        assert Questions(log) == [log[0]] + Questions(log[1..]);
        assert InUnit(Questions(log), u) == [log[0]] + rest;
        var topics := TopicsOf([log[0]] + rest);
        assert topics[0] == log[0].topic && topics[1..] == TopicsOf(rest);
      } else if log[0].topic != SystemTopic {
        assert Questions(log) == [log[0]] + Questions(log[1..]);
        assert InUnit(Questions(log), u) == rest;
      } else {
        assert Questions(log) == Questions(log[1..]);
      }
    }
  }

  /** `get_chart`: each unit label with at least one question, mapped to its
      number of questions; seed records are not counted. */
  function Chart(log: seq<DoubtRecord>): (c: map<string, nat>)
    ensures forall u :: u in c <==> Seqs.Count(log, QuestionIn(u)) > 0
    ensures forall u :: u in c ==> c[u] == Seqs.Count(log, QuestionIn(u))
  {
    var c := Tally(UnitsOf(Questions(log)));
    assert forall u :: Seqs.Count(UnitsOf(Questions(log)), Is(u)) == Seqs.Count(log, QuestionIn(u)) by {
      forall u { UnitCountIsQuestionCount(log, u); }
    }
    c
  }

  /** `get_topics`: within one unit, each topic with at least one question,
      mapped to its number of questions; seed records are not counted. */
  function Topics(log: seq<DoubtRecord>, unit: string): (r: map<string, nat>)
    ensures forall t :: t in r <==> Seqs.Count(log, QuestionOn(unit, t)) > 0
    ensures forall t :: t in r ==> r[t] == Seqs.Count(log, QuestionOn(unit, t))
  {
    var r := Tally(TopicsOf(InUnit(Questions(log), unit)));
    assert forall t :: Seqs.Count(TopicsOf(InUnit(Questions(log), unit)), Is(t)) == Seqs.Count(log, QuestionOn(unit, t)) by {
      forall t { TopicCountIsQuestionCount(log, unit, t); }
    }
    r
  }

  lemma {:induction false} QuestionsAppend(log: seq<DoubtRecord>, d: DoubtRecord)
    ensures Questions(log + [d]) == Questions(log) + (if d.topic != SystemTopic then [d] else [])
  {
    if log == [] {
      assert log + [d] == [d];
    } else {
      assert (log + [d])[1..] == log[1..] + [d];
      QuestionsAppend(log[1..], d);
    }
  }

  /** A seed record never shows in the chart. */
  lemma SeedInvisibleInChart(log: seq<DoubtRecord>, unit: string)
    ensures Chart(UploadMaterial(log, unit)) == Chart(log)
  {
    var name := UnitNameFor(unit);
    if !HasUnit(log, name) {
      var d := DoubtRecord("Init", SystemTopic, name);
      assert UploadMaterial(log, unit) == log + [d];
      QuestionsAppend(log, d);
      assert Questions(log + [d]) == Questions(log);
    }
  }

  /** A question adds one to its unit's bar, unless its topic came back as `System`. */
  lemma AskAiCountsOnce(log: seq<DoubtRecord>, question: string, unit: string, topicReply: Option<string>)
    requires Categorize(topicReply) != SystemTopic
    ensures var c := Chart(AskAi(log, question, unit, topicReply).0);
      unit in c && c[unit] == (if unit in Chart(log) then Chart(log)[unit] else 0) + 1
  {
    var d := DoubtRecord(question, Categorize(topicReply), unit);
    var log' := AskAi(log, question, unit, topicReply).0;
    assert log' == log + [d];
    QuestionInChart(log, d);
  }

  /** Appending a question adds one to its unit's count in the chart. */
  lemma QuestionInChart(log: seq<DoubtRecord>, d: DoubtRecord)
    requires d.topic != SystemTopic
    ensures var c := Chart(log + [d]);
      d.unit in c && c[d.unit] == (if d.unit in Chart(log) then Chart(log)[d.unit] else 0) + 1
  {
    QuestionsAppend(log, d);
    var q := Questions(log);
    assert Questions(log + [d]) == q + [d];
    assert UnitsOf(q + [d]) == UnitsOf(q) + [d.unit];
    Seqs.CountAppend(UnitsOf(q), [d.unit], Is(d.unit));
    var one: seq<string> := [d.unit];
    assert Seqs.Count(one, Is(d.unit)) == 1 by {
      assert one[1..] == [];
    }
    if d.unit !in Chart(log) {
      assert Seqs.Count(UnitsOf(q), Is(d.unit)) == 0;
    }
  }
}

=== FILE: faculty_dashboard.dfy ===
/** The faculty page of frontend/src/FacultyDashboard.js: the material
    upload, the two CAT mark uploads, the drill-down into one unit's topics,
    and the pieces of the analytics panels that are computed rather than
    drawn. Each handler is one step from the state before the click; the
    server's reply is an input; alerts and refetches are outputs. */
module FacultyDashboard {
  import opened Wrappers
  import opened Strings
  import Numbers
  import Seqs
  import Marks
  import Analytics
  import Doubts
  import TopicChart

  /** The page state this model follows; a chosen file is represented by its name. */
  datatype Dash = Dash(
    file: Option<string>, unitName: string, loading: bool,
    selectedUnit: Option<string>, unitDetails: seq<TopicChart.Bar>, detailLoading: bool,
    cat1File: Option<string>, cat2File: Option<string>, cat1Loading: bool, cat2Loading: bool)

  /** What a handler does besides changing the state. */
  datatype Effects = Effects(request: Option<(string, string)>, alert: Option<string>, refetch: bool)

  const NoEffects: Effects := Effects(None, None, false)

  // ---------------------------------------------------------------------
  // Course material

  /** The guard of `uploadFile`: a file and a unit name that is not empty
      (a name of blanks passes). */
  predicate CanUpload(d: Dash) {
    d.file.Some? && d.unitName != ""
  }

  /** The `Train AI` button's `disabled` condition. */
  predicate UploadDisabled(d: Dash) {
    d.loading || d.file.None? || d.unitName == ""
  }

  /** `uploadFile`: the file goes with the trimmed unit; success clears the
      name and the file and refetches the chart, failure keeps both. */
  function UploadFile(d: Dash, succeeded: bool): (r: (Dash, Effects))
    ensures !CanUpload(d) ==> r == (d, NoEffects)
    ensures CanUpload(d) ==> var (d', e) := r;
      && e.request == Some((d.file.value, Trim(d.unitName)))
      && !d'.loading
      && (succeeded ==> d'.unitName == "" && d'.file.None? && e.refetch)
      && (!succeeded ==> d'.unitName == d.unitName && d'.file == d.file && !e.refetch)
      && d' == d.(unitName := d'.unitName, file := d'.file, loading := false)
  {
    if !CanUpload(d) then (d, NoEffects)
    else
      var request := Some((d.file.value, Trim(d.unitName)));
      if succeeded then
        (d.(unitName := "", file := None, loading := false),
         Effects(request, Some("\U{1F389} Successfully synced: " + d.unitName), true))
      else (d.(loading := false), Effects(request, Some("Upload failed."), false))
  }

  /** An enabled button never hits the guard. */
  lemma EnabledUploadSends(d: Dash, succeeded: bool)
    requires !UploadDisabled(d)
    ensures UploadFile(d, succeeded).1.request.Some?
  {
  }

  /** A unit name made only of blanks passes the guard and is sent as the
      empty text. */
  lemma BlankUnitSentEmpty(d: Dash, succeeded: bool)
    requires d.file.Some? && d.unitName != ""
    requires forall i :: 0 <= i < |d.unitName| ==> d.unitName[i] == ' '
    ensures UploadFile(d, succeeded).1.request.value.1 == ""
  {
    StripSpec(d.unitName, IsJsSpace);
  }

  /** An information separator (U+001C) is not whitespace to `trim` but is to
      Python's `strip`: such a unit name reaches the server as it is, and the
      material is filed under `Others`. */
  lemma SeparatorUnitFiledUnderOthers(d: Dash, succeeded: bool)
    requires d.file.Some? && d.unitName == "\U{1c}"
    ensures var unit := UploadFile(d, succeeded).1.request.value.1;
      unit == "\U{1c}" && Doubts.UnitNameFor(unit) == "Others"
  {
    StripSpec(d.unitName, IsJsSpace);
    StripSpec(d.unitName, IsPythonSpace);
  }

  // ---------------------------------------------------------------------
  // CAT marks

  /** The JSON an upload endpoint answers with: a `message`, an `error`, or
      no answer at all. */
  datatype CatReply = Message(text: string) | ErrorField(text: string) | NetworkError

  /** The endpoint's answer for an upload outcome. The texts of a listed
      column set and of a rejected commit are inputs. */
  function Response(r: Result<Marks.Synced, Marks.UploadError>, columnListing: string, commitError: string)
    : (reply: CatReply)
    ensures r.Ok? <==> reply.Message?
    ensures r.Err? && (r.error != Marks.CommitFailed || commitError != "") ==> reply.ErrorField? && reply.text != ""
  {
    match r
    case Ok(synced) => Message("Successfully synced " + Numbers.NatToString(synced.count) + " students")
    case Err(e) =>
      if e.RegisterColumnNotFound? then ErrorField("Could not find 'Register Number' column. Found: " + columnListing)
      else if e.RegisterColumnMissing? then ErrorField("Register Number column missing.")
      else ErrorField(commitError)
  }

  function CatFile(d: Dash, exam: Marks.Exam): Option<string> {
    if exam == Marks.Cat1 then d.cat1File else d.cat2File
  }

  /** `uploadCat1` / `uploadCat2`: an `error` in the answer (one that is not
      the empty text) or a failed request keeps the chosen file; otherwise
      the file is cleared and the analytics are refetched. */
  function UploadCat(d: Dash, exam: Marks.Exam, reply: CatReply): (r: (Dash, Effects))
    ensures CatFile(d, exam).None? ==> r == (d, NoEffects)
    ensures CatFile(d, exam).Some? ==> var (d', e) := r;
      var accepted := reply.Message? || (reply.ErrorField? && reply.text == "");
      && e.request == Some((CatFile(d, exam).value, if exam == Marks.Cat1 then "upload-cat1" else "upload-cat2"))
      && (accepted <==> CatFile(d', exam).None?)
      && (accepted <==> e.refetch)
      && (!accepted ==> d' == d.(cat1Loading := d'.cat1Loading, cat2Loading := d'.cat2Loading))
      && !d'.cat1Loading == (exam == Marks.Cat1 || !d.cat1Loading)
      && !d'.cat2Loading == (exam == Marks.Cat2 || !d.cat2Loading)
      && CatFile(d', if exam == Marks.Cat1 then Marks.Cat2 else Marks.Cat1) == CatFile(d, if exam == Marks.Cat1 then Marks.Cat2 else Marks.Cat1)
    ensures r.0 == d.(cat1File := r.0.cat1File, cat2File := r.0.cat2File,
                      cat1Loading := r.0.cat1Loading, cat2Loading := r.0.cat2Loading)
  {
    if CatFile(d, exam).None? then (d, NoEffects)
    else
      var endpoint := if exam == Marks.Cat1 then "upload-cat1" else "upload-cat2";
      var request := Some((CatFile(d, exam).value, endpoint));
      var examNo := if exam == Marks.Cat1 then "1" else "2";
      var idle := if exam == Marks.Cat1 then d.(cat1Loading := false) else d.(cat2Loading := false);
      if reply.NetworkError? then
        (idle, Effects(request, Some(if exam == Marks.Cat1 then "\U{274C} Network Error: Check console for details"
                                     else "\U{274C} Network Error"), false))
      else if reply.ErrorField? && reply.text != "" then
        (idle, Effects(request, Some("\U{274C} Upload Error: " + reply.text), false))
      else
        var cleared := if exam == Marks.Cat1 then idle.(cat1File := None) else idle.(cat2File := None);
        (cleared, Effects(request, Some("\U{2705} CAT " + examNo + " Synced!"), true))
  }

  /** End to end: the chosen file stays selected exactly when the server
      rejected the sheet (a missing register column, or a commit the
      database refused with a message). */
  lemma FileKeptIffSheetRejected(d: Dash, exam: Marks.Exam, db: map<string, Marks.StudentMark>, sheet: Marks.Sheet,
                                 columnListing: string, commitError: string)
    requires CatFile(d, exam).Some? && commitError != ""
    ensures var reply := Response(Marks.UploadMarks(exam, db, sheet), columnListing, commitError);
      CatFile(UploadCat(d, exam, reply).0, exam).Some? <==> Marks.UploadMarks(exam, db, sheet).Err?
  {
  }

  /** A sheet without a register column never clears the file. */
  lemma MissingRegisterColumnKeepsFile(d: Dash, exam: Marks.Exam, db: map<string, Marks.StudentMark>,
                                       sheet: Marks.Sheet, columnListing: string, commitError: string)
    requires CatFile(d, exam).Some?
    requires Marks.FindColumn(sheet.columns, Marks.RegisterKeywords(exam)).None?
    ensures var reply := Response(Marks.UploadMarks(exam, db, sheet), columnListing, commitError);
      UploadCat(d, exam, reply).0 == UploadCat(d, exam, reply).0.(cat1File := d.cat1File, cat2File := d.cat2File)
      && CatFile(UploadCat(d, exam, reply).0, exam) == CatFile(d, exam)
      && !UploadCat(d, exam, reply).1.refetch
  {
    var up := Marks.UploadMarks(exam, db, sheet);
    assert up.Err? && up.error != Marks.CommitFailed;
    var reply := Response(up, columnListing, commitError);
    assert reply.ErrorField? && reply.text != "";
  }

  // ---------------------------------------------------------------------
  // Drill-down

  /** `handleUnitClick` up to the request: the unit is selected and the
      details panel shows its spinner. */
  function OpenUnit(d: Dash, unit: string): (r: Dash)
    ensures r.selectedUnit == Some(unit) && r.detailLoading
    ensures r == d.(selectedUnit := Some(unit), detailLoading := true)
  {
    d.(selectedUnit := Some(unit), detailLoading := true)
  }

  /** The rest of `handleUnitClick`: the topics on success (`None` when the
      request failed), and the spinner off in either case. */
  function UnitLoaded(d: Dash, reply: Option<seq<TopicChart.Bar>>): (r: Dash)
    ensures !r.detailLoading && r.selectedUnit == d.selectedUnit
    ensures reply.Some? ==> r.unitDetails == reply.value
    ensures reply.None? ==> r.unitDetails == d.unitDetails
    ensures r == d.(unitDetails := r.unitDetails, detailLoading := false)
  {
    match reply
    case Some(bars) => d.(unitDetails := bars, detailLoading := false)
    case None => d.(detailLoading := false)
  }

  function HandleUnitClick(d: Dash, unit: string, reply: Option<seq<TopicChart.Bar>>): (r: Dash)
    ensures r.selectedUnit == Some(unit) && !r.detailLoading
    ensures reply.Some? ==> r.unitDetails == reply.value
    ensures reply.None? ==> r.unitDetails == d.unitDetails
    ensures r == d.(selectedUnit := Some(unit), unitDetails := r.unitDetails, detailLoading := false)
  {
    UnitLoaded(OpenUnit(d, unit), reply)
  }

  /** Clicking bar `i` of the chart opens the unit drawn under that bar. */
  lemma ChartClickOpensUnit(d: Dash, bars: seq<TopicChart.Bar>, i: nat, reply: Option<seq<TopicChart.Bar>>)
    requires i < |bars|
    ensures var unit := TopicChart.OnClick(bars, true, true, [i]);
      unit.Some? && HandleUnitClick(d, unit.value, reply).selectedUnit == Some(bars[i].topic)
  {
  }

  /** The width of a topic's bar in percent: ten doubts fill it. */
  function BarWidth(count: nat): (w: real)
    ensures 0.0 <= w <= 100.0
    ensures count <= 10 ==> w == count as real * 10.0
    ensures count >= 10 ==> w == 100.0
  {
    var scaled := count as real / 10.0 * 100.0;
    if scaled < 100.0 then scaled else 100.0
  }

  /** More doubts never give a shorter bar. */
  lemma BarWidthMonotone(a: nat, b: nat)
    requires a <= b
    ensures BarWidth(a) <= BarWidth(b)
  {
  }

  // ---------------------------------------------------------------------
  // Analytics panels

  /** An observation or recommendation as it arrives in the JSON: a text,
      an object (its `description`, its `text`, and its JSON form), `null`,
      or absent. A missing or empty field of the object is `""`. */
  datatype Field = Text(value: string) | Object(description: string, text: string, json: string) | Null | Absent

  /** The observation line: an object shows its description, else its text,
      else its JSON. `typeof null` is `object`, so `null` makes the panel
      fail to render (`None`). */
  function ObservationText(f: Field): (r: Option<string>)
    ensures f.Text? ==> r == Some(f.value)
    ensures f.Object? ==>
      && r.Some?
      && (f.description != "" ==> r.value == f.description)
      && (f.description == "" && f.text != "" ==> r.value == f.text)
      && (f.description == "" && f.text == "" ==> r.value == f.json)
    ensures f.Null? <==> r.None?
  {
    match f
    case Text(v) => Some(v)
    case Object(desc, text, json) => Some(if desc != "" then desc else if text != "" then text else json)
    case Null => None
    case Absent => Some("")
  }

  /** The recommendation line: as the observation, with a fixed text in
      place of the JSON. */
  function RecommendationText(f: Field): (r: Option<string>)
    ensures f.Text? ==> r == Some(f.value)
    ensures f.Object? ==>
      && r.Some?
      && (f.description != "" ==> r.value == f.description)
      && (f.description == "" && f.text != "" ==> r.value == f.text)
      && (f.description == "" && f.text == "" ==> r.value == "Check detailed report")
    ensures f.Null? <==> r.None?
  {
    match f
    case Text(v) => Some(v)
    case Object(desc, text, _) => Some(if desc != "" then desc else if text != "" then text else "Check detailed report")
    case Null => None
    case Absent => Some("")
  }

  /** Insights the backend writes itself carry plain texts and render as they are. */
  lemma BackendInsightsRender(i: Analytics.Insight)
    ensures ObservationText(Text(i.observation)) == Some(i.observation)
    ensures RecommendationText(Text(i.recommendation)) == Some(i.recommendation)
  {
  }

  /** The deep-analytics answer as the page holds it: the two lists, each absent when the answer has none. */
  datatype AnalyticsData = AnalyticsData(poorPerformers: Option<seq<Marks.StudentMark>>,
                                         insights: Option<seq<Analytics.Insight>>)

  /** The page's copy of an endpoint answer; the `No data` error has neither list. */
  function FromReport(r: Result<Analytics.Report, string>): (a: AnalyticsData)
    ensures r.Err? ==> a == AnalyticsData(None, None)
    ensures r.Ok? ==> a == AnalyticsData(Some(r.value.poorPerformers), Some(r.value.insights))
  {
    match r
    case Ok(rep) => AnalyticsData(Some(rep.poorPerformers), Some(rep.insights))
    case Err(_) => AnalyticsData(None, None)
  }

  /** The at-risk badge: the number of poor performers, 0 before the
      analytics arrive or when the answer has no list. */
  function AtRiskCount(a: Option<AnalyticsData>): (n: nat)
    ensures a.None? || a.value.poorPerformers.None? ==> n == 0
    ensures a.Some? && a.value.poorPerformers.Some? ==> n == |a.value.poorPerformers.value|
  {
    match a
    case None => 0
    case Some(data) => match data.poorPerformers
      case None => 0
      case Some(list) => |list|
  }

  /** `No critical learning gaps detected.` shows when there are no insights. */
  predicate NoGapsShown(a: Option<AnalyticsData>) {
    a.None? || a.value.insights.None? || a.value.insights.value == []
  }

  /** End to end: the badge counts the students below 50 percent, and the
      no-gaps note shows exactly when the backend produced no insight. */
  lemma AtRiskBadgeCountsPoorStudents(students: seq<Marks.StudentMark>, doubtUnits: seq<string>,
                                      reply: Analytics.AiReply, decode: string -> Option<seq<Analytics.Insight>>)
    ensures var r := Analytics.DeepAnalytics(students, doubtUnits, reply, decode);
      && AtRiskCount(Some(FromReport(r))) == Seqs.Count(students, Analytics.Poor)
      && (NoGapsShown(Some(FromReport(r))) <==> r.Err? || r.value.insights == [])
  {
    var r := Analytics.DeepAnalytics(students, doubtUnits, reply, decode);
    if r.Ok? {
      assert r.value.poorPerformers == Seqs.Filter(students, Analytics.Poor);
      Seqs.FilterLength(students, Analytics.Poor);
    } else {
      assert students == [];
    }
  }
}

=== FILE: faculty_login.dfy ===
/** The faculty sign-in page of frontend/src/FacultyLogin.js: three views
    (login, signup, forgot password), the form fields, and the three
    handlers. Each handler is one step from the state before the click; the
    server's answer is an input and what the page sends, stores, shows and
    navigates to is the output. */
module FacultyLogin {
  import opened Wrappers
  import opened LocalStorage
  import Json

  datatype View = LoginView | SignupView | ForgotView

  datatype Form = Form(
    view: View, email: string, password: string, fullName: string,
    securityQuestion: string, securityAnswer: string, fetchedQuestion: string)

  const SecurityOptions: seq<string> := [
    "What is your pet's name?",
    "What city were you born in?",
    "What is your mother's maiden name?",
    "What is your favorite food?",
    "What was the name of your first school?"
  ]

  /** The page as it first renders. */
  const InitialForm: Form := Form(LoginView, "", "", "", "What is your pet's name?", "", "")

  /** The page opens on the login view with the first security question chosen. */
  lemma InitialFormDefaults()
    ensures InitialForm.view == LoginView && InitialForm.fetchedQuestion == ""
    ensures InitialForm.securityQuestion == SecurityOptions[0]
  {
  }

  // ---------------------------------------------------------------------
  // Switching views

  /** The links under the form: `Register here` and `Forgot Password?` on
      the login view, `Back to Login` on the other two. */
  datatype Link = ToSignup | ToForgot | BackToLogin

  predicate LinkShown(v: View, link: Link) {
    if v == LoginView then link != BackToLogin else link == BackToLogin
  }

  /** The view changes the links allow. */
  predicate Move(from: View, to: View) {
    (from == LoginView && to != LoginView) || (from != LoginView && to == LoginView)
  }

  function Follow(f: Form, link: Link): (r: Form)
    requires LinkShown(f.view, link)
    ensures Move(f.view, r.view)
    ensures link == BackToLogin ==> r == f.(view := LoginView, fetchedQuestion := "")
    ensures link == ToSignup ==> r == f.(view := SignupView)
    ensures link == ToForgot ==> r == f.(view := ForgotView)
  {
    match link
    case ToSignup => f.(view := SignupView)
    case ToForgot => f.(view := ForgotView)
    case BackToLogin => f.(view := LoginView, fetchedQuestion := "")
  }

  /** Every allowed move has a link, and no link leads anywhere else. */
  lemma MovesAreLinks(from: View, to: View)
    ensures Move(from, to) <==> exists link :: LinkShown(from, link) && Follow(InitialForm.(view := from), link).view == to
  {
    if Move(from, to) {
      var link := if to == SignupView then ToSignup else if to == ForgotView then ToForgot else BackToLogin;
      assert LinkShown(from, link) && Follow(InitialForm.(view := from), link).view == to;
    }
  }

  // ---------------------------------------------------------------------
  // Login and signup

  /** A form post: the endpoint and the fields in the order they are appended. */
  datatype Request = Request(endpoint: string, fields: seq<(string, string)>)

  /** The server's answer: success (with the `full_name` a login returns),
      or an error whose `detail` may be missing (the empty text). */
  datatype Reply = Accepted(fullName: string) | Rejected(detail: string)

  /** What a handler does besides changing the form. */
  datatype Outcome = Outcome(
    storage: Storage, setUser: Option<string>, alert: Option<string>, navigateTo: Option<string>,
    request: Option<Request>)

  /** `detail || fallback`. */
  function DetailOr(detail: string, fallback: string): (t: string)
    ensures detail != "" ==> t == detail
    ensures detail == "" ==> t == fallback
  {
    if detail != "" then detail else fallback
  }

  /** The signed-in name and role as they are kept for the next visit. */
  function Remember(store: Storage, name: string): (r: Storage)
    ensures r.Keys == store.Keys + {UserKey, RoleKey}
    ensures r[UserKey] == Json.Stringify(name) && r[RoleKey] == "faculty"
    ensures forall k :: k in store && k != UserKey && k != RoleKey ==> r[k] == store[k]
  {
    store[UserKey := Json.Stringify(name)][RoleKey := "faculty"]
  }

  function AuthRequest(f: Form): (r: Request)
    requires f.view != ForgotView
    ensures |r.fields| >= 3 && r.fields[..3] == [("email", f.email), ("password", f.password), ("role", "faculty")]
    ensures f.view == LoginView <==> |r.fields| == 3
    ensures f.view == SignupView ==>
      r.fields[3..] == [("full_name", f.fullName), ("security_question", f.securityQuestion), ("security_answer", f.securityAnswer)]
  {
    var common := [("email", f.email), ("password", f.password), ("role", "faculty")];
    if f.view == LoginView then Request("/auth/login", common)
    else Request("/auth/signup", common + [("full_name", f.fullName), ("security_question", f.securityQuestion),
                                          ("security_answer", f.securityAnswer)])
  }

  // ---------------------------------------------------------------------
  // The browser's form validation: the `required` inputs and the email
  // input's "valid e-mail address" (section 4.10.5.1.5 of the WHATWG HTML
  // standard). A form that fails it is never submitted.

  predicate AsciiAlnum(c: char) {
    ('a' <= c <= 'z') || ('A' <= c <= 'Z') || ('0' <= c <= '9')
  }

  /** A character allowed before the `@`. */
  predicate LocalChar(c: char) {
    AsciiAlnum(c) || c in ".!#$%&'*+/=?^_`{|}~-"
  }

  /** A domain label: 1 to 63 letters, digits and hyphens, starting and
      ending with a letter or digit. */
  predicate Label(l: string) {
    && 1 <= |l| <= 63
    && AsciiAlnum(l[0]) && AsciiAlnum(l[|l| - 1])
    && forall i :: 0 <= i < |l| ==> AsciiAlnum(l[i]) || l[i] == '-'
  }

  /** The position of the first `c` in `s`, or `|s|` when there is none. */
  function IndexOf(s: string, c: char): (k: nat)
    ensures k <= |s|
    ensures k < |s| ==> s[k] == c
    ensures forall i :: 0 <= i < k ==> s[i] != c
  {
    if s == [] || s[0] == c then 0
    else
      var k := 1 + IndexOf(s[1..], c);
      assert forall i :: 1 <= i < k ==> s[i] == s[1..][i - 1];
      k
  }

  /** Dot-separated labels. A label holds no dot, so the first dot ends the first label. */
  predicate Domain(d: string)
    decreases |d|
  {
    var k := IndexOf(d, '.');
    Label(d[..k]) && (k == |d| || Domain(d[k + 1..]))
  }

  /** A valid e-mail address: one or more local characters, `@`, a domain. */
  predicate ValidEmail(e: string) {
    var k := IndexOf(e, '@');
    && 0 < k < |e|
    && (forall i :: 0 <= i < k ==> LocalChar(e[i]))
    && Domain(e[k + 1..])
  }

  /** The browser submits the login or signup form only when the email is a
      valid address and the password, and on signup the name and the answer,
      are filled in. */
  predicate Submittable(f: Form) {
    && ValidEmail(f.email) && f.password != ""
    && (f.view == SignupView ==> f.fullName != "" && f.securityAnswer != "")
  }

  /** A domain holds no `@`. */
  lemma {:induction false} DomainHasNoAt(d: string)
    requires Domain(d)
    ensures forall i :: 0 <= i < |d| ==> d[i] != '@'
    decreases |d|
  {
    var k := IndexOf(d, '.');
    var l := d[..k];
    assert forall i :: 0 <= i < k ==> d[i] == l[i];
    if k < |d| {
      var rest := d[k + 1..];
      DomainHasNoAt(rest);
      assert forall i :: k < i < |d| ==> d[i] == rest[i - k - 1];
    }
  }

  /** A valid address holds exactly one `@`. */
  lemma ValidEmailOneAt(e: string)
    requires ValidEmail(e)
    ensures forall i :: 0 <= i < |e| && e[i] == '@' ==> i == IndexOf(e, '@')
  {
    var k := IndexOf(e, '@');
    var d := e[k + 1..];
    DomainHasNoAt(d);
    assert forall i :: k < i < |e| ==> e[i] == d[i - k - 1];
  }

  /** A plain address passes; one without a domain, or without an `@`, does not. */
  lemma SampleAddresses()
    ensures ValidEmail("a@b.c")
    ensures !ValidEmail("a@") && !ValidEmail("a.b")
  {
    var d := "b.c";
    assert IndexOf(d, '.') == 1;
    assert d[..1] == "b" && d[2..] == "c";
    assert Domain("c");
    assert "a@b.c"[2..] == d;
    assert IndexOf("a@b.c", '@') == 1;
    assert IndexOf("a.b", '@') == 3;
  }

  /** `handleAuth`, reached only through a submitted form: a form the browser
      refuses sends nothing and shows nothing. Otherwise the form is not
      changed; on success the user is set, remembered as faculty and sent to
      the faculty dashboard; on failure only the alert shows. */
  function HandleAuth(f: Form, store: Storage, reply: Reply): (o: Outcome)
    ensures f.view == ForgotView || !Submittable(f) ==> o == Outcome(store, None, None, None, None)
    ensures o.request.Some? <==> f.view != ForgotView && Submittable(f)
    ensures o.request.Some? ==> o.request.value == AuthRequest(f)
    ensures f.view != ForgotView && Submittable(f) && reply.Accepted? ==>
      var name := if f.view == LoginView then reply.fullName else f.fullName;
      && o.setUser == Some(name) && o.storage == Remember(store, name) && o.navigateTo == Some("/faculty")
      && (o.alert.Some? <==> f.view == SignupView)
    ensures reply.Rejected? ==> o.storage == store && o.setUser.None? && o.navigateTo.None?
    ensures f.view != ForgotView && Submittable(f) && reply.Rejected? ==>
      o.alert == Some(DetailOr(reply.detail, "Authentication Failed"))
  {
    if f.view == ForgotView || !Submittable(f) then Outcome(store, None, None, None, None)
    else
      var req := Some(AuthRequest(f));
      match reply
      case Rejected(detail) => Outcome(store, None, Some(DetailOr(detail, "Authentication Failed")), None, req)
      case Accepted(fullName) =>
        if f.view == LoginView then Outcome(Remember(store, fullName), Some(fullName), None, Some("/faculty"), req)
        else Outcome(Remember(store, f.fullName), Some(f.fullName), Some("Faculty Account Created Successfully!"),
                     Some("/faculty"), req)
  }

  // ---------------------------------------------------------------------
  // Forgotten password

  /** `fetchQuestion`: `reply` is the question, or `None` when the lookup failed. */
  function FetchQuestion(f: Form, reply: Option<string>): (r: (Form, Option<string>))
    ensures f.email == "" ==> r == (f, Some("Please enter your email first."))
    ensures f.email != "" && reply.Some? ==> r == (f.(fetchedQuestion := reply.value), None)
    ensures f.email != "" && reply.None? ==> r == (f, Some("Email not found."))
  {
    if f.email == "" then (f, Some("Please enter your email first."))
    else match reply
      case Some(q) => (f.(fetchedQuestion := q), None)
      case None => (f, Some("Email not found."))
  }

  function ResetRequest(f: Form): (r: Request)
    ensures r.fields == [("email", f.email), ("security_answer", f.securityAnswer), ("new_password", f.password)]
  {
    Request("/auth/reset-password", [("email", f.email), ("security_answer", f.securityAnswer), ("new_password", f.password)])
  }

  /** `handleResetPassword`: success returns to the login view with the new
      password and the answer cleared, but the fetched question kept. */
  function ResetPassword(f: Form, reply: Reply): (r: (Form, string))
    ensures reply.Accepted? ==>
      r.0 == f.(view := LoginView, password := "", securityAnswer := "")
      && r.1 == "Password Reset Successfully! You can now login."
    ensures reply.Rejected? ==> r == (f, DetailOr(reply.detail, "Reset Failed"))
  {
    match reply
    case Accepted(_) => (f.(view := LoginView, password := "", securityAnswer := ""),
                         "Password Reset Successfully! You can now login.")
    case Rejected(detail) => (f, DetailOr(detail, "Reset Failed"))
  }

  /** A successful reset leaves the fetched question on the form, and the
      `Forgot Password?` link does not clear it: following that link right
      after a reset shows the answer step for the old question at once.
      Only `Back to Login` clears the question. */
  lemma ResetKeepsFetchedQuestion(f: Form, name: string)
    requires f.fetchedQuestion != ""
    ensures var back := ResetPassword(f, Accepted(name)).0;
      Follow(back, ToForgot).fetchedQuestion == f.fetchedQuestion
  {
  }
}

=== FILE: json.dfy ===
/** JSON text for a single string value, as the browser's `JSON.stringify`
    writes it (section 25.5.2 of ECMA-262, QuoteJSONString) and as
    `JSON.parse` reads it back (section 9 of RFC 8259). */
module Json {
  import opened Wrappers

  /** The lower-case hex digit `JSON.stringify` uses in `\u00XX`. */
  function HexLower(d: nat): (c: char)
    requires d < 16
    ensures HexValue(c) == Some(d)
  {
    if d < 10 then ('0' as int + d) as char else ('a' as int + d - 10) as char
  }

  /** A hex digit of either case. */
  function HexValue(c: char): (r: Option<nat>)
    ensures r.Some? ==> r.value < 16
  {
    if '0' <= c <= '9' then Some(c as int - '0' as int)
    else if 'a' <= c <= 'f' then Some(c as int - 'a' as int + 10)
    else if 'A' <= c <= 'F' then Some(c as int - 'A' as int + 10)
    else None
  }

  /** One character as it appears inside the quotes: the two-character
      escapes for quote, backslash and the five named controls, `\u00XX` for
      the other controls, the character itself otherwise. */
  function EscapeChar(c: char): (e: string)
    ensures |e| >= 1
    ensures |e| == 1 <==> c != '"' && c != '\\' && c as int >= 0x20
    ensures |e| == 1 ==> e == [c]
    ensures |e| > 1 ==> e[0] == '\\'
  {
    if c == '"' then "\\\""
    else if c == '\\' then "\\\\"
    else if c as int == 8 then "\\b"
    else if c as int == 9 then "\\t"
    else if c as int == 10 then "\\n"
    else if c as int == 12 then "\\f"
    else if c as int == 13 then "\\r"
    else if c as int < 0x20 then "\\u00" + [HexLower(c as int / 16), HexLower(c as int % 16)]
    else [c]
  }

  function EscapeAll(s: string): string {
    if s == [] then [] else EscapeChar(s[0]) + EscapeAll(s[1..])
  }

  /** `JSON.stringify` of a string. */
  function Stringify(s: string): (t: string)
    ensures |t| >= 2 && t[0] == '"' && t[|t| - 1] == '"'
    ensures t[1..|t| - 1] == EscapeAll(s)
  {
    "\"" + EscapeAll(s) + "\""
  }

  /** The value of four hex digits. */
  function Hex4(s: string): (r: Option<nat>)
    requires |s| == 4
    ensures r.Some? ==> r.value < 0x10000
  {
    match (HexValue(s[0]), HexValue(s[1]), HexValue(s[2]), HexValue(s[3]))
    case (Some(a), Some(b), Some(c), Some(d)) => Some(((a * 16 + b) * 16 + c) * 16 + d)
    case _ => None
  }

  /** The character a one-letter escape stands for. */
  function SimpleEscape(c: char): Option<char> {
    match c
    case '"' => Some('"')
    case '\\' => Some('\\')
    case '/' => Some('/')
    case 'b' => Some(8 as char)
    case 'f' => Some(12 as char)
    case 'n' => Some(10 as char)
    case 'r' => Some(13 as char)
    case 't' => Some(9 as char)
    case _ => None
  }

  /** The characters between the quotes of a JSON string, or `None` when
      they are not a valid string body. */
  function Unescape(body: string): (r: Option<string>)
    ensures r.Some? ==> |r.value| <= |body|
    decreases |body|
  {
    if body == [] then Some([])
    else if body[0] == '\\' then
      if |body| < 2 then None
      else if body[1] == 'u' then
        if |body| < 6 then None
        else match Hex4(body[2..6])
          case None => None
          case Some(v) =>
            if 0xD800 <= v < 0xE000 then None
            else match Unescape(body[6..])
              case None => None
              case Some(rest) => Some([v as char] + rest)
      else match SimpleEscape(body[1])
        case None => None
        case Some(c) =>
          match Unescape(body[2..])
          case None => None
          case Some(rest) => Some([c] + rest)
    else if body[0] == '"' || body[0] as int < 0x20 then None
    else match Unescape(body[1..])
      case None => None
      case Some(rest) => Some([body[0]] + rest)
  }

  /** `JSON.parse` of a text holding a string value. */
  function Parse(t: string): (r: Option<string>)
    ensures r.Some? ==> |t| >= 2 && t[0] == '"' && t[|t| - 1] == '"'
    ensures r.Some? ==> |r.value| <= |t| - 2
  {
    if |t| >= 2 && t[0] == '"' && t[|t| - 1] == '"' then Unescape(t[1..|t| - 1]) else None
  }

  /** Unescaping reads one escaped character back and carries on with the rest. */
  lemma UnescapeOne(c: char, rest: string)
    ensures Unescape(EscapeChar(c) + rest) ==
      match Unescape(rest) case None => None case Some(s) => Some([c] + s)
  {
    var e := EscapeChar(c);
    if |e| == 1 {
      assert (e + rest)[0] == c && (e + rest)[1..] == rest;
    } else if c as int < 0x20 && c as int !in {8, 9, 10, 12, 13} {
      var hex := [HexLower(c as int / 16), HexLower(c as int % 16)];
      assert e + rest == "\\u00" + hex + rest;
      assert (e + rest)[2..6] == "00" + hex;
      assert Hex4((e + rest)[2..6]) == Some(c as int);
      assert (e + rest)[6..] == rest;
    } else {
      assert (e + rest)[0] == '\\' && (e + rest)[1] == e[1];
      assert (e + rest)[2..] == rest;
    }
  }

  lemma {:induction false} UnescapeEscapeAll(s: string)
    ensures Unescape(EscapeAll(s)) == Some(s)
  {
    if s != [] {
      UnescapeEscapeAll(s[1..]);
      UnescapeOne(s[0], EscapeAll(s[1..]));
      assert [s[0]] + s[1..] == s;
    }
  }

  /** Parsing what was stringified gives the string back. */
  lemma ParseStringify(s: string)
    ensures Parse(Stringify(s)) == Some(s)
  {
    UnescapeEscapeAll(s);
  }

  /** Different strings are stored as different texts. */
  lemma StringifyInjective(s: string, s': string)
    requires Stringify(s) == Stringify(s')
    ensures s == s'
  {
    ParseStringify(s);
    ParseStringify(s');
  }
}

=== FILE: local_storage.dfy ===
/** The browser's `localStorage` as the frontend uses it: a map from key to
    text, with the three keys the pages read and write. */
module LocalStorage {
  import opened Wrappers

  type Storage = map<string, string>

  /** The signed-in user's display name, as JSON text. */
  const UserKey: string := "edu_user"
  /** The signed-in role, `faculty` or `student`. */
  const RoleKey: string := "edu_role"
  /** The colour scheme, `true` or `false`. */
  const DarkModeKey: string := "isDarkMode"

  /** `getItem`: `None` stands for `null`. */
  function GetItem(store: Storage, key: string): (r: Option<string>)
    ensures r.Some? <==> key in store
    ensures r.Some? ==> r.value == store[key]
  {
    if key in store then Some(store[key]) else None
  }

  /** `String(b)`, the text `setItem` stores for a boolean. */
  function BoolText(b: bool): (t: string)
    ensures t == "true" <==> b
  {
    if b then "true" else "false"
  }
}

=== FILE: marks.dfy ===
/** Exam-cell marks: the fuzzy column finder, the percentage formula and the
    CAT1 / CAT2 spreadsheet upserts of Backend/main.py. The marks table is a
    map from register number to record; a spreadsheet is its column names
    and one cell map per row. */
module Marks {
  import opened Wrappers
  import opened Strings
  import Seqs

  /** One row of the `student_marks` table (Backend/models.py). */
  datatype StudentMark = StudentMark(
    registerNo: string,
    name: Option<string>,
    co1: real, co2: real, co3Cat1: real,
    co3Cat2: real, co4: real, co5: real,
    totalPercentage: real)

  /** A freshly created record. Its marks read as 0 in `calculate_percentage`
      (`or 0`) and are stored as the column default 0; its name is NULL. */
  function NewStudent(reg: string): (s: StudentMark)
    ensures s.registerNo == reg && s.name == None
    ensures RawTotal(s) == 0.0
  {
    StudentMark(reg, None, 0.0, 0.0, 0.0, 0.0, 0.0, 0.0, 0.0)
  }

  /** Marks out of 75 summed over the six course-outcome columns. */
  function RawTotal(s: StudentMark): real {
    s.co1 + s.co2 + (s.co3Cat1 + s.co3Cat2) + s.co4 + s.co5
  }

  /** `calculate_percentage`, without the final rounding to two decimals. */
  function CalculatePercentage(s: StudentMark): (p: real)
    ensures p < 50.0 <==> RawTotal(s) < 37.5
    ensures RawTotal(s) == 75.0 ==> p == 100.0
    ensures RawTotal(s) >= 0.0 ==> p >= 0.0
  {
    RawTotal(s) / 75.0 * 100.0
  }

  /** The CO maxima named in the schema comments (30, 30, 15, 15, 30, 30).
      Each half of CO3 is out of 15, the other outcomes out of 30. */
  predicate WithinDocumentedMaxima(s: StudentMark) {
    && 0.0 <= s.co1 <= 30.0 && 0.0 <= s.co2 <= 30.0
    && 0.0 <= s.co3Cat1 <= 15.0 && 0.0 <= s.co3Cat2 <= 15.0
    && 0.0 <= s.co4 <= 30.0 && 0.0 <= s.co5 <= 30.0
  }

  /** Within those maxima the percentage lies in [0, 200]: the divisor 75 is
      half of the documented total of 150. */
  lemma PercentageBounds(s: StudentMark)
    requires WithinDocumentedMaxima(s)
    ensures 0.0 <= CalculatePercentage(s) <= 200.0
  {
  }

  /** Full marks in every outcome give 200 percent. */
  lemma FullMarksGiveTwoHundred(s: StudentMark)
    requires s.co1 == s.co2 == s.co4 == s.co5 == 30.0
    requires s.co3Cat1 == s.co3Cat2 == 15.0
    ensures CalculatePercentage(s) == 200.0
  {
  }

  // ---------------------------------------------------------------------
  // Fuzzy column lookup

  /** The column name as `find_column` compares it: upper-cased, with every
      `.` and `_` removed. */
  function CleanColumn(col: string): (r: string)
    ensures |r| <= |col|
  {
    RemoveChar(RemoveChar(Upper(col), '.'), '_')
  }

  predicate ColumnMatches(col: string, keywords: seq<string>) {
    exists j | 0 <= j < |keywords| :: Contains(CleanColumn(col), keywords[j])
  }

  predicate FirstMatchingColumn(columns: seq<string>, keywords: seq<string>, i: int) {
    && 0 <= i < |columns|
    && ColumnMatches(columns[i], keywords)
    && forall j :: 0 <= j < i ==> !ColumnMatches(columns[j], keywords)
  }

  /** `find_column`: the first column, in column order, whose cleaned name
      contains one of the keywords. */
  function FindColumn(columns: seq<string>, keywords: seq<string>): (r: Option<string>)
    ensures r.None? <==> forall i :: 0 <= i < |columns| ==> !ColumnMatches(columns[i], keywords)
    ensures r.Some? ==> exists i :: FirstMatchingColumn(columns, keywords, i) && columns[i] == r.value
    ensures r.Some? && (forall j :: 0 <= j < |keywords| ==> keywords[j] != "") ==> r.value != ""
  {
    match Seqs.First(columns, (c: string) => ColumnMatches(c, keywords))
    case None => None
    case Some(i) => Some(columns[i])
  }

  /** The CAT2 register keywords list "REGISTER NUMBER" after "REG"; since
      the first is a prefix of the second, the second never changes the result. */
  lemma RegisterNumberKeywordRedundant(columns: seq<string>)
    ensures FindColumn(columns, ["REG", "REGISTER NUMBER"]) == FindColumn(columns, ["REG"])
  {
    forall c | c in columns
      ensures ColumnMatches(c, ["REG", "REGISTER NUMBER"]) == ColumnMatches(c, ["REG"])
    {
      if ColumnMatches(c, ["REG", "REGISTER NUMBER"]) {
        var j :| 0 <= j < 2 && Contains(CleanColumn(c), ["REG", "REGISTER NUMBER"][j]);
        if j == 1 {
          ContainsPrefix(CleanColumn(c), "REGISTER NUMBER", "REG");
        }
        assert Contains(CleanColumn(c), ["REG"][0]);
      }
      if ColumnMatches(c, ["REG"]) {
        assert Contains(CleanColumn(c), ["REG", "REGISTER NUMBER"][0]);
      }
    }
    Seqs.FirstAgrees(columns,
      (c: string) => ColumnMatches(c, ["REG", "REGISTER NUMBER"]),
      (c: string) => ColumnMatches(c, ["REG"]));
  }

  // ---------------------------------------------------------------------
  // Spreadsheets

  /** A cell as the upload reads it: its `str()` rendering, and its `float()`
      conversion (`None` when `float()` raises). */
  datatype Cell = Cell(text: string, number: Option<real>)

  type Row = map<string, Cell>

  datatype Sheet = Sheet(columns: seq<string>, rows: seq<Row>)

  /** An empty spreadsheet cell: pandas reads it as NaN, whose `str()` is "nan". */
  const EmptyCell := Cell("nan", None)

  /** The cell of `row` in column `c`; a cell absent from the row is empty. */
  function CellAt(row: Row, c: string): Cell {
    if c in row then row[c] else EmptyCell
  }

  /** `get_val`: the float value of the first column matching the keywords,
      0.0 when no column matches or the cell does not convert. */
  function GetVal(columns: seq<string>, row: Row, keywords: seq<string>): (v: real)
    ensures FindColumn(columns, keywords).None? ==> v == 0.0
    ensures FindColumn(columns, keywords).Some? && CellAt(row, FindColumn(columns, keywords).value).number.Some? ==>
      v == CellAt(row, FindColumn(columns, keywords).value).number.value
    ensures FindColumn(columns, keywords).Some? && CellAt(row, FindColumn(columns, keywords).value).number.None? ==>
      v == 0.0
  {
    match FindColumn(columns, keywords)
    case None => 0.0
    case Some(c) => CellAt(row, c).number.GetOr(0.0)
  }

  datatype Exam = Cat1 | Cat2

  /** The keywords each upload uses to find the register-number column. */
  function RegisterKeywords(exam: Exam): seq<string> {
    match exam
    case Cat1 => ["REG", "ROLL"]
    case Cat2 => ["REG", "REGISTER NUMBER"]
  }

  /** The columns an upload found: the register column, and for CAT1 the name column. */
  datatype Layout = Layout(exam: Exam, columns: seq<string>, reg: string, name: Option<string>)

  predicate ValidLayout(l: Layout) {
    l.reg in l.columns && (l.name.Some? ==> l.name.value in l.columns)
  }

  /** The layout an upload derives from the column names, or `None` when no
      register-number column exists. */
  function LayoutFor(exam: Exam, columns: seq<string>): (r: Option<Layout>)
    ensures r.None? <==> FindColumn(columns, RegisterKeywords(exam)).None?
    ensures r.Some? ==> ValidLayout(r.value) && r.value.exam == exam && r.value.columns == columns
    ensures r.Some? ==> r.value.reg == FindColumn(columns, RegisterKeywords(exam)).value
    ensures r.Some? && exam == Cat1 ==> r.value.name == FindColumn(columns, ["NAME", "STUDENT"])
    ensures r.Some? && exam == Cat2 ==> r.value.name.None?
  {
    match FindColumn(columns, RegisterKeywords(exam))
    case None => None
    case Some(reg) =>
      var name := if exam == Cat1 then FindColumn(columns, ["NAME", "STUDENT"]) else None;
      Some(Layout(exam, columns, reg, name))
  }

  /** A row's register number: the stripped text of its register cell. */
  function RegisterOf(l: Layout, row: Row): string {
    Strip(CellAt(row, l.reg).text)
  }

  /** Rows whose register number is empty or reads `nan` are skipped. */
  predicate Skipped(reg: string) {
    reg == "" || Lower(reg) == "nan"
  }

  /** What the loop body reads from one row: the register number, whether
      the row is kept, the name (CAT1 with a name column only) and the three
      marks the upload writes (CO1, CO2, CO3 for CAT1; CO3, CO4, CO5 for CAT2). */
  datatype Reading = Reading(reg: string, kept: bool, name: Option<string>, m1: real, m2: real, m3: real)

  function Read(l: Layout, row: Row): (r: Reading)
    ensures r.reg == RegisterOf(l, row) && (r.kept <==> !Skipped(r.reg))
    ensures r.name.Some? <==> l.name.Some?
    ensures l.name.Some? ==> r.name == Some(CellAt(row, l.name.value).text)
    ensures l.exam == Cat1 ==>
      r.m1 == GetVal(l.columns, row, ["CO1"]) && r.m2 == GetVal(l.columns, row, ["CO2"]) && r.m3 == GetVal(l.columns, row, ["CO3"])
    ensures l.exam == Cat2 ==>
      r.m1 == GetVal(l.columns, row, ["CO3"]) && r.m2 == GetVal(l.columns, row, ["CO4"]) && r.m3 == GetVal(l.columns, row, ["CO5"])
  {
    var reg := RegisterOf(l, row);
    var name := if l.name.Some? then Some(CellAt(row, l.name.value).text) else None;
    match l.exam
    case Cat1 =>
      Reading(reg, !Skipped(reg), name,
        GetVal(l.columns, row, ["CO1"]), GetVal(l.columns, row, ["CO2"]), GetVal(l.columns, row, ["CO3"]))
    case Cat2 =>
      Reading(reg, !Skipped(reg), name,
        GetVal(l.columns, row, ["CO3"]), GetVal(l.columns, row, ["CO4"]), GetVal(l.columns, row, ["CO5"]))
  }

  function ReadAll(l: Layout, rows: seq<Row>): (rs: seq<Reading>)
    ensures |rs| == |rows|
    ensures forall i :: 0 <= i < |rows| ==> rs[i] == Read(l, rows[i])
  {
    seq(|rows|, i requires 0 <= i < |rows| => Read(l, rows[i]))
  }

  /** The fields an upload does NOT write are equal in `a` and `b`. CAT1
      writes the name only when the sheet has a name column. */
  predicate Frame(exam: Exam, a: StudentMark, b: StudentMark, namesWritten: bool) {
    && a.registerNo == b.registerNo
    && (!namesWritten ==> a.name == b.name)
    && match exam
       case Cat1 => a.co3Cat2 == b.co3Cat2 && a.co4 == b.co4 && a.co5 == b.co5
       case Cat2 => a.co1 == b.co1 && a.co2 == b.co2 && a.co3Cat1 == b.co3Cat1
  }

  /** The fields an upload DOES write hold the values read from the row, and
      the percentage is recomputed from the result. */
  predicate Owns(exam: Exam, s: StudentMark, r: Reading) {
    && (r.name.Some? ==> s.name == r.name)
    && s.totalPercentage == CalculatePercentage(s)
    && match exam
       case Cat1 => s.co1 == r.m1 && s.co2 == r.m2 && s.co3Cat1 == r.m3
       case Cat2 => s.co3Cat2 == r.m1 && s.co4 == r.m2 && s.co5 == r.m3
  }

  /** One row's update of one record, as the body of either upload loop does it. */
  function Apply(exam: Exam, base: StudentMark, r: Reading): (s: StudentMark)
    ensures Frame(exam, base, s, r.name.Some?)
    ensures Owns(exam, s, r)
  {
    var named := if r.name.Some? then base.(name := r.name) else base;
    var s := match exam
      case Cat1 => named.(co1 := r.m1, co2 := r.m2, co3Cat1 := r.m3)
      case Cat2 => named.(co3Cat2 := r.m1, co4 := r.m2, co5 := r.m3);
    s.(totalPercentage := CalculatePercentage(s))
  }

  // ---------------------------------------------------------------------
  // Reference descriptions of a sheet's readings

  /** The number of rows that are not skipped. */
  function KeptCount(rs: seq<Reading>): nat {
    if rs == [] then 0 else (if rs[0].kept then 1 else 0) + KeptCount(rs[1..])
  }

  /** The register numbers named by rows that are not skipped. */
  function KeptRegisters(rs: seq<Reading>): set<string> {
    set i | 0 <= i < |rs| && rs[i].kept :: rs[i].reg
  }

  /** Two kept rows name the same register number, and the table does not
      yet hold it: the upload creates two records for one unique key. */
  predicate RepeatsNew(db: map<string, StudentMark>, rs: seq<Reading>) {
    exists i, j | 0 <= i < j < |rs| :: rs[i].kept && rs[j].kept && rs[i].reg == rs[j].reg && rs[i].reg !in db
  }

  /** Whether the sheet writes names at all (CAT1 with a name column). */
  predicate NamesWritten(rs: seq<Reading>) {
    exists i | 0 <= i < |rs| :: rs[i].name.Some?
  }

  lemma {:induction false} KeptCountSnoc(rs: seq<Reading>, r: Reading)
    ensures KeptCount(rs + [r]) == KeptCount(rs) + (if r.kept then 1 else 0)
  {
    if rs == [] {
      assert rs + [r] == [r];
    } else {
      assert (rs + [r])[1..] == rs[1..] + [r];
      KeptCountSnoc(rs[1..], r);
    }
  }

  lemma KeptRegistersSnoc(rs: seq<Reading>, r: Reading)
    ensures KeptRegisters(rs + [r]) == KeptRegisters(rs) + (if r.kept then {r.reg} else {})
  {
    var all := rs + [r];
    forall k | k in KeptRegisters(all)
      ensures k in KeptRegisters(rs) || (r.kept && k == r.reg)
    {
      var i :| 0 <= i < |all| && all[i].kept && all[i].reg == k;
      if i < |rs| {
        assert all[i] == rs[i];
      }
    }
    forall k | k in KeptRegisters(rs)
      ensures k in KeptRegisters(all)
    {
      var i :| 0 <= i < |rs| && rs[i].kept && rs[i].reg == k;
      assert all[i] == rs[i];
    }
    if r.kept {
      assert all[|rs|] == r;
    }
  }

  /** The index of the last kept row naming `k`: the row whose values the record keeps. */
  function LastFor(rs: seq<Reading>, k: string): (i: nat)
    requires k in KeptRegisters(rs)
    ensures i < |rs| && rs[i].kept && rs[i].reg == k
    ensures forall j :: i < j < |rs| && rs[j].kept ==> rs[j].reg != k
    decreases |rs|
  {
    var p := rs[..|rs| - 1];
    var last := rs[|rs| - 1];
    assert rs == p + [last];
    KeptRegistersSnoc(p, last);
    if last.kept && last.reg == k then |rs| - 1
    else LastFor(p, k)
  }

  // ---------------------------------------------------------------------
  // The upload loop

  /** The state of the loop: the session's view of the table, the count, and
      whether two pending records share a register number. */
  datatype Pass = Pass(store: map<string, StudentMark>, count: nat, clash: bool)

  /** The record a register number starts from: the stored one, or a new one. */
  function Base(db: map<string, StudentMark>, k: string): StudentMark {
    if k in db then db[k] else NewStudent(k)
  }

  /** One iteration. With autoflush off, the lookup query sees only committed
      records, so a register number created earlier in the same upload is
      created a second time: that is recorded as a clash. */
  function Step(exam: Exam, db: map<string, StudentMark>, acc: Pass, r: Reading): (s: Pass)
    ensures !r.kept ==> s == acc
    ensures r.kept ==> s.store.Keys == acc.store.Keys + {r.reg} && s.count == acc.count + 1
    ensures r.kept ==> Owns(exam, s.store[r.reg], r)
    ensures r.kept ==> Frame(exam, if r.reg in acc.store then acc.store[r.reg] else NewStudent(r.reg), s.store[r.reg], r.name.Some?)
    ensures forall k :: k in acc.store && !(r.kept && k == r.reg) ==> s.store[k] == acc.store[k]
    ensures acc.clash ==> s.clash
  {
    if !r.kept then acc
    else
      var base := if r.reg in acc.store then acc.store[r.reg] else NewStudent(r.reg);
      Pass(acc.store[r.reg := Apply(exam, base, r)], acc.count + 1,
           acc.clash || (r.reg in acc.store && r.reg !in db))
  }

  /** The loop over the readings, in sheet order, from the committed table `db`. */
  function Process(exam: Exam, db: map<string, StudentMark>, rs: seq<Reading>): (r: Pass)
    ensures r.count == KeptCount(rs)
    ensures r.store.Keys == db.Keys + KeptRegisters(rs)
    ensures forall k :: k in db && k !in KeptRegisters(rs) ==> r.store[k] == db[k]
    ensures forall k :: k in r.store ==> Frame(exam, Base(db, k), r.store[k], NamesWritten(rs))
    ensures forall k :: k in KeptRegisters(rs) ==> Owns(exam, r.store[k], rs[LastFor(rs, k)])
    ensures r.clash <==> RepeatsNew(db, rs)
    decreases |rs|
  {
    if rs == [] then Pass(db, 0, false)
    else
      var p := rs[..|rs| - 1];
      var last := rs[|rs| - 1];
      assert rs == p + [last];
      var acc := Process(exam, db, p);
      KeptCountSnoc(p, last);
      StepKeys(exam, db, p, last, acc);
      StepFrame(exam, db, p, last, acc);
      StepOwns(exam, db, p, last, acc);
      StepClash(exam, db, p, last, acc);
      Step(exam, db, acc, last)
  }

  lemma StepKeys(exam: Exam, db: map<string, StudentMark>, p: seq<Reading>, r: Reading, acc: Pass)
    requires acc.store.Keys == db.Keys + KeptRegisters(p)
    requires forall k :: k in db && k !in KeptRegisters(p) ==> acc.store[k] == db[k]
    ensures Step(exam, db, acc, r).store.Keys == db.Keys + KeptRegisters(p + [r])
    ensures forall k :: k in db && k !in KeptRegisters(p + [r]) ==> Step(exam, db, acc, r).store[k] == db[k]
  {
    KeptRegistersSnoc(p, r);
  }

  lemma NamesWrittenSnoc(p: seq<Reading>, r: Reading)
    ensures NamesWritten(p + [r]) <==> NamesWritten(p) || r.name.Some?
  {
    var all := p + [r];
    if NamesWritten(p) {
      var i :| 0 <= i < |p| && p[i].name.Some?;
      assert all[i] == p[i];
    }
    if r.name.Some? {
      assert all[|p|] == r;
    }
  }

  lemma StepFrame(exam: Exam, db: map<string, StudentMark>, p: seq<Reading>, r: Reading, acc: Pass)
    requires forall k :: k in acc.store ==> Frame(exam, Base(db, k), acc.store[k], NamesWritten(p))
    requires acc.store.Keys == db.Keys + KeptRegisters(p)
    ensures var s := Step(exam, db, acc, r).store;
      forall k :: k in s ==> Frame(exam, Base(db, k), s[k], NamesWritten(p + [r]))
  {
    NamesWrittenSnoc(p, r);
  }

  lemma StepOwns(exam: Exam, db: map<string, StudentMark>, p: seq<Reading>, r: Reading, acc: Pass)
    requires acc.store.Keys == db.Keys + KeptRegisters(p)
    requires forall k :: k in KeptRegisters(p) ==> Owns(exam, acc.store[k], p[LastFor(p, k)])
    ensures var rs := p + [r]; var s := Step(exam, db, acc, r).store;
      forall k :: k in KeptRegisters(rs) ==> k in s && Owns(exam, s[k], rs[LastFor(rs, k)])
  {
    var rs := p + [r];
    KeptRegistersSnoc(p, r);
    var s := Step(exam, db, acc, r).store;
    forall k | k in KeptRegisters(rs)
      ensures k in s && Owns(exam, s[k], rs[LastFor(rs, k)])
    {
      var i := LastFor(rs, k);
      if !(r.kept && r.reg == k) {
        assert i < |p|;
        assert rs[i] == p[i];
        var i' := LastFor(p, k);
        assert rs[i'] == p[i'];
        assert i == i';
      }
    }
  }

  lemma StepClash(exam: Exam, db: map<string, StudentMark>, p: seq<Reading>, r: Reading, acc: Pass)
    requires acc.store.Keys == db.Keys + KeptRegisters(p)
    requires acc.clash <==> RepeatsNew(db, p)
    ensures Step(exam, db, acc, r).clash <==> RepeatsNew(db, p + [r])
  {
    var rs := p + [r];
    if RepeatsNew(db, rs) && !RepeatsNew(db, p) {
      var i, j :| 0 <= i < j < |rs| && rs[i].kept && rs[j].kept && rs[i].reg == rs[j].reg && rs[i].reg !in db;
      assert rs[i] == p[i];
      assert r.reg in KeptRegisters(p);
    }
    if RepeatsNew(db, p) {
      var i, j :| 0 <= i < j < |p| && p[i].kept && p[j].kept && p[i].reg == p[j].reg && p[i].reg !in db;
      assert rs[i] == p[i] && rs[j] == p[j];
    }
    if r.kept && r.reg in acc.store && r.reg !in db {
      assert r.reg in KeptRegisters(p);
      var i :| 0 <= i < |p| && p[i].kept && p[i].reg == r.reg;
      assert rs[i] == p[i] && rs[|p|] == r;
    }
  }

  // ---------------------------------------------------------------------
  // The endpoints

  datatype UploadError =
    | RegisterColumnNotFound(found: seq<string>)  // CAT1: "Could not find 'Register Number' column. Found: ..."
    | RegisterColumnMissing                       // CAT2: "Register Number column missing."
    | CommitFailed                                // the unique register_no constraint rejects the commit

  datatype Synced = Synced(store: map<string, StudentMark>, count: nat)

  /** Every record is filed under its own register number and carries the
      percentage its marks give. */
  predicate Consistent(db: map<string, StudentMark>) {
    forall k :: k in db ==> db[k].registerNo == k && db[k].totalPercentage == CalculatePercentage(db[k])
  }

  /** The readings an upload takes from the sheet, when it has a register column. */
  function SheetReadings(exam: Exam, sheet: Sheet): seq<Reading>
    requires LayoutFor(exam, sheet.columns).Some?
  {
    ReadAll(LayoutFor(exam, sheet.columns).value, sheet.rows)
  }

  /** `upload_cat1` / `upload_cat2` after the spreadsheet is read: the new
      table and the synced count, or the error the endpoint returns (on an
      error nothing is committed). */
  function UploadMarks(exam: Exam, db: map<string, StudentMark>, sheet: Sheet): (r: Result<Synced, UploadError>)
    ensures FindColumn(sheet.columns, RegisterKeywords(exam)).None? <==>
      r == Err(if exam == Cat1 then RegisterColumnNotFound(sheet.columns) else RegisterColumnMissing)
    ensures r.Ok? ==> LayoutFor(exam, sheet.columns).Some?
    ensures r.Ok? ==> var rs := SheetReadings(exam, sheet);
      && r.value.count == KeptCount(rs)
      && r.value.store.Keys == db.Keys + KeptRegisters(rs)
      && (forall k :: k in db && k !in KeptRegisters(rs) ==> r.value.store[k] == db[k])
      && (forall k :: k in r.value.store ==> Frame(exam, Base(db, k), r.value.store[k], NamesWritten(rs)))
      && (forall k :: k in KeptRegisters(rs) ==> Owns(exam, r.value.store[k], rs[LastFor(rs, k)]))
      && (Consistent(db) ==> Consistent(r.value.store))
    ensures r == Err(CommitFailed) <==>
      LayoutFor(exam, sheet.columns).Some? && RepeatsNew(db, SheetReadings(exam, sheet))
    ensures LayoutFor(exam, sheet.columns).Some? && !RepeatsNew(db, SheetReadings(exam, sheet)) ==> r.Ok?
  {
    var layout := LayoutFor(exam, sheet.columns);
    if layout.None? then Err(if exam == Cat1 then RegisterColumnNotFound(sheet.columns) else RegisterColumnMissing)
    else
      var rs := ReadAll(layout.value, sheet.rows);
      assert rs == SheetReadings(exam, sheet);
      var pass := Process(exam, db, rs);
      ProcessConsistent(exam, db, rs);
      if pass.clash then Err(CommitFailed) else Ok(Synced(pass.store, pass.count))
  }

  /** The loop keeps every record filed under its register number and
      carrying the percentage of its marks. */
  lemma ProcessConsistent(exam: Exam, db: map<string, StudentMark>, rs: seq<Reading>)
    ensures Consistent(db) ==> Consistent(Process(exam, db, rs).store)
  {
    var store := Process(exam, db, rs).store;
    if Consistent(db) {
      forall k | k in store
        ensures store[k].registerNo == k && store[k].totalPercentage == CalculatePercentage(store[k])
      {
        assert Frame(exam, Base(db, k), store[k], NamesWritten(rs));
        if k in KeptRegisters(rs) {
          assert Owns(exam, store[k], rs[LastFor(rs, k)]);
        } else {
          assert store[k] == db[k];
        }
      }
    }
  }

  /** CAT1 followed by CAT2: a student named in both sheets ends with the
      CAT1 marks from the first sheet and the CAT2 marks from the second. */
  lemma CatUploadsCompose(db: map<string, StudentMark>, sheet1: Sheet, sheet2: Sheet, k: string)
    requires UploadMarks(Cat1, db, sheet1).Ok?
    requires UploadMarks(Cat2, UploadMarks(Cat1, db, sheet1).value.store, sheet2).Ok?
    requires k in KeptRegisters(SheetReadings(Cat1, sheet1))
    requires k in KeptRegisters(SheetReadings(Cat2, sheet2))
    ensures var rs1 := SheetReadings(Cat1, sheet1);
      var rs2 := SheetReadings(Cat2, sheet2);
      var s := UploadMarks(Cat2, UploadMarks(Cat1, db, sheet1).value.store, sheet2).value.store[k];
      && Owns(Cat1, s.(totalPercentage := CalculatePercentage(s)), rs1[LastFor(rs1, k)])
      && Owns(Cat2, s, rs2[LastFor(rs2, k)])
  {
    var rs1 := SheetReadings(Cat1, sheet1);
    var rs2 := SheetReadings(Cat2, sheet2);
    var up1 := UploadMarks(Cat1, db, sheet1);
    var mid := up1.value.store;
    var up2 := UploadMarks(Cat2, mid, sheet2);
    var fin := up2.value.store;
    assert k in mid && Owns(Cat1, mid[k], rs1[LastFor(rs1, k)]);
    assert k in fin && Frame(Cat2, Base(mid, k), fin[k], NamesWritten(rs2));
    NoNamesInCat2(sheet2);
  }

  /** A CAT2 sheet never writes names. */
  lemma NoNamesInCat2(sheet: Sheet)
    requires LayoutFor(Cat2, sheet.columns).Some?
    ensures !NamesWritten(SheetReadings(Cat2, sheet))
  {
  }
}

=== FILE: navbar.dfy ===
/** The top bar of frontend/src/Navbar.js: where `Dashboard` leads, what the
    profile block shows, logging out, and when the links are hidden. */
module Navbar {
  import opened Wrappers
  import opened Strings
  import opened LocalStorage

  /** The landing page is the root path. */
  predicate IsLanding(path: string) {
    path == "/"
  }

  /** The page links and the profile block are hidden on the landing page only. */
  function LinksShown(path: string): (shown: bool)
    ensures shown <==> path != "/"
  {
    !IsLanding(path)
  }

  /** The `Dashboard` link follows the stored role. */
  function DashboardLink(store: Storage): (link: string)
    ensures link == "/faculty" <==> GetItem(store, RoleKey) == Some("faculty")
    ensures link != "/faculty" ==> link == "/student"
  {
    if GetItem(store, RoleKey) == Some("faculty") then "/faculty" else "/student"
  }

  /** `handleLogout`: forget the name and role, clear the user, go home. */
  function Logout(store: Storage): (r: (Storage, Option<string>, string))
    ensures r.0.Keys == store.Keys - {UserKey, RoleKey}
    ensures forall k :: k in r.0 ==> r.0[k] == store[k]
    ensures r.1.None? && r.2 == "/"
  {
    (store - {UserKey, RoleKey}, None, "/")
  }

  /** A user is shown when it is present and not the empty text. */
  predicate HasUser(user: Option<string>) {
    user.Some? && user.value != ""
  }

  /** The avatar: the user's first letter in upper case, or `?`. */
  function Avatar(user: Option<string>): (a: string)
    ensures |a| == 1
    ensures !HasUser(user) ==> a == "?"
    ensures HasUser(user) ==> a == [UpperChar(user.value[0])]
  {
    if HasUser(user) then [UpperChar(user.value[0])] else "?"
  }

  /** The name label: the user, or `Guest User`. */
  function NameLabel(user: Option<string>): (shown: string)
    ensures HasUser(user) ==> shown == user.value
    ensures !HasUser(user) ==> shown == "Guest User"
  {
    if HasUser(user) then user.value else "Guest User"
  }

  /** After logging out the link falls back to the student dashboard and
      the profile block shows a guest. */
  lemma LoggedOutIsGuest(store: Storage)
    ensures var (store', user, _) := Logout(store);
      DashboardLink(store') == "/student" && Avatar(user) == "?" && NameLabel(user) == "Guest User"
  {
  }
}

=== FILE: numbers.dfy ===
/** Number formatting shared by the backend and the UI: Python's `round`
    (ties to even) and the decimal rendering of a whole number. */
module Numbers {

  /** Python's `round(x)`: the nearest integer, ties going to the even one. */
  function RoundHalfEven(x: real): (n: int)
    ensures -0.5 <= n as real - x <= 0.5
    ensures n as real - x == 0.5 || x - n as real == 0.5 ==> n % 2 == 0
  {
    var f := x.Floor;
    var frac := x - f as real;
    if frac < 0.5 then f
    else if frac > 0.5 then f + 1
    else if f % 2 == 0 then f else f + 1
  }

  /** Rounding a value that is not a tie is the unique integer within one half of it. */
  lemma RoundIsNearest(x: real, n: int)
    requires -0.5 < n as real - x < 0.5
    ensures RoundHalfEven(x) == n
  {
  }

  /** Python's `round(x, 1)`: ties at the second decimal go to the even tenth. */
  function RoundTenths(x: real): (r: real)
    ensures -0.05 <= r - x <= 0.05
  {
    RoundHalfEven(x * 10.0) as real / 10.0
  }

  predicate IsDigit(c: char) {
    '0' <= c <= '9'
  }

  function DigitChar(d: nat): (c: char)
    requires d < 10
    ensures IsDigit(c) && c as int - '0' as int == d
  {
    ['0', '1', '2', '3', '4', '5', '6', '7', '8', '9'][d]
  }

  function DigitValue(c: char): (d: nat)
    requires IsDigit(c)
    ensures d < 10 && DigitChar(d) == c
  {
    (c as int - '0' as int) as nat
  }

  /** A canonical decimal numeral: digits only, and no leading zero unless it is `0`. */
  predicate Canonical(s: string) {
    && |s| > 0
    && (forall i :: 0 <= i < |s| ==> IsDigit(s[i]))
    && (s[0] == '0' ==> |s| == 1)
  }

  /** `str(n)` / `String(n)` for a whole number. */
  function NatToString(n: nat): (s: string)
    ensures Canonical(s)
    ensures n < 10 <==> |s| == 1
    decreases n
  {
    if n < 10 then [DigitChar(n)]
    else NatToString(n / 10) + [DigitChar(n % 10)]
  }

  /** The value of a string of decimal digits. */
  function DigitsValue(s: string): nat
    requires forall i :: 0 <= i < |s| ==> IsDigit(s[i])
    decreases |s|
  {
    if s == [] then 0
    else DigitsValue(s[..|s| - 1]) * 10 + DigitValue(s[|s| - 1])
  }

  /** Reading back a rendered number gives the number. */
  lemma {:induction false} NatToStringRoundTrip(n: nat)
    ensures DigitsValue(NatToString(n)) == n
    decreases n
  {
    var s := NatToString(n);
    if n >= 10 {
      NatToStringRoundTrip(n / 10);
      assert s[..|s| - 1] == NatToString(n / 10);
    }
  }

  /** Rendering the value of a canonical numeral gives the numeral back. */
  lemma {:induction false} CanonicalRoundTrip(s: string)
    requires Canonical(s)
    ensures NatToString(DigitsValue(s)) == s
    decreases |s|
  {
    if |s| > 1 {
      var p := s[..|s| - 1];
      assert p[0] == s[0];
      CanonicalRoundTrip(p);
      PositiveValue(p);
      var v := DigitsValue(s);
      assert v / 10 == DigitsValue(p) && v % 10 == DigitValue(s[|s| - 1]);
      assert s == p + [s[|s| - 1]];
    }
  }

  /** A canonical numeral longer than one digit starts with a non-zero digit, so its value is at least 1. */
  lemma {:induction false} PositiveValue(s: string)
    requires Canonical(s) && s[0] != '0'
    ensures DigitsValue(s) >= 1
    decreases |s|
  {
    if |s| > 1 {
      var p := s[..|s| - 1];
      assert p[0] == s[0];
      PositiveValue(p);
    }
  }
}

=== FILE: seqs.dfy ===
/** Sequence searches and filters that several handlers share. */
module Seqs {
  import opened Wrappers

  /** The index of the first element satisfying `p`, scanning from `from`. */
  function FirstFrom<T>(s: seq<T>, p: T -> bool, from: nat): (r: Option<nat>)
    requires from <= |s|
    ensures r.Some? ==> from <= r.value < |s| && p(s[r.value])
    ensures r.Some? ==> forall j :: from <= j < r.value ==> !p(s[j])
    ensures r.None? <==> forall j :: from <= j < |s| ==> !p(s[j])
    decreases |s| - from
  {
    if from == |s| then None
    else if p(s[from]) then Some(from)
    else FirstFrom(s, p, from + 1)
  }

  /** The index of the first element satisfying `p`, or `None` when there is none. */
  function First<T>(s: seq<T>, p: T -> bool): (r: Option<nat>)
    ensures r.Some? ==> r.value < |s| && p(s[r.value])
    ensures r.Some? ==> forall j :: 0 <= j < r.value ==> !p(s[j])
    ensures r.None? <==> forall j :: 0 <= j < |s| ==> !p(s[j])
  {
    FirstFrom(s, p, 0)
  }

  /** Whether some element satisfies `p` (Python's `any`). */
  predicate Any<T>(s: seq<T>, p: T -> bool) {
    exists i | 0 <= i < |s| :: p(s[i])
  }

  /** The elements satisfying `p`, in their original order (a list comprehension with `if`). */
  function Filter<T>(s: seq<T>, p: T -> bool): (r: seq<T>)
    ensures |r| <= |s|
  {
    if s == [] then []
    else if p(s[0]) then [s[0]] + Filter(s[1..], p) else Filter(s[1..], p)
  }

  /** `Filter` keeps exactly the elements satisfying `p`, each no more often than it occurs. */
  lemma {:induction false} FilterSpec<T(!new)>(s: seq<T>, p: T -> bool)
    ensures forall x :: x in Filter(s, p) <==> x in s && p(x)
    ensures multiset(Filter(s, p)) <= multiset(s)
  {
    if s != [] {
      FilterSpec(s[1..], p);
      assert s == [s[0]] + s[1..];
    }
  }

  /** Nothing is kept when no element satisfies `p`. */
  lemma {:induction false} FilterNone<T>(s: seq<T>, p: T -> bool)
    requires forall i :: 0 <= i < |s| ==> !p(s[i])
    ensures Filter(s, p) == []
  {
    if s != [] {
      FilterNone(s[1..], p);
    }
  }

  /** The number of elements satisfying `p`. */
  function Count<T>(s: seq<T>, p: T -> bool): (n: nat)
    ensures n <= |s|
    ensures n == 0 <==> forall i :: 0 <= i < |s| ==> !p(s[i])
  {
    if s == [] then 0 else (if p(s[0]) then 1 else 0) + Count(s[1..], p)
  }

  lemma {:induction false} FilterLength<T>(s: seq<T>, p: T -> bool)
    ensures |Filter(s, p)| == Count(s, p)
  {
    if s != [] {
      FilterLength(s[1..], p);
    }
  }

  lemma {:induction false} CountAppend<T>(a: seq<T>, b: seq<T>, p: T -> bool)
    ensures Count(a + b, p) == Count(a, p) + Count(b, p)
  {
    if a == [] {
      assert a + b == b;
    } else {
      assert (a + b)[1..] == a[1..] + b;
      CountAppend(a[1..], b, p);
    }
  }

  /** Two predicates that agree on every element pick the same first element. */
  lemma FirstAgrees<T>(s: seq<T>, p: T -> bool, q: T -> bool)
    requires forall i :: 0 <= i < |s| ==> p(s[i]) == q(s[i])
    ensures First(s, p) == First(s, q)
  {
  }

  /** Filtering distributes over concatenation. */
  lemma {:induction false} FilterAppend<T>(a: seq<T>, b: seq<T>, p: T -> bool)
    ensures Filter(a + b, p) == Filter(a, p) + Filter(b, p)
  {
    if a == [] {
      assert a + b == b;
    } else {
      assert (a + b)[0] == a[0];
      assert (a + b)[1..] == a[1..] + b;
      FilterAppend(a[1..], b, p);
    }
  }

  /** Filtering a sequence extended by one element. */
  lemma FilterSnoc<T>(s: seq<T>, x: T, p: T -> bool)
    ensures Filter(s + [x], p) == Filter(s, p) + (if p(x) then [x] else [])
  {
    FilterAppend(s, [x], p);
    var one := [x];
    assert one[1..] == [];
  }
}

=== FILE: simulations.dfy ===
/** The PhET simulation catalogue and the keyword lookup that attaches a
    simulation card to a tutor answer (Backend/main.py). */
module Simulations {
  import opened Wrappers
  import opened Strings
  import Seqs

  datatype Simulation = Simulation(keywords: seq<string>, title: string, url: string)

  /** The catalogue, in the order the lookup scans it. */
  const PhetDatabase: seq<Simulation> := [
    Simulation(["pendulum", "oscillation", "period", "harmonic", "swing"],
      "Pendulum Lab",
      "https://phet.colorado.edu/sims/html/pendulum-lab/latest/pendulum-lab_en.html"),
    Simulation(["circuit", "current", "voltage", "resistance", "battery", "ohm", "resistor"],
      "Circuit Construction Kit",
      "https://phet.colorado.edu/sims/html/circuit-construction-kit-dc/latest/circuit-construction-kit-dc_en.html"),
    Simulation(["projectile", "motion", "velocity", "acceleration", "trajectory", "cannon"],
      "Projectile Motion",
      "https://phet.colorado.edu/sims/html/projectile-motion/latest/projectile-motion_en.html"),
    Simulation(["wave", "interference", "sound", "frequency", "amplitude", "diffraction"],
      "Wave Interference",
      "https://phet.colorado.edu/sims/html/wave-interference/latest/wave-interference_en.html"),
    Simulation(["friction", "force", "newton", "push", "pull", "inertia"],
      "Forces and Motion",
      "https://phet.colorado.edu/sims/html/forces-and-motion-basics/latest/forces-and-motion-basics_en.html"),
    Simulation(["energy", "heat", "thermal", "temperature", "specific heat"],
      "Energy Forms and Changes",
      "https://phet.colorado.edu/sims/html/energy-forms-and-changes/latest/energy-forms-and-changes_en.html"),
    Simulation(["light", "bending", "refraction", "prism", "lens", "optic"],
      "Bending Light",
      "https://phet.colorado.edu/sims/html/bending-light/latest/bending-light_en.html")
  ]

  /** Some keyword of `sim` occurs in the (already lower-cased) query. */
  predicate Mentions(sim: Simulation, queryLower: string) {
    Seqs.Any(sim.keywords, (k: string) => Contains(queryLower, k))
  }

  /** Entry `i` is the first entry of `table` that the query mentions. */
  predicate FirstMentioned(table: seq<Simulation>, queryLower: string, i: int) {
    && 0 <= i < |table|
    && Mentions(table[i], queryLower)
    && forall j :: 0 <= j < i ==> !Mentions(table[j], queryLower)
  }

  /** `find_simulation` over an arbitrary catalogue: the first entry, in
      catalogue order, one of whose keywords occurs in the lower-cased query. */
  function FindSimulationIn(table: seq<Simulation>, query: string): (r: Option<Simulation>)
    ensures r.None? <==> forall i :: 0 <= i < |table| ==> !Mentions(table[i], Lower(query))
    ensures r.Some? ==> exists i :: FirstMentioned(table, Lower(query), i) && table[i] == r.value
    ensures r.Some? ==> r.value in table && Mentions(r.value, Lower(query))
  {
    var q := Lower(query);
    match Seqs.First(table, (sim: Simulation) => Mentions(sim, q))
    case None => None
    case Some(i) => Some(table[i])
  }

  /** `find_simulation` against the built-in catalogue. */
  function FindSimulation(query: string): (r: Option<Simulation>)
    ensures r.Some? ==> r.value in PhetDatabase && Mentions(r.value, Lower(query))
  {
    FindSimulationIn(PhetDatabase, query)
  }

  /** The lookup ignores ASCII case: a query and its lower-cased form find the same card. */
  lemma FindSimulationCaseInsensitive(query: string)
    ensures FindSimulation(Lower(query)) == FindSimulation(query)
  {
    LowerIdempotent(query);
  }

  /** A question that mentions a pendulum, in any letter case, gets the
      Pendulum Lab card, whatever else it mentions. */
  lemma PendulumQuestionFindsPendulumLab(query: string)
    requires Contains(Lower(query), "pendulum")
    ensures FindSimulation(query) == Some(PhetDatabase[0])
  {
    var sim := PhetDatabase[0];
    assert sim.keywords[0] == "pendulum";
    assert Mentions(sim, Lower(query));
  }
}

=== FILE: strings.dfy ===
/** Character and string operations the Python backend and the JavaScript
    front end apply before comparing text. Case mapping covers ASCII only. */
module Strings {

  /** `str.lower()` on ASCII letters. */
  function LowerChar(c: char): char {
    if 'A' <= c <= 'Z' then (c as int + 32) as char else c
  }

  /** `str.upper()` / `toUpperCase()` on ASCII letters. */
  function UpperChar(c: char): char {
    if 'a' <= c <= 'z' then (c as int - 32) as char else c
  }

  /** `str.lower()` / `toLowerCase()` on ASCII: each character lower-cased on its own. */
  function Lower(s: string): (r: string)
    ensures |r| == |s|
    ensures forall i :: 0 <= i < |s| ==> r[i] == LowerChar(s[i])
  {
    if s == [] then [] else [LowerChar(s[0])] + Lower(s[1..])
  }

  function Upper(s: string): (r: string)
    ensures |r| == |s|
  {
    if s == [] then [] else [UpperChar(s[0])] + Upper(s[1..])
  }

  /** Lower-casing twice is lower-casing once. */
  lemma {:induction false} LowerIdempotent(s: string)
    ensures Lower(Lower(s)) == Lower(s)
  {
    if s != [] {
      LowerIdempotent(s[1..]);
      assert Lower(s)[1..] == Lower(s[1..]);
    }
  }

  lemma {:induction false} LowerAppend(a: string, b: string)
    ensures Lower(a + b) == Lower(a) + Lower(b)
  {
    if a != [] {
      assert (a + b)[0] == a[0] && (a + b)[1..] == a[1..] + b;
      LowerAppend(a[1..], b);
    } else {
      assert a + b == b;
    }
  }

  /** Lower-casing undoes upper-casing. */
  lemma {:induction false} LowerUpper(s: string)
    ensures Lower(Upper(s)) == Lower(s)
  {
    if s != [] {
      LowerUpper(s[1..]);
      assert Upper(s)[0] == UpperChar(s[0]) && Upper(s)[1..] == Upper(s[1..]);
    }
  }

  /** Characters Python's `str.strip()` removes (those for which `str.isspace()` holds). */
  predicate IsPythonSpace(c: char) {
    c == ' ' || '\t' <= c <= '\r' || '\U{1c}' <= c <= '\U{1f}' || c == '\U{85}' || c == '\U{a0}'
    || c == '\U{1680}' || '\U{2000}' <= c <= '\U{200a}' || c == '\U{2028}' || c == '\U{2029}'
    || c == '\U{202f}' || c == '\U{205f}' || c == '\U{3000}'
  }

  /** Characters JavaScript's `String.prototype.trim()` removes. */
  predicate IsJsSpace(c: char) {
    c == ' ' || '\t' <= c <= '\r' || c == '\U{a0}' || c == '\U{feff}'
    || c == '\U{1680}' || '\U{2000}' <= c <= '\U{200a}' || c == '\U{2028}' || c == '\U{2029}'
    || c == '\U{202f}' || c == '\U{205f}' || c == '\U{3000}'
  }

  function DropLeading(s: string, space: char -> bool): string {
    if s == [] || !space(s[0]) then s else DropLeading(s[1..], space)
  }

  function DropTrailing(s: string, space: char -> bool): string {
    if s == [] || !space(s[|s| - 1]) then s else DropTrailing(s[..|s| - 1], space)
  }

  /** `str.strip()`: the longest infix of `s` that neither starts nor ends with whitespace. */
  function Strip(s: string): (r: string)
    ensures |r| <= |s|
    ensures r == [] || (!IsPythonSpace(r[0]) && !IsPythonSpace(r[|r| - 1]))
    ensures r == [] <==> forall i :: 0 <= i < |s| ==> IsPythonSpace(s[i])
  {
    StripSpec(s, IsPythonSpace);
    DropLeadingSpec(s, IsPythonSpace);
    DropTrailingSpec(DropLeading(s, IsPythonSpace), IsPythonSpace);
    DropTrailing(DropLeading(s, IsPythonSpace), IsPythonSpace)
  }

  /** `String.prototype.trim()`: the same with JavaScript's whitespace. */
  function Trim(s: string): (r: string)
    ensures |r| <= |s|
    ensures r == [] || (!IsJsSpace(r[0]) && !IsJsSpace(r[|r| - 1]))
    ensures r == [] <==> forall i :: 0 <= i < |s| ==> IsJsSpace(s[i])
  {
    StripSpec(s, IsJsSpace);
    DropLeadingSpec(s, IsJsSpace);
    DropTrailingSpec(DropLeading(s, IsJsSpace), IsJsSpace);
    DropTrailing(DropLeading(s, IsJsSpace), IsJsSpace)
  }

  /** Dropping leading whitespace leaves a suffix that is empty or starts
      with a non-space, and everything dropped was whitespace. */
  lemma {:induction false} DropLeadingSpec(s: string, space: char -> bool)
    ensures var r := DropLeading(s, space);
      && |r| <= |s| && r == s[|s| - |r|..]
      && (r == [] || !space(r[0]))
      && forall i :: 0 <= i < |s| - |r| ==> space(s[i])
  {
    if s != [] && space(s[0]) {
      var t := s[1..];
      DropLeadingSpec(t, space);
      var r := DropLeading(t, space);
      assert DropLeading(s, space) == r;
      assert t[|t| - |r|..] == s[|s| - |r|..];
      forall i | 0 <= i < |s| - |r| ensures space(s[i]) {
        if i > 0 {
          assert s[i] == t[i - 1];
        }
      }
    }
  }

  lemma {:induction false} DropTrailingSpec(s: string, space: char -> bool)
    ensures var r := DropTrailing(s, space);
      && |r| <= |s| && r == s[..|r|]
      && (r == [] || !space(r[|r| - 1]))
      && forall i :: |r| <= i < |s| ==> space(s[i])
  {
    if s != [] && space(s[|s| - 1]) {
      var t := s[..|s| - 1];
      DropTrailingSpec(t, space);
      var r := DropTrailing(t, space);
      assert DropTrailing(s, space) == r;
      assert t[..|r|] == s[..|r|];
      forall i | |r| <= i < |s| ensures space(s[i]) {
        if i < |s| - 1 {
          assert s[i] == t[i];
        }
      }
    }
  }

  /** Stripping yields an infix that is empty exactly when the input is all
      whitespace, and that otherwise starts and ends with a non-space. */
  lemma StripSpec(s: string, space: char -> bool)
    ensures var r := DropTrailing(DropLeading(s, space), space);
      && (r == [] || (!space(r[0]) && !space(r[|r| - 1])))
      && (r == [] <==> forall i :: 0 <= i < |s| ==> space(s[i]))
  {
    var m := DropLeading(s, space);
    DropLeadingSpec(s, space);
    DropTrailingSpec(m, space);
  }

  /** What stripping keeps is a contiguous part of the text. */
  lemma StripInfix(s: string, space: char -> bool) returns (a: nat)
    ensures var r := DropTrailing(DropLeading(s, space), space);
      a + |r| <= |s| && r == s[a..a + |r|]
  {
    var m := DropLeading(s, space);
    DropLeadingSpec(s, space);
    DropTrailingSpec(m, space);
    a := |s| - |m|;
  }

  /** A blank appended after the text does not survive stripping. */
  lemma {:induction false} StripAppendedSpace(s: string, c: char, space: char -> bool)
    requires space(c)
    ensures DropTrailing(DropLeading(s + [c], space), space) == DropTrailing(DropLeading(s, space), space)
  {
    if s == [] {
      assert DropLeading([c], space) == DropLeading([], space);
    } else if space(s[0]) {
      assert (s + [c])[1..] == s[1..] + [c];
      StripAppendedSpace(s[1..], c, space);
    } else {
      assert DropLeading(s + [c], space) == s + [c];
      assert (s + [c])[..|s + [c]| - 1] == s;
    }
  }

  /** Blanks around the text do not survive stripping. */
  lemma StripPadded(s: string, c: char, space: char -> bool)
    requires space(c)
    ensures DropTrailing(DropLeading([c] + s + [c], space), space) == DropTrailing(DropLeading(s, space), space)
  {
    assert ([c] + s + [c])[1..] == s + [c];
    StripAppendedSpace(s, c, space);
  }

  /** Python's `k in s` on strings, JavaScript's `s.includes(k)`. */
  predicate Contains(s: string, k: string) {
    exists i | 0 <= i <= |s| - |k| :: OccursAt(s, k, i)
  }

  /** `k` occurs in `s` starting at index `i`. */
  predicate OccursAt(s: string, k: string, i: int) {
    0 <= i && i + |k| <= |s| && s[i..i + |k|] == k
  }

  predicate StartsWith(s: string, p: string) {
    |p| <= |s| && s[..|p|] == p
  }

  /** Every string containing `k` contains each prefix of `k`. */
  lemma ContainsPrefix(s: string, k: string, p: string)
    requires Contains(s, k) && StartsWith(k, p)
    ensures Contains(s, p)
  {
    var i :| 0 <= i <= |s| - |k| && OccursAt(s, k, i);
    assert s[i..i + |p|] == k[..|p|];
    assert OccursAt(s, p, i);
  }

  /** `s.replace(c, "")` for a single character. */
  function RemoveChar(s: string, c: char): (r: string)
    ensures |r| <= |s|
  {
    if s == [] then []
    else if s[0] == c then RemoveChar(s[1..], c)
    else [s[0]] + RemoveChar(s[1..], c)
  }

  /** `RemoveChar` removes every occurrence of `c` and keeps everything else. */
  lemma {:induction false} RemoveCharSpec(s: string, c: char)
    ensures forall i :: 0 <= i < |RemoveChar(s, c)| ==> RemoveChar(s, c)[i] != c
    ensures forall i :: 0 <= i < |s| && s[i] != c ==> s[i] in RemoveChar(s, c)
  {
    if s != [] {
      RemoveCharSpec(s[1..], c);
      assert forall i :: 1 <= i < |s| ==> s[i] == s[1..][i - 1];
    }
  }

  /** Python's `s.replace(p, r)`: every non-overlapping occurrence of `p`,
      found left to right, is replaced by `r`. */
  function ReplaceAll(s: string, p: string, r: string): string
    requires |p| > 0
    decreases |s|
  {
    if |s| < |p| then s
    else if s[..|p|] == p then r + ReplaceAll(s[|p|..], p, r)
    else [s[0]] + ReplaceAll(s[1..], p, r)
  }

  /** Replacing a pattern that does not occur changes nothing. */
  lemma {:induction false} ReplaceAllAbsent(s: string, p: string, r: string)
    requires |p| > 0 && !Contains(s, p)
    ensures ReplaceAll(s, p, r) == s
    decreases |s|
  {
    if |s| >= |p| {
      assert !OccursAt(s, p, 0);
      forall i | 0 <= i <= |s[1..]| - |p| && OccursAt(s[1..], p, i)
        ensures false
      {
        assert s[1..][i..i + |p|] == s[i + 1..i + 1 + |p|];
        assert OccursAt(s, p, i + 1);
      }
      ReplaceAllAbsent(s[1..], p, r);
      assert s == [s[0]] + s[1..];
    }
  }

  /** Deleting `p` from `a + p`, where no character of `a` can start `p`,
      leaves exactly `a`. */
  lemma {:induction false} ReplaceAllTrailing(a: string, p: string)
    requires |p| > 0
    requires forall i :: 0 <= i < |a| ==> a[i] != p[0]
    ensures ReplaceAll(a + p, p, "") == a
    decreases |a|
  {
    if a == [] {
      assert a + p == p;
      assert p[|p|..] == [];
    } else {
      assert (a + p)[0] == a[0];
      assert (a + p)[1..] == a[1..] + p;
      ReplaceAllTrailing(a[1..], p);
      assert a == [a[0]] + a[1..];
    }
  }
}

=== FILE: student_dashboard.dfy ===
/** The student page of frontend/src/StudentDashboard.js: the tutor chat and
    the rapid quiz. Each handler is one atomic step from the state before the
    click; the server's reply is an input, and the requests the page sends
    are outputs. */
module StudentDashboard {
  import opened Wrappers
  import opened Strings
  import Simulations

  // ---------------------------------------------------------------------
  // Chat

  datatype Role = User | Ai

  /** One chat bubble; only answers carry a simulation. */
  datatype Message = Message(role: Role, text: string, simulation: Option<Simulations.Simulation>)

  /** The `/student/ask` form: question, unit and the JSON-encoded history. */
  datatype AskRequest = AskRequest(question: string, unit: string, history: seq<Message>)

  /** The reply to `/student/ask`: an answer, or a failed request. */
  datatype AskReply = Answered(answer: string, simulation: Option<Simulations.Simulation>) | ConnectionFailed

  datatype Chat = Chat(selectedUnit: string, question: string, transcript: seq<Message>, loading: bool)

  const ConnectionErrorText: string := "Error connecting."

  /** The guard of `askAI`: a question that is not blank and a selected unit. */
  predicate CanAsk(c: Chat) {
    Trim(c.question) != "" && c.selectedUnit != ""
  }

  /** `askAI`: the question is appended at once and cleared from the input;
      the answer, or the error text, follows it. */
  function AskAi(c: Chat, reply: AskReply): (r: (Chat, Option<AskRequest>))
    ensures !CanAsk(c) ==> r == (c, None)
    ensures CanAsk(c) ==> var (c', req) := r;
      && |c'.transcript| == |c.transcript| + 2
      && c'.transcript[..|c.transcript|] == c.transcript
      && c'.transcript[|c.transcript|] == Message(User, c.question, None)
      && c'.transcript[|c.transcript| + 1].role == Ai
      && c'.question == "" && !c'.loading && c'.selectedUnit == c.selectedUnit
      && req == Some(AskRequest(c.question, c.selectedUnit, c'.transcript[..|c.transcript| + 1]))
  {
    if !CanAsk(c) then (c, None)
    else
      var updated := c.transcript + [Message(User, c.question, None)];
      var answer := match reply
        case Answered(text, sim) => Message(Ai, text, sim)
        case ConnectionFailed => Message(Ai, ConnectionErrorText, None);
      (c.(question := "", transcript := updated + [answer], loading := false),
       Some(AskRequest(c.question, c.selectedUnit, updated)))
  }

  /** The bubble that follows the question is the server's answer, or the error text. */
  lemma AskAiAnswer(c: Chat, reply: AskReply)
    requires CanAsk(c)
    ensures var t := AskAi(c, reply).0.transcript;
      t[|t| - 1] == match reply
        case Answered(text, sim) => Message(Ai, text, sim)
        case ConnectionFailed => Message(Ai, ConnectionErrorText, None)
  {
  }

  /** Earlier messages are never rewritten: any sequence of questions only extends the transcript. */
  lemma {:induction false} TranscriptOnlyGrows(c: Chat, replies: seq<AskReply>, questions: seq<string>)
    requires |replies| == |questions|
    ensures var c' := AskMany(c, questions, replies);
      |c'.transcript| >= |c.transcript| && c'.transcript[..|c.transcript|] == c.transcript
    decreases |replies|
  {
    if replies != [] {
      var next := AskAi(c.(question := questions[0]), replies[0]).0;
      TranscriptOnlyGrows(next, replies[1..], questions[1..]);
      var t := AskMany(next, questions[1..], replies[1..]).transcript;
      assert t[..|c.transcript|] == t[..|next.transcript|][..|c.transcript|];
    }
  }

  /** Typing each question in turn and sending it. */
  function AskMany(c: Chat, questions: seq<string>, replies: seq<AskReply>): Chat
    requires |replies| == |questions|
    decreases |replies|
  {
    if replies == [] then c
    else AskMany(AskAi(c.(question := questions[0]), replies[0]).0, questions[1..], replies[1..])
  }

  /** `handleRefreshContext`: a confirmed clear empties the transcript and the input. */
  function RefreshContext(c: Chat, confirmed: bool): (r: Chat)
    ensures confirmed ==> r.transcript == [] && r.question == ""
    ensures !confirmed ==> r == c
    ensures r.selectedUnit == c.selectedUnit && r.loading == c.loading
  {
    if confirmed then c.(transcript := [], question := "") else c
  }

  /** The send button's `disabled` condition. */
  predicate SendDisabled(c: Chat) {
    c.selectedUnit == "" || c.loading || Trim(c.question) == ""
  }

  /** An enabled send button never hits the no-op guard of `askAI`. */
  lemma EnabledSendAsks(c: Chat, reply: AskReply)
    requires !SendDisabled(c)
    ensures AskAi(c, reply).1.Some?
  {
  }

  // ---------------------------------------------------------------------
  // Quiz

  datatype Question = Question(text: string, options: seq<string>, answer: string)

  datatype Quiz = Quiz(
    questions: seq<Question>, index: nat, score: nat, finished: bool, shown: bool, loading: bool, xp: int)

  /** The reply to `/student/quiz/generate`: a `quiz` list, a reply without
      one, or a failed request. */
  datatype QuizReply = Generated(quiz: seq<Question>) | NoQuiz | RequestFailed

  /** What a handler sends or shows besides its state. */
  datatype Effect = NoEffect | Alert(message: string) | SubmitScore(unit: string, score: int)

  /** `startQuiz` including the reply. Without a unit only the alert happens. */
  function StartQuiz(q: Quiz, unit: string, reply: QuizReply): (r: (Quiz, Effect))
    ensures unit == "" ==> r == (q, Alert("Select a unit first!"))
    ensures unit != "" ==> var q' := r.0;
      && q'.score == 0 && q'.index == 0 && !q'.finished && !q'.loading && q'.xp == q.xp
      && (q'.shown <==> reply.Generated?)
      && (reply.Generated? ==> q'.questions == reply.quiz && r.1 == NoEffect)
      && (!reply.Generated? ==> q'.questions == q.questions && r.1.Alert?)
  {
    if unit == "" then (q, Alert("Select a unit first!"))
    else
      var reset := q.(shown := true, finished := false, score := 0, index := 0, loading := false);
      match reply
      case Generated(quiz) => (reset.(questions := quiz), NoEffect)
      case NoQuiz => (reset.(shown := false), Alert("Quiz Gen Failed"))
      case RequestFailed => (reset.(shown := false), Alert("Error starting quiz"))
  }

  /** The option buttons are on screen: a question is showing. */
  predicate Answerable(q: Quiz) {
    q.shown && !q.loading && !q.finished && q.index < |q.questions|
  }

  /** Ten points for an exact match with the stored answer. */
  function Points(question: Question, option: string): nat {
    if option == question.answer then 10 else 0
  }

  /** `handleAnswer` with `finishQuiz` on the last question. The score update
      is queued, so `finishQuiz` still reads the score from before this
      answer; its check compares the last question's answer with the current
      question's, which on the last question is itself. */
  function HandleAnswer(q: Quiz, unit: string, option: string): (r: (Quiz, Effect))
    requires Answerable(q)
    ensures r.0.score == q.score + Points(q.questions[q.index], option)
    ensures q.index + 1 < |q.questions| ==> r.0 == q.(index := q.index + 1, score := r.0.score) && r.1 == NoEffect
    ensures q.index + 1 >= |q.questions| ==>
      && r.0.finished && r.0.index == q.index
      && r.1 == SubmitScore(unit, q.score + 10) && r.0.xp == q.xp + q.score + 10
  {
    var score := q.score + Points(q.questions[q.index], option);
    if q.index + 1 < |q.questions| then
      (q.(index := q.index + 1, score := score), NoEffect)
    else
      var last := q.questions[|q.questions| - 1];
      var finalScore := q.score + (if last.answer == q.questions[q.index].answer then 10 else 0);
      (q.(score := score, finished := true, xp := q.xp + finalScore), SubmitScore(unit, finalScore))
  }

  /** The score shown on the results screen (`+{quizScore} XP`). */
  function DisplayedScore(q: Quiz): nat {
    q.score
  }

  /** The number of answers that match, question by question. */
  function Correct(questions: seq<Question>, answers: seq<string>): (n: nat)
    requires |answers| <= |questions|
    ensures n <= |answers|
    ensures n == |answers| <==> forall i :: 0 <= i < |answers| ==> answers[i] == questions[i].answer
    decreases |answers|
  {
    if answers == [] then 0
    else Correct(questions, answers[..|answers| - 1]) + (if answers[|answers| - 1] == questions[|answers| - 1].answer then 1 else 0)
  }

  /** Answering the questions in turn; the last effect is kept. */
  function Play(q: Quiz, unit: string, answers: seq<string>): (Quiz, Effect)
    decreases |answers|
  {
    if answers == [] || !Answerable(q) then (q, NoEffect)
    else
      var (q', e) := HandleAnswer(q, unit, answers[0]);
      if answers[1..] == [] then (q', e) else Play(q', unit, answers[1..])
  }

  /** A quiz freshly generated with `questions`. */
  function Started(questions: seq<Question>, xp: int): Quiz {
    Quiz(questions, 0, 0, false, true, false, xp)
  }

  /** After `k` answers that do not finish the quiz, the index is `k` and the
      score counts ten per match. */
  lemma {:induction false} PlayPrefix(questions: seq<Question>, xp: int, unit: string, answers: seq<string>)
    requires |answers| < |questions|
    ensures var q := Play(Started(questions, xp), unit, answers).0;
      && q.index == |answers| && q.score == 10 * Correct(questions, answers)
      && Answerable(q) && q.xp == xp && q.questions == questions
    decreases |answers|
  {
    if answers != [] {
      var p := answers[..|answers| - 1];
      PlayPrefix(questions, xp, unit, p);
      PlaySnoc(Started(questions, xp), unit, p, answers[|answers| - 1]);
      assert p + [answers[|answers| - 1]] == answers;
    }
  }

  /** Playing one more answer after a prefix that leaves a question showing. */
  lemma {:induction false} PlaySnoc(q: Quiz, unit: string, answers: seq<string>, a: string)
    requires Answerable(Play(q, unit, answers).0)
    ensures Play(q, unit, answers + [a]) == HandleAnswer(Play(q, unit, answers).0, unit, a)
    decreases |answers|
  {
    if answers == [] {
      assert [a][1..] == [];
    } else {
      assert Answerable(q);
      var (q', e) := HandleAnswer(q, unit, answers[0]);
      assert (answers + [a])[0] == answers[0];
      assert (answers + [a])[1..] == answers[1..] + [a];
      if answers[1..] == [] {
        assert answers == [answers[0]];
        assert Play(q', unit, [a]) == HandleAnswer(q', unit, a);
      } else {
        PlaySnoc(q', unit, answers[1..], a);
      }
    }
  }

  /** A complete quiz: the screen shows ten per correct answer, while the XP
      credited and submitted is ten per correct answer among all but the last
      question, plus ten whether or not the last answer was right. */
  lemma FinishedQuizScores(questions: seq<Question>, xp: int, unit: string, answers: seq<string>)
    requires |questions| > 0 && |answers| == |questions|
    ensures var (q, e) := Play(Started(questions, xp), unit, answers);
      var credited := 10 * Correct(questions, answers[..|answers| - 1]) + 10;
      && q.finished
      && DisplayedScore(q) == 10 * Correct(questions, answers)
      && e == SubmitScore(unit, credited)
      && q.xp == xp + credited
  {
    var p := answers[..|answers| - 1];
    PlayPrefix(questions, xp, unit, p);
    PlaySnoc(Started(questions, xp), unit, p, answers[|answers| - 1]);
    assert p + [answers[|answers| - 1]] == answers;
  }

  /** Two right answers and a wrong last one: the screen shows 20 XP, but 30 are credited. */
  lemma WrongLastAnswerStillCredited()
    ensures var questions := [Question("q1", ["a", "b"], "a"), Question("q2", ["a", "b"], "b"), Question("q3", ["a", "b"], "a")];
      var (q, e) := Play(Started(questions, 0), "Unit 1", ["a", "b", "b"]);
      DisplayedScore(q) == 20 && e == SubmitScore("Unit 1", 30) && q.xp == 30
  {
    var questions := [Question("q1", ["a", "b"], "a"), Question("q2", ["a", "b"], "b"), Question("q3", ["a", "b"], "a")];
    var answers := ["a", "b", "b"];
    FinishedQuizScores(questions, 0, "Unit 1", answers);
    assert answers[..2] == ["a", "b"];
    assert answers[..2][..1] == ["a"];
    assert answers[..1] == ["a"];
    assert ["a"][..0] == [];
  }

  /** The XP total never goes down while answering. */
  lemma XpNeverDecreases(q: Quiz, unit: string, option: string)
    requires Answerable(q)
    ensures HandleAnswer(q, unit, option).0.xp >= q.xp
  {
  }

  /** `Back to Learning` and `Cancel Quiz` hide the quiz and keep everything else. */
  function CloseQuiz(q: Quiz): (r: Quiz)
    ensures !r.shown && r == q.(shown := false)
  {
    q.(shown := false)
  }

  // ---------------------------------------------------------------------
  // Start-up

  /** The units list and XP the page loads with; a failed request leaves the
      defaults (a failed units request also skips the XP request). */
  datatype Startup = Startup(units: seq<string>, selectedUnit: string, sidebarLoading: bool, xp: int)

  /** `stats.data.xp || 0`: a missing or zero XP reads as 0. */
  function XpOrZero(xp: Option<int>): int {
    match xp case None => 0 case Some(v) => v
  }

  function Init(unitsReply: Option<seq<string>>, statsReply: Option<Option<int>>): (s: Startup)
    ensures unitsReply.None? ==> s == Startup([], "", true, 0)
    ensures unitsReply.Some? && |unitsReply.value| > 0 ==>
      s.units == unitsReply.value && s.selectedUnit == unitsReply.value[0]
    ensures unitsReply == Some([]) ==> s.units == [] && s.selectedUnit == ""
    ensures unitsReply.Some? ==> !s.sidebarLoading
    ensures unitsReply.Some? && statsReply.None? ==> s.xp == 0
    ensures unitsReply.Some? && statsReply.Some? ==> s.xp == XpOrZero(statsReply.value)
  {
    match unitsReply
    case None => Startup([], "", true, 0)
    case Some(units) =>
      var s := if |units| > 0 then Startup(units, units[0], false, 0) else Startup([], "", false, 0);
      match statsReply
      case None => s
      case Some(xp) => s.(xp := XpOrZero(xp))
  }
}

=== FILE: topic_chart.dfy ===
/** The bar chart of frontend/src/TopicChart.js: the labels and values it
    draws, and which unit a click on a bar reports. */
module TopicChart {
  import opened Wrappers

  /** One entry of `chartData`. */
  datatype Bar = Bar(topic: string, count: nat)

  /** The `data` object handed to the chart: labels and values. */
  datatype ChartInput = ChartInput(labels: seq<string>, values: seq<nat>)

  /** Labels and values follow `chartData` entry by entry. */
  function ChartData(bars: seq<Bar>): (d: ChartInput)
    ensures |d.labels| == |bars| && |d.values| == |bars|
    ensures forall i :: 0 <= i < |bars| ==> d.labels[i] == bars[i].topic && d.values[i] == bars[i].count
  {
    ChartInput(seq(|bars|, i requires 0 <= i < |bars| => bars[i].topic),
               seq(|bars|, i requires 0 <= i < |bars| => bars[i].count))
  }

  /** The bars under the cursor, as the chart library reports them: indices into `chartData`. */
  predicate HitsBars(bars: seq<Bar>, hits: seq<nat>) {
    forall k :: 0 <= k < |hits| ==> hits[k] < |bars|
  }

  /** `onClick`: the unit handed to `onUnitClick`, or `None` when it is not
      called (no handler, no chart yet, or no bar under the cursor). */
  function OnClick(bars: seq<Bar>, hasHandler: bool, hasChart: bool, hits: seq<nat>): (call: Option<string>)
    requires HitsBars(bars, hits)
    ensures call.Some? <==> hasHandler && hasChart && |hits| > 0
    ensures call.Some? ==> call.value == bars[hits[0]].topic
  {
    if !hasHandler || !hasChart || |hits| == 0 then None
    else Some(bars[hits[0]].topic)
  }

  /** A click on bar `i` reports the label drawn under that bar. */
  lemma ClickReportsLabel(bars: seq<Bar>, i: nat)
    requires i < |bars|
    ensures OnClick(bars, true, true, [i]) == Some(ChartData(bars).labels[i])
  {
  }
}

=== FILE: typewriter.dfy ===
/** The `Typewriter` title of frontend/src/LandingPage.js: on each timer
    tick one more character of the text appears. */
module Typewriter {
  /** What is shown and the position of the next character. */
  datatype Typing = Typing(shown: string, index: nat)

  const Start: Typing := Typing("", 0)

  /** The text the landing page types. */
  const Title: string := "EduAI "

  /** A tick is scheduled only while characters remain. */
  predicate Pending(text: string, t: Typing) {
    t.index < |text|
  }

  /** What is shown is the prefix of the text up to the position. */
  predicate Typed(text: string, t: Typing) {
    t.index <= |text| && t.shown == text[..t.index]
  }

  /** One timer tick: the next character is appended and the position advances. */
  function Tick(text: string, t: Typing): (r: Typing)
    requires Pending(text, t)
    ensures r.index == t.index + 1 && |r.shown| == |t.shown| + 1
    ensures r.shown[..|t.shown|] == t.shown && r.shown[|t.shown|] == text[t.index]
    ensures Typed(text, t) ==> Typed(text, r)
  {
    Typing(t.shown + [text[t.index]], t.index + 1)
  }

  /** The state after `n` ticks from the start. */
  function After(text: string, n: nat): (r: Typing)
    requires n <= |text|
    ensures Typed(text, r) && r.index == n
  {
    if n == 0 then Start else Tick(text, After(text, n - 1))
  }

  /** After as many ticks as the text has characters the whole text is
      shown and no further tick is scheduled. */
  lemma WholeTextTyped(text: string)
    ensures After(text, |text|).shown == text && !Pending(text, After(text, |text|))
  {
  }

  /** The landing page ends up showing `EduAI ` after six ticks. */
  lemma TitleTyped()
    ensures After(Title, 6).shown == "EduAI "
  {
    WholeTextTyped(Title);
  }
}

=== FILE: unicode.dfy ===
/** UTF-8, as Python's `str.encode('utf-8')` produces it: the bytes that
    `urllib.parse.quote_plus` escapes and that bcrypt hashes. */
module Unicode {
  type Byte = b: int | 0 <= b < 256

  /** The UTF-8 encoding of one character. */
  function Utf8(c: char): (bs: seq<Byte>)
    ensures 1 <= |bs| <= 4
    ensures (c as int < 0x80) <==> |bs| == 1
    ensures c as int < 0x80 ==> bs == [c as int]
    ensures c as int >= 0x80 ==> forall i :: 0 <= i < |bs| ==> bs[i] >= 0x80
  {
    var cp := c as int;
    if cp < 0x80 then [cp]
    else if cp < 0x800 then [0xC0 + cp / 64, 0x80 + cp % 64]
    else if cp < 0x10000 then [0xE0 + cp / 4096, 0x80 + (cp / 64) % 64, 0x80 + cp % 64]
    else [0xF0 + cp / 262144, 0x80 + (cp / 4096) % 64, 0x80 + (cp / 64) % 64, 0x80 + cp % 64]
  }

  /** `str.encode('utf-8')`. */
  function Encode(s: string): (bs: seq<Byte>)
    ensures |bs| >= |s|
  {
    if s == [] then [] else Utf8(s[0]) + Encode(s[1..])
  }

  lemma {:induction false} EncodeAppend(a: string, b: string)
    ensures Encode(a + b) == Encode(a) + Encode(b)
  {
    if a == [] {
      assert a + b == b;
    } else {
      assert (a + b)[1..] == a[1..] + b;
      EncodeAppend(a[1..], b);
    }
  }
}

=== FILE: virtual_lab.dfy ===
/** The physics lab page of frontend/src/VirtualLab.js: the fixed table of
    experiments, choosing one, the two sliders and the observation log. */
module VirtualLab {
  import opened Wrappers

  /** A slider's `[min, max, step]`. */
  datatype Range = Range(min: real, max: real, step: real)

  /** An entry of the experiment table; formulas and texts for display are left out. */
  datatype Experiment = Experiment(id: nat, title: string, technique: string, ranges: seq<Range>)

  const Experiments: seq<Experiment> := [
    Experiment(1, "Young's Modulus", "Non-uniform Bending", [Range(0.0, 2.0, 0.2), Range(0.5, 1.0, 0.1)]),
    Experiment(3, "Young's Modulus", "Cantilever Bending", [Range(0.0, 1.0, 0.1), Range(0.3, 0.8, 0.1)]),
    Experiment(4, "Ultrasonic Velocity", "Interferometer", [Range(1.0, 5.0, 0.5), Range(0.0, 10.0, 1.0)]),
    Experiment(5, "Laser Wavelength", "Diffraction Grating", [Range(10.0, 50.0, 5.0), Range(1.0, 3.0, 1.0)]),
    Experiment(7, "Thermal Conductivity", "Lee's Disc", [Range(80.0, 100.0, 1.0), Range(30.0, 70.0, 1.0)]),
    Experiment(10, "Viscosity", "Poiseuille's Method", [Range(10.0, 50.0, 5.0), Range(0.5, 2.0, 0.1)])
  ]

  /** Two sliders, each with a non-empty range and a positive step. */
  predicate WellFormed(e: Experiment) {
    |e.ranges| == 2 && forall i :: 0 <= i < 2 ==> e.ranges[i].min <= e.ranges[i].max && e.ranges[i].step > 0.0
  }

  /** Every entry is well formed and no two entries share an id. */
  lemma ExperimentTable()
    ensures forall i :: 0 <= i < |Experiments| ==> WellFormed(Experiments[i])
    ensures forall i, j :: 0 <= i < j < |Experiments| ==> Experiments[i].id != Experiments[j].id
  {
  }

  /** One row of the log: serial number, the two slider values, and the two
      arguments the observation formula was evaluated on. */
  datatype Reading = Reading(sNo: nat, v1: real, v2: real, obsArgs: (real, real))

  datatype Lab = Lab(active: Option<Experiment>, readings: seq<Reading>, val1: real, val2: real)

  /** The page as it first loads: the library, no readings, sliders at 0. */
  const Initial: Lab := Lab(None, [], 0.0, 0.0)

  /** Serial numbers count down from the log's length to 1, newest first. */
  predicate SerialsDescend(readings: seq<Reading>) {
    forall i :: 0 <= i < |readings| ==> readings[i].sNo == |readings| - i
  }

  /** `resetExp`: choose an experiment, empty the log, move both sliders to their minimums. */
  function ResetExp(lab: Lab, e: Experiment): (r: Lab)
    requires WellFormed(e)
    ensures r.active == Some(e) && r.readings == []
    ensures r.val1 == e.ranges[0].min && r.val2 == e.ranges[1].min
    ensures InRange(r)
  {
    Lab(Some(e), [], e.ranges[0].min, e.ranges[1].min)
  }

  /** `val || min`: a zero slider value is replaced by the range minimum. */
  function OrMin(v: real, min: real): (r: real)
    ensures v != 0.0 ==> r == v
    ensures v == 0.0 ==> r == min
  {
    if v != 0.0 then v else min
  }

  /** `handleRecord`: a new row goes in front, numbered one past the log's length. */
  function HandleRecord(lab: Lab): (r: Lab)
    requires lab.active.Some? && WellFormed(lab.active.value)
    ensures |r.readings| == |lab.readings| + 1 && r.readings[1..] == lab.readings
    ensures r.readings[0].sNo == |lab.readings| + 1
    ensures r.readings[0].v1 == lab.val1 && r.readings[0].v2 == lab.val2
    ensures r == lab.(readings := r.readings)
    ensures SerialsDescend(lab.readings) ==> SerialsDescend(r.readings)
  {
    var e := lab.active.value;
    var row := Reading(|lab.readings| + 1, lab.val1, lab.val2,
                       (OrMin(lab.val1, e.ranges[0].min), OrMin(lab.val2, e.ranges[1].min)));
    lab.(readings := [row] + lab.readings)
  }

  /** The range sliders: the browser only yields values inside the range. */
  function SetSlider(lab: Lab, which: nat, v: real): (r: Lab)
    requires lab.active.Some? && WellFormed(lab.active.value) && which < 2
    requires lab.active.value.ranges[which].min <= v <= lab.active.value.ranges[which].max
    ensures which == 0 ==> r == lab.(val1 := v)
    ensures which == 1 ==> r == lab.(val2 := v)
    ensures InRange(lab) ==> InRange(r)
  {
    if which == 0 then lab.(val1 := v) else lab.(val2 := v)
  }

  /** With an experiment open, both sliders sit inside their ranges. */
  predicate InRange(lab: Lab) {
    lab.active.Some? ==>
      var e := lab.active.value;
      WellFormed(e) && e.ranges[0].min <= lab.val1 <= e.ranges[0].max && e.ranges[1].min <= lab.val2 <= e.ranges[1].max
  }

  /** The `Library` button: back to the table, the log and sliders kept. */
  function Library(lab: Lab): (r: Lab)
    ensures r.active.None? && r.readings == lab.readings && r.val1 == lab.val1 && r.val2 == lab.val2
  {
    lab.(active := None)
  }

  /** Recording `k` times in a row. */
  function RecordTimes(lab: Lab, k: nat): (r: Lab)
    requires lab.active.Some? && WellFormed(lab.active.value)
    ensures |r.readings| == |lab.readings| + k && r == lab.(readings := r.readings)
    decreases k
  {
    if k == 0 then lab else HandleRecord(RecordTimes(lab, k - 1))
  }

  /** After choosing an experiment and recording `k` times, the log holds
      `k` rows numbered `k, k-1, ..., 1`, each with the slider values of the moment. */
  lemma {:induction false} SerialsAfterRecording(lab: Lab, e: Experiment, k: nat)
    requires WellFormed(e)
    ensures var r := RecordTimes(ResetExp(lab, e), k);
      |r.readings| == k && SerialsDescend(r.readings)
      && forall i :: 0 <= i < k ==> r.readings[i].v1 == e.ranges[0].min && r.readings[i].v2 == e.ranges[1].min
    decreases k
  {
    if k > 0 {
      SerialsAfterRecording(lab, e, k - 1);
    }
  }

  /** A recorded row feeds the formula its range minimum in place of a zero
      slider, so the formula never sees a zero where the minimum is not zero. */
  lemma ObservationArguments(lab: Lab)
    requires lab.active.Some? && WellFormed(lab.active.value) && InRange(lab)
    ensures var row := HandleRecord(lab).readings[0]; var e := lab.active.value;
      && (lab.val1 == 0.0 ==> row.obsArgs.0 == e.ranges[0].min)
      && (lab.val1 != 0.0 ==> row.obsArgs.0 == lab.val1)
      && (lab.val2 == 0.0 ==> row.obsArgs.1 == e.ranges[1].min)
      && (lab.val2 != 0.0 ==> row.obsArgs.1 == lab.val2)
      && e.ranges[0].min <= row.obsArgs.0 <= e.ranges[0].max
      && e.ranges[1].min <= row.obsArgs.1 <= e.ranges[1].max
  {
  }

  /** Leaving for the library and coming back to the same experiment: only
      choosing it again empties the log. */
  lemma LibraryKeepsLog(lab: Lab, e: Experiment)
    requires WellFormed(e)
    ensures Library(lab).readings == lab.readings
    ensures ResetExp(Library(lab), e).readings == []
  {
  }
}

=== FILE: wrappers.dfy ===
/** Failure-carrying wrappers shared by every module of the model. */
module Wrappers {

  /** A value that may be absent (Python `None`, JavaScript `null`/`undefined`). */
  datatype Option<+T> = None | Some(value: T) {
    function GetOr(default: T): T {
      match this
      case Some(v) => v
      case None => default
    }
  }

  /** Either a value or the error a handler or endpoint reports instead. */
  datatype Result<+R, +E> = Ok(value: R) | Err(error: E)
}
